=== FILE: README.md ===
# Domino: a Dafny model of the server-side game engine

This project models a four-seat domino game played over the network. Seats 0
and 2 form the first team and seats 1 and 3 the second. The signed-in players
take the first seats and the server plays the rest.

The model covers these parts:

- **Chip** (`Chips`): two pips and a side flag. The flag says whether the chip
  goes on the first end of the line.
- **Hand** (`Hands`): the chips one seat holds. Chips leave it by position or
  by identity.
- **Line** (`Lines`): the board, kept as the list of end values and the list
  of played chips. It answers which chips may be played, and it places chips
  in two ways: a player's placement on a named side, and the server's
  placement, which picks the side itself.
- **Tile set** (`Tiles`): the 28 chips of a double-six set. They are shuffled
  and handed out seven at a time through a cursor.
- **Server game** (`ServerGames`): one match. It deals rounds, picks the
  opening seat and plays the server's seats. It also scores a won round and
  closes a blocked one.
- **Match-maker and dispatcher** (`Server`): the waiting pool, which forms a
  game once two signed-in players wait. It also holds the per-connection
  handling of `LOGIN`, `PLAY_CHIP`, `PASS`, `LOGOUT` and bad requests,
  including the round restart in `endGame`.
- **Client game** (`ClientGames`): the client's view of a game. It names
  seats and teams and asks the line about moves.
- **Address check** (`Protocols`): the IPv4 address validator. It is proved
  equal to the `IPv4address` rule of section 3.2.2 of RFC 3986.
- **Wire format** (`Json`, `Players`): the JSON written for chips and chip
  lists, with a reader that gets the chips back. The messages the server
  sends are a datatype, and every write is appended to a log.

Every object whose fields the Java code updates in place is a Dafny `class`,
and every method that changes it names what it may change. These classes
are the chip, hand, line, tile set, server game, server, player thread and
connection log. A Java list that is mutated becomes a `seq` field that the
methods reassign.

The shuffle's random draws and the order in which requests arrive are
parameters. A request is a datatype: a parsed action with its data, or text
that is not JSON.

## Model

| member | source | states |
|---|---|---|
| Chips.DominoChip.FaceDown | src/main/java/model/DominoChip.java:34-39 | the face-down chip has pips -1 and -1 and its side flag set |
| Chips.DominoChip.constructor | src/main/java/model/DominoChip.java:47-50 | both pips are stored unchanged and the side flag starts false |
| Chips.DominoChip.SetPlaceFirst | src/main/java/model/DominoChip.java:78-80 | the flag takes the given value; the pips are constants, so they cannot change |
| Chips.DominoChip.AsJson | src/main/java/model/DominoChip.java:128-130 | the text is `{"first":f,"second":s,"place_first":b}` with keys in that order, and reading it back gives the chip's pips and flag |
| Chips.DataOf | src/main/java/model/DominoChip.java:128-130 | the wire data of a chip list has one entry per chip, in order |
| Chips.DataOfSnoc | src/main/java/model/DominoLine.java:166 | appending a chip appends its wire data |
| Chips.ListAsJson | src/main/java/model/DominoHand.java:79-92 | the loop builds `[` + the chips' texts joined by commas + `]`, and the text reads back to the chips in order |
| Chips.OpenedStep | src/main/java/model/DominoHand.java:82-89 | one loop step adds a comma (except before the first chip) and the chip's text |
| Chips.Closed | src/main/java/model/DominoHand.java:90-91 | closing the bracket gives the full list text, which reads back to the chips |
| Chips.TextsStep | src/main/java/model/DominoLine.java:204-211 | rendering one more chip extends the joined text by that chip's text |
| Json.NatToString | src/main/java/model/DominoChip.java:129 | Java's decimal rendering of a natural number: at least one digit, no leading zero, one digit exactly below 10 |
| Json.IntRoundTrip | src/main/java/model/DominoChip.java:129 | reading back a rendered integer, negative ones included, gives the integer and the rest of the text untouched |
| Json.BoolRoundTrip | src/main/java/model/DominoChip.java:129 | reading back `true` or `false` gives the flag |
| Json.ChipRoundTrip | src/main/java/model/DominoChip.java:128-130 | a chip's text reads back to the same pips and flag |
| Json.FlatChipJson | src/main/java/model/DominoChip.java:129 | the chip text is Java's concatenation, read left to right |
| Json.ListRoundTrip | src/main/java/model/DominoHand.java:79-92 | a chip list's text reads back to the same list, and `[]` to the empty one |
| Json.JoinSnoc | src/main/java/model/DominoLine.java:204-211 | appending a text to the joined list adds a comma (unless it is the first) and that text |
| Json.DigitRun | src/main/java/model/DominoChip.java:129 | the digit run at the front of a text is maximal |
| Json.Expect | src/main/java/model/DominoChip.java:129 | a literal is stripped exactly when the text starts with it |
| Json.ParseNat | src/main/java/model/DominoChip.java:129 | a number read from the front leaves a strictly shorter suffix |
| Json.ParseChip | src/main/java/model/DominoChip.java:128-130 | a chip read from the front leaves a strictly shorter suffix |
| Hands.DominoHand.constructor | src/main/java/model/DominoHand.java:22-24 | the hand holds the given chips |
| Hands.DominoHand.GetChip | src/main/java/model/DominoHand.java:33-35 | the chip at that position, taken from the hand, which is left alone |
| Hands.DominoHand.PlayChip | src/main/java/model/DominoHand.java:53-55 | exactly the chip at that position leaves; the rest keep their order |
| Hands.DominoHand.RemoveChip | src/main/java/model/DominoHand.java:100-102 | the first occurrence of that very chip object leaves; without one the hand is unchanged |
| Hands.DominoHand.HasDouble6 | src/main/java/model/DominoHand.java:63-71 | true exactly when some chip has pips 6 and 6 |
| Hands.DominoHand.AsJson | src/main/java/model/DominoHand.java:79-92 | the chips in hand order as a JSON array that reads back to them |
| Hands.DominoHand.Count | src/main/java/model/DominoHand.java:110-116 | the pip total of the hand, 0 when it is empty |
| Hands.RemoveAtPipSum | src/main/java/model/DominoHand.java:53-55 | removing a chip lowers the pip total by that chip's pips |
| Hands.PipSumAppend | src/main/java/model/DominoHand.java:110-116 | the pip total of two lists joined is the sum of their totals |
| Hands.PipSumSplit | src/main/java/model/DominoHand.java:110-116 | a chip between two runs adds its pips to theirs |
| Lines.Place | src/main/java/model/DominoLine.java:149-167 | on an empty line the ends become the chip's two pips; otherwise one new end goes on the named side and the other side's end is kept |
| Lines.PlaceJoins | src/main/java/model/DominoLine.java:153-165 | a chip that fits the end it is laid on joins it: the old end and the new end are its two pips, and a double keeps the end value |
| Lines.ReplayStep | src/main/java/model/DominoLine.java:222-226 | replaying one more chip places it on the ends left by the earlier ones |
| Lines.ReplayShaped | src/main/java/model/DominoLine.java:150-167 | every play keeps the ends list one longer than the chip list, or both empty |
| Lines.ReplayAppend | src/main/java/model/DominoLine.java:222-226 | replaying a list split in two replays the first part, then the second |
| Lines.DominoLine.constructor | src/main/java/model/DominoLine.java:29-32 | a new line has no ends and no chips |
| Lines.DominoLine.Clear | src/main/java/model/DominoLine.java:39-42 | both lists are emptied |
| Lines.DominoLine.EmptyMeansNoChips | src/main/java/model/DominoLine.java:254-256 | on a well-formed line, no ends means no chips, and the other way round |
| Lines.DominoLine.HasDifferentEnds | src/main/java/model/DominoLine.java:50-52 | false on an empty line; otherwise whether the first and last ends differ |
| Lines.DominoLine.CanPlayFirst | src/main/java/model/DominoLine.java:103-117 | on an empty line: any chip, or only the double six in the opening round; otherwise a pip equals the first end |
| Lines.DominoLine.CanPlayLast | src/main/java/model/DominoLine.java:127-141 | the same rule against the last end |
| Lines.DominoLine.CanPlay | src/main/java/model/DominoLine.java:77-93 | the same opening rule on an empty line; otherwise playable exactly when it fits the first or the last end |
| Lines.DominoLine.CanPlayAny | src/main/java/model/DominoLine.java:61-68 | true exactly when some chip of the hand may be played |
| Lines.DominoLine.PlayChip | src/main/java/model/DominoLine.java:149-167 | the ends change as `Place` says on the chip's named side, the chip is appended once, and the line stays well formed |
| Lines.DominoLine.PlayChipCPU | src/main/java/model/DominoLine.java:174-193 | the first side is chosen exactly when the line is empty or a pip matches the first end, the flag records the choice, and the ends are those a player's placement on that side gives |
| Lines.DominoLine.Update | src/main/java/model/DominoLine.java:222-226 | the chips are played in list order: the ends are their replay and the chips are appended |
| Lines.DominoLine.AsJson | src/main/java/model/DominoLine.java:201-214 | the played chips in play order as a JSON array that reads back to them |
| Tiles.Pips | src/main/java/model/DominoTiles.java:34-38 | the pips of each chip, in list order |
| Tiles.RowsLength | src/main/java/model/DominoTiles.java:34-38 | the nested loops make n(n+1)/2 pairs for first values below n |
| Tiles.RowsMember | src/main/java/model/DominoTiles.java:34-38 | a pair is made exactly when 0 <= second <= first < n |
| Tiles.RowsDistinct | src/main/java/model/DominoTiles.java:34-38 | no pair is made twice |
| Tiles.EnumerationFacts | src/main/java/model/DominoTiles.java:28-39 | 28 distinct pairs, exactly those with 0 <= second <= first <= 6, the last being (6, 6) |
| Tiles.EnumeratedSet | src/main/java/model/DominoTiles.java:28-39 | the enumerated chips form a double-six set |
| Tiles.Swap | src/main/java/model/DominoTiles.java:47 | one swap of the shuffle keeps the chips and the length |
| Tiles.CursorRoom | src/main/java/model/DominoTiles.java:62-66 | a cursor at a multiple of seven below 28 has seven chips ahead of it |
| Tiles.DominoTiles.constructor | src/main/java/model/DominoTiles.java:28-39 | one fresh chip per pair, in enumeration order, with the cursor at 0 |
| Tiles.DominoTiles.ChipsDistinct | src/main/java/model/DominoTiles.java:28-39 | no chip appears twice, whatever the order |
| Tiles.DominoTiles.UniqueDoubleSix | src/main/java/model/DominoTiles.java:28-39 | exactly one chip is the double six, whatever the order |
| Tiles.DominoTiles.Shuffle | src/main/java/model/DominoTiles.java:46-49 | the chips are permuted (same multiset) and the cursor goes back to 0 |
| Tiles.DominoTiles.GetHand | src/main/java/model/DominoTiles.java:57-69 | below the end: the seven chips at the cursor, in order, and the cursor moves by seven; at the end: nothing, and the cursor stays |
| Players.ActionsDistinct | src/main/java/utilities/NetworkProtocols.java:31-77 | every kind of message is tagged with its own protocol constant |
| Players.DominoPlayer.constructor | src/main/java/model/DominoPlayer.java:55-61 | a new connection has no id, no name and no hand |
| Players.DominoPlayer.SetCredentials | src/main/java/model/DominoPlayer.java:193-196 | id and name are recorded; the hand is kept |
| Players.DominoPlayer.SetHand | src/main/java/model/DominoPlayer.java:263-265 | the hand is set; id and name are kept |
| Players.Broadcast | src/main/java/model/DominoServerGame.java:128-133 | the message goes to each player, one write each, in list order |
| Players.UsersData | src/main/java/model/DominoServerGame.java:190-203 | the published id and name of each player, in list order |
| Players.Network.constructor | src/main/java/model/DominoPlayer.java:125-133 | nothing has been written yet |
| Players.Network.Send | src/main/java/model/DominoPlayer.java:125-133 | one message is written to one player after all earlier ones |
| Protocols.DotIndex | src/main/java/utilities/NetworkProtocols.java:91 | the position of the first dot, or the length when there is none |
| Protocols.Fields | src/main/java/utilities/NetworkProtocols.java:91 | a text cut at its dots has at least one field |
| Protocols.OctetEndsAtDot | src/main/java/utilities/NetworkProtocols.java:91 | an octet the pattern accepts ends at the first dot or at the end |
| Protocols.OctetIsDecOctet | src/main/java/utilities/NetworkProtocols.java:91 | the octet alternatives accept exactly a decimal number from 0 to 255 without a leading zero |
| Protocols.GroupsStep | src/main/java/utilities/NetworkProtocols.java:91 | one repetition of the group: an octet, then a dot that is not last, or the end |
| Protocols.LastField | src/main/java/utilities/NetworkProtocols.java:91 | a text without a dot matches as its one field |
| Protocols.FieldsAtDot | src/main/java/utilities/NetworkProtocols.java:91 | a dot splits off the first field |
| Protocols.TrailingDot | src/main/java/utilities/NetworkProtocols.java:91 | a text ending in a dot matches no repetition count |
| Protocols.InnerDot | src/main/java/utilities/NetworkProtocols.java:91 | with a dot inside, the groups match exactly when the fields are that many octets |
| Protocols.GroupsAreOctets | src/main/java/utilities/NetworkProtocols.java:91 | n repetitions match exactly n dot-separated decimal octets |
| Protocols.AllOctetsCons | src/main/java/utilities/NetworkProtocols.java:91 | a field list is all octets when its head and its tail are |
| Protocols.DigitsValue3 | src/main/java/utilities/NetworkProtocols.java:91 | the value of a three-digit octet |
| Protocols.ValidIsDottedQuad | src/main/java/utilities/NetworkProtocols.java:90-95 | the check accepts exactly the four dot-separated decimal octets of RFC 3986 |
| Protocols.AcceptedOctetsInRange | src/main/java/utilities/NetworkProtocols.java:90-95 | an accepted address has four fields, each a number from 0 to 255 |
| Protocols.TooLargeRejected | src/main/java/utilities/NetworkProtocols.java:91 | `256.0.0.0` is rejected |
| Protocols.LeadingZeroRejected | src/main/java/utilities/NetworkProtocols.java:91 | `01.2.3.4` is rejected |
| Protocols.ZerosAccepted | src/main/java/utilities/NetworkProtocols.java:91 | `0.0.0.0` is accepted |
| Protocols.PrivateAccepted | src/main/java/utilities/NetworkProtocols.java:91 | `192.168.1.255` is accepted |
| Protocols.EmptyRejected | src/main/java/utilities/NetworkProtocols.java:91 | the empty text is rejected |
| Protocols.TrailingDotRejected | src/main/java/utilities/NetworkProtocols.java:91 | `1.2.3.4.` is rejected |
| Protocols.ThreeRejected | src/main/java/utilities/NetworkProtocols.java:91 | three octets are rejected |
| Protocols.FiveRejected | src/main/java/utilities/NetworkProtocols.java:91 | five octets are rejected |
| ServerGames.SeatStarter | src/main/java/server/PlayerThread.java:327 | the starting value picked for a seat has that seat as its ordinal |
| ServerGames.Scored | src/main/java/model/DominoServerGame.java:235-243 | the winner's team gains the pips left in the other team's hands; the other team's score is unchanged |
| ServerGames.ClosedWinner | src/main/java/model/DominoServerGame.java:250-260 | the winner's team holds no more pips than the other; with unequal totals it is seat 0 or 1; on a tie it is the opener |
| ServerGames.FirstPlayable | src/main/java/model/DominoServerGame.java:214-219 | the first position the line accepts, or none when no chip is playable |
| ServerGames.FirstSamePips | src/main/java/model/DominoServerGame.java:311-316 | the first position with the same pips in the same order, or none |
| ServerGames.NextSeat | src/main/java/model/DominoServerGame.java:336 | the next seat round the table, wrapping from 3 to 0 |
| ServerGames.CpuTurns | src/main/java/model/DominoServerGame.java:335-353 | how many seats `playCPU` visits: only server seats, stopping at a signed-in seat, at most three when seat 0 is signed in |
| ServerGames.PassesAfterSnoc | src/main/java/model/DominoServerGame.java:341-350 | one more turn: a play resets the pass count and a pass adds one |
| ServerGames.PassesSinceLastPlay | src/main/java/model/DominoServerGame.java:341-350 | after a run of turns the count is the passes since the last play, or the old count plus the run's length when nobody played |
| ServerGames.Moved | src/main/java/model/DominoServerGame.java:216-221 | at most one chip moves to the line |
| ServerGames.ChipsOf | src/main/java/model/DominoServerGame.java:35 | the chips of the four hands, seat by seat |
| ServerGames.WithoutAmong | src/main/java/model/DominoServerGame.java:216 | taking a chip out of a hand keeps every hand within the set |
| ServerGames.MoveFromFirst | src/main/java/model/DominoServerGame.java:216-221 | moving a chip from one collection to another keeps the total |
| ServerGames.MoveOne | src/main/java/model/DominoServerGame.java:216-221 | moving one chip from a hand to the end of the line keeps the chips on the table |
| ServerGames.MoveConserves | src/main/java/model/DominoServerGame.java:212-226 | `makePlay` neither creates nor loses a chip: hands plus line hold the same chips |
| ServerGames.DealCovers | src/main/java/model/DominoServerGame.java:101-104 | the four seven-chip slices of the shuffled set hold exactly the set |
| ServerGames.DealtDoubleSix | src/main/java/model/DominoServerGame.java:107-112 | exactly one slice holds the double six |
| ServerGames.DealHands | src/main/java/model/DominoServerGame.java:101-104 | four distinct fresh hands of the next seven chips each, covering the whole set, with the cursor at 28 |
| ServerGames.DoubleSixSeat | src/main/java/model/DominoServerGame.java:107-112 | the last seat holding the double six, or seat 0 when none does |
| ServerGames.FirstFit | src/main/java/model/DominoServerGame.java:214-219 | the loop finds the first chip the line accepts, or reports none |
| ServerGames.Relabel | src/main/java/model/DominoLine.java:174-192 | `setPlaceFirst` changes the chip object, so every place the line holds that chip shows the new side and every other place is unchanged |
| ServerGames.TurnFound | src/main/java/model/DominoServerGame.java:212-227 | when the seat holds a chip that fits, the turn takes the first such chip out of that hand, places it as `playChipCPU` does, appends it to the line, and a hand it empties wins the round, scored as `victory` scores it |
| ServerGames.TurnPlays | src/main/java/model/DominoServerGame.java:212-227 | a turn changes the round exactly when the seat holds a chip that fits, and then the line gains one chip from that hand, which loses one |
| ServerGames.TurnConserves | src/main/java/model/DominoServerGame.java:212-227 | a turn neither creates nor loses a chip |
| ServerGames.RunConserves | src/main/java/model/DominoServerGame.java:339-352 | a run of turns neither creates nor loses a chip |
| ServerGames.RunGrows | src/main/java/model/DominoServerGame.java:339-352 | a run only adds to the end of the line, one chip per seat that played |
| ServerGames.ToldCount | src/main/java/model/DominoServerGame.java:341-346 | a turn that plays is sent to each player once, and a pass to nobody |
| ServerGames.RunToldCount | src/main/java/model/DominoServerGame.java:339-352 | a run sends one message per player for each seat that played |
| ServerGames.FirstSame | src/main/java/model/DominoServerGame.java:311-316 | the loop finds the first chip with the same pips, or reports none |
| ServerGames.DominoServerGame.HandChips | src/main/java/model/DominoServerGame.java:35 | one chip list per seat |
| ServerGames.DominoServerGame.constructor | src/main/java/model/DominoServerGame.java:71-79 | fresh tile set and line, no hands, both scores 0, the opening round to come |
| ServerGames.DominoServerGame.StartNewGame | src/main/java/model/DominoServerGame.java:88-120 | round flags reset, fresh empty line, shuffled set dealt seven per seat, all chips on the table, scores kept; the opener is the named seat, or the one seat dealt the double six |
| ServerGames.DominoServerGame.ClearRound | src/main/java/model/DominoServerGame.java:90-98 | not ended, winner -1, pass count 0, fresh empty line, no hands; scores kept |
| ServerGames.DominoServerGame.Deal | src/main/java/model/DominoServerGame.java:101-104 | the set is permuted and dealt seven per seat in order, covering all 28 chips |
| ServerGames.DominoServerGame.OpeningSeat | src/main/java/model/DominoServerGame.java:107-115 | the named seat's ordinal, or with `FIRST_GAME` the only seat whose hand holds the double six |
| ServerGames.DominoServerGame.SendMessages | src/main/java/model/DominoServerGame.java:128-133 | the message is written to every player in seat order; the game and the players' published data are untouched |
| ServerGames.DominoServerGame.Victory | src/main/java/model/DominoServerGame.java:235-243 | the round ends with that winner, its team scores as `Scored` says, and hands and line are kept |
| ServerGames.DominoServerGame.IsClosed | src/main/java/model/DominoServerGame.java:250-260 | the round ends with `ClosedWinner`'s seat, scored as `victory` scores it; as a round value it becomes `ClosedRound` of the round before |
| ServerGames.DominoServerGame.MakePlay | src/main/java/model/DominoServerGame.java:212-227 | the first playable chip leaves that seat's hand only and goes on the line as `playChipCPU` places it; an emptied hand wins; no other chip's side flag changes, so with no playable chip nothing changes |
| ServerGames.DominoServerGame.PlayFound | src/main/java/model/DominoServerGame.java:214-226 | with the first chip that fits at that position, the round becomes `Turn` of the round before and the chip's side is the one `playChipCPU` picks |
| ServerGames.DominoServerGame.Take | src/main/java/model/DominoServerGame.java:216-221 | the chip at that position leaves the hand and is placed where `playChipCPU` puts it |
| ServerGames.DominoServerGame.PlayChip | src/main/java/model/DominoServerGame.java:309-317 | the chip is placed as given, with no check that it fits, and the first chip of the seat's hand with the same pips is dropped |
| ServerGames.DominoServerGame.DropSamePips | src/main/java/model/DominoServerGame.java:311-316 | the first chip with those pips leaves that seat's hand; without one nothing changes |
| ServerGames.DominoServerGame.CpuTurn | src/main/java/model/DominoServerGame.java:340-350 | the round becomes `Turn` of the round before, with the game's flag; it plays exactly when the seat holds a chip that fits; the play is sent to all as `Told` says and resets the pass count, a pass adds one |
| ServerGames.DominoServerGame.Announce | src/main/java/model/DominoServerGame.java:341-350 | a play is sent to all and resets the pass count; a pass adds one and sends nothing |
| ServerGames.DominoServerGame.Report | src/main/java/model/DominoServerGame.java:341-346 | a play is sent to all players; a pass sends nothing |
| ServerGames.DominoServerGame.CpuStep | src/main/java/model/DominoServerGame.java:339-352 | one loop turn extends the run by one seat: the round becomes the longer `Run`, the moves the longer `RunMoves`, the messages grow by that seat's `Told`, the pass count follows, and every chip off the line keeps its side flag (`RunSoFar` one seat further) |
| ServerGames.DominoServerGame.PlayCPU | src/main/java/model/DominoServerGame.java:335-353 | the server seats after the last player take turns up to a signed-in seat: the round becomes `CpuRun` of the round before, the moves are `CpuMoves`, the messages are `CpuTold`, no chip is created or lost, every chip of the set that is not on the line keeps its side flag, and the pass count counts the passes since the last play |
| ServerGames.DominoServerGame.PlayFrom | src/main/java/model/DominoServerGame.java:336-352 | the loop from the next seat: as many turns as there are server seats before a signed-in one; `RunSoFar` holds for the whole run, so the round, moves, messages and pass count are those of that `Run` and every chip off the line keeps its side flag |
| ServerGames.DominoServerGame.CpuRunReached | src/main/java/model/DominoServerGame.java:335-353 | a run from the seat after the last player up to the first signed-in seat is `CpuRun`, with moves `CpuMoves`, messages `CpuTold`, the same chips on the table and the pass count `PassesAfter` |
| ServerGames.DominoServerGame.OpeningTurn | src/main/java/server/DominoServer.java:170-178 | one seat of the opening run: the round becomes `Turn` of the round before with the opening flag set, it plays exactly when the seat holds a chip that fits, the play is sent to all as `Told` says, and the pass count is kept |
| ServerGames.DominoServerGame.OpeningStep | src/main/java/server/DominoServer.java:170-178 | one loop turn of the opening run extends the `Run` by one seat, with that seat's `Told` appended and every chip off the line keeping its side flag (`OpeningSoFar` one seat further) |
| ServerGames.DominoServerGame.OpeningFrom | src/main/java/server/DominoServer.java:170-178 | the opening loop from the opener to seat 3: `OpeningSoFar` holds for the whole run, so the round is that `Run` with the opening flag, the messages are its `RunTold`, and side flags off the line are kept |
| ServerGames.DominoServerGame.OpeningRun | src/main/java/server/PlayerThread.java:336-345 | seats from the opener to 3 each take one opening turn: the round becomes that `Run` with the opening flag, the messages are its `RunTold`, no chip is created or lost, and every chip of the set that is not on the line keeps its side flag |
| Server.ErrorFor | src/main/java/server/PlayerThread.java:217-226 | text that is not JSON and an unknown action each get their own error reply; the four known actions get none here |
| Server.UsersOf | src/main/java/model/DominoServerGame.java:129-131 | the user of each thread, in seat order |
| Server.ReadyMessages | src/main/java/server/PlayerThread.java:295-306 | one `GAME_READY` per signed-in seat |
| Server.SendStartGames | src/main/java/server/DominoServer.java:164-166 | each signed-in seat is sent its dealt hand, whether it opens and the player list, in seat order |
| Server.BeginRound | src/main/java/server/PlayerThread.java:329-351 | the ready messages go out first, then the opening run's messages, and the seat to move is told last; the round becomes the `Opening` of the round before, and no chip is created or lost |
| Server.OpenPlay | src/main/java/server/DominoServer.java:168-185 | when a server seat opens, the round becomes the `Run` from it to seat 3 with the opening flag, its messages are sent, and seat 0 is told to move; otherwise nothing is played and the opener is told |
| Server.OpeningPlays | src/main/java/server/DominoServer.java:168-181 | the opening run when a server seat opens, as `Opening` and `OpeningTold` say, and the seat to be told: the opener, or seat 0 after a run |
| Server.SeatAll | src/main/java/server/DominoServer.java:157-161 | each thread gets the game and its own seat; the game and the threads' other fields are untouched |
| Server.SeatedGame | src/main/java/server/DominoServer.java:154-161 | a fresh game for the seats' users with fresh tiles and line, scores 0, every thread seated in it |
| Server.FirstRound | src/main/java/server/DominoServer.java:155 | the first round dealt: every chip unplayed and dealt seven per seat, scores 0, the opener the one seat dealt the double six, all chips on the table |
| Server.NextRound | src/main/java/server/PlayerThread.java:327-351 | a new round opened by the given seat with the opening flag off and the pass count 0; the round becomes the `Opening` of the freshly dealt round; the messages are the `GAME_READY` hands, the opening run's plays and the turn, in that order |
| Server.Redeal | src/main/java/server/PlayerThread.java:327 | the set is permuted and dealt seven per seat; the hands shown are the chips' data with the sides they had before; the round is the dealt round with the scores kept |
| Server.StartGame | src/main/java/server/DominoServer.java:154-185 | a fresh game for the seats' users, every thread seated at its own seat, and the first round opened as `FirstRoundOpened` says: the round is the `Opening` of the dealt round and the log grew by `FirstRoundTold` |
| Server.OpenFirstRound | src/main/java/server/DominoServer.java:155-185 | the first round dealt and opened: the round is the `Opening` of the dealt round and the log grew by the `GAME_READY` hands, the opening run's plays and the turn |
| Server.BeginFirstRound | src/main/java/server/DominoServer.java:163-185 | once dealt, the round is opened as `FirstRoundOpened` says and left as `FirstRoundBegun` says |
| Server.Lay | src/main/java/server/PlayerThread.java:141-153 | the client's chip goes on the line as sent, the seat's first chip with those pips is dropped and every player is told of the play |
| Server.MoveOn | src/main/java/server/PlayerThread.java:158-176 | the next signed-in seat is told to move and nothing else changes; after the last one, the round becomes `CpuRun`, the messages `CpuTold`, then the round is closed as `ClosedRound` says at four passes, or else seat 0 is told; the line only grows and every chip of the set not on it keeps its side flag |
| Server.ServerSeats | src/main/java/server/PlayerThread.java:162-172 | after the last signed-in seat: the server seats play as `PlayCPU` says, then the closure check or the turn for seat 0 |
| Server.CloseOrResume | src/main/java/server/PlayerThread.java:166-172 | at four passes (when checked) the round is closed as `isClosed` closes it and nothing is sent; otherwise seat 0 is told and nothing else changes |
| Server.AfterPlay | src/main/java/server/PlayerThread.java:155-177 | the opener and the opening flag stay; an emptied hand wins and is scored, and only the result changes (the pass count stays); otherwise the next human is told with the round and pass count kept, or the server seats' run and the closure check follow as `MoveOn` says |
| Server.PassTurn | src/main/java/server/PlayerThread.java:185-203 | the opener and the opening flag stay; the pass count goes up; at four the round is closed as `ClosedRound` says; otherwise the turn moves on, and after the server seats' `CpuRun` seat 0 is told, whatever the count |
| Server.EndGame | src/main/java/server/PlayerThread.java:311-353 | the winner and scores go to every player; at 100 points or more the round value (the line's ends, chips and their sides, the hands, the result), the table and every chip's side flag stay as they were; otherwise a new round opens with the winner's seat and the opening flag off, the round is the `Opening` of the dealt round, and the messages are the `GAME_READY` hands, the opening run's plays and the turn |
| Server.PlayChipAt | src/main/java/server/PlayerThread.java:139-183 | the play, the hand-off and, once the round has ended, `endGame` leave a dealt game |
| Server.PassAt | src/main/java/server/PlayerThread.java:184-208 | the pass, the hand-off and, once the round has ended, `endGame` leave a dealt game |
| Server.DominoServer.constructor | src/main/java/server/DominoServer.java:43 | nobody waits and nobody is signed in |
| Server.DominoServer.HasUser | src/main/java/server/PlayerThread.java:244-254 | true exactly when some listed user has that id |
| Server.DominoServer.Remove | src/main/java/server/DominoServer.java:199-201 | the thread's first occurrence leaves the pool; without one the pool is unchanged |
| Server.DominoServer.RemoveUser | src/main/java/server/PlayerThread.java:211 | the user's first occurrence leaves the user list |
| Server.DominoServer.Gather | src/main/java/server/DominoServer.java:143-151 | the arriving thread, then the oldest waiting threads, which leave the pool in order |
| Server.DominoServer.MakeGame | src/main/java/server/DominoServer.java:135-191 | with one thread waiting, the two leave the pool and form a fresh game, each seated, whose first round is opened as `FirstRoundOpened` says; otherwise the thread joins the pool's end, there is no game and nothing is sent |
| Server.PlayerThread.constructor | src/main/java/server/PlayerThread.java:56-61 | a fresh user without credentials, not running, no game |
| Server.PlayerThread.Login | src/main/java/server/PlayerThread.java:114-138 | an id already signed in gets `SAME_USER` with its error text and nothing changes; otherwise the credentials are set, and there is a reply exactly when no game formed |
| Server.PlayerThread.SignIn | src/main/java/server/PlayerThread.java:124-137 | credentials set; no reply exactly when a game formed, with the user at its seat; otherwise a `LOGIN` reply and the thread at the pool's end |
| Server.PlayerThread.Enter | src/main/java/server/PlayerThread.java:127-136 | no reply exactly when a game formed, with the user at its seat in it; otherwise a `LOGIN` reply and the thread at the pool's end |
| Server.PlayerThread.Act | src/main/java/server/PlayerThread.java:108-226 | one request: errors get an error reply with no write and pool and game kept, `LOGOUT` stops the thread and leaves pool and user list with no write and the game kept, plays and passes get the blank reply, or stop the thread without a reply and without a write when it has no game; `LOGIN` as `Login` states: a known id gets the SAME_USER text with credentials, pool, log and game unchanged, otherwise the credentials are set and either a fresh game seats the user with no reply or the LOGIN reply comes with the thread at the pool's end |
| Server.PlayerThread.HandleMessage | src/main/java/server/PlayerThread.java:91-235 | Act's reply for errors, `LOGOUT`, plays, passes and a repeated sign-in, and its user-list change; a reply is the last message written, to the thread's own user, while the thread runs; the user list is never added to |
| ClientGames.TeamSeats | src/main/java/model/DominoGame.java:83-87 | the first team sits at seats 0 and 2, the second at 1 and 3 |
| ClientGames.SeatsSplitIntoTeams | src/main/java/model/DominoGame.java:83-87 | every seat belongs to exactly one team |
| ClientGames.DominoGame.constructor | src/main/java/model/DominoGame.java:37-49 | the listed players, the current user and a fresh empty line |
| ClientGames.DominoGame.GetPlayer | src/main/java/model/DominoGame.java:58-64 | the listed player at that seat, or the seat's default player when the list is shorter |
| ClientGames.DominoGame.GetTeamName | src/main/java/model/DominoGame.java:83-87 | the names of the team's two seats joined by a dash |
| ClientGames.DominoGame.TeamNameShowsSeat | src/main/java/model/DominoGame.java:83-87 | the team name starts with its first seat's name and ends with its second's |
| ClientGames.DominoGame.UpdateLine | src/main/java/model/DominoGame.java:95-98 | afterwards the line holds exactly the given chips and its ends are their replay from an empty line |
| ClientGames.DominoGame.CanPlay | src/main/java/model/DominoGame.java:107-109 | the line's answer: the opening rule on an empty line, a match at either end otherwise |
| ClientGames.DominoGame.CanPlayFirst | src/main/java/model/DominoGame.java:138-140 | the line's answer for the first end |
| ClientGames.DominoGame.CanPlayLast | src/main/java/model/DominoGame.java:150-152 | the line's answer for the last end |
| ClientGames.DominoGame.PlayableOnAnEnd | src/main/java/model/DominoGame.java:107-152 | a chip may be played exactly when it may go on one of the two ends |
| ClientGames.DominoGame.HasDifferentEnds | src/main/java/model/DominoGame.java:160-162 | the line is not empty and its two ends differ |
| ClientGames.DominoGame.CanPlayAny | src/main/java/model/DominoGame.java:117-119 | true exactly when some chip in the current user's hand may be played |
| Lists.RemoveFirstSpec | src/main/java/model/DominoHand.java:100-102 | removing an object takes out its first occurrence, or nothing when it is absent |
| Lists.RemoveAtMultiset | src/main/java/model/DominoHand.java:53-55 | removing by position takes out exactly that element |

## Left out

- Swing views, images and the client's event loop are not modelled. The `ImageIcon` of a chip is not modelled either.
- Sockets and object streams are not modelled. Each `sendMessage` is one entry appended to a log of (player, message). A message is a datatype rather than its JSON text, except for chips and chip lists, whose text is modelled and read back.
- The JSON parser of incoming requests is not modelled. A request arrives already parsed, or as unparsable. A request with missing fields, which throws in Java, is not modelled.
- The `run` loop, its blocking read and closing the socket are not modelled. `handleMessage` takes the request as a parameter.
- Threads, `synchronized` and the synchronized lists are not modelled; everything runs in sequence.
- The shuffle's randomness is a parameter: the list of positions that each position is swapped with.
- Tiles.DominoTiles.Shuffle states only that the chips are permuted, which is all the library promises.
- `startServer`, the server socket, the connection list, `usersAsJson` and `loadFromFile` are not modelled.
- `PlayerThread.hand`, which `sendStartGame` records and nothing reads, is not modelled.
- `getPlayerListAsJson` is never called, so it is not modelled. `getPlayersAsJson` is modelled as the list of published user data.
- The trivial getters are plain field reads: `hasEnded`, `getWinner`, both score getters, `getHand`, `getPlayers`, `getLineAsJson`, `getCurrentPlayer`, `getUser`, `getFirst`/`getSecond`/`isPlacedFirst`, `getChips` and `Player`'s getters. The one-expression members Chips.DominoChip.Count, Chips.DominoChip.IsMule, Lines.DominoLine.IsEmpty, Lines.DominoLine.GetFirst, Lines.DominoLine.GetLast and Players.DominoPlayer.ToJson (`count`, `isMule`, `isEmpty`, the line's `getFirst`/`getLast` and `toJson`) carry no contract of their own; their bodies are the Java expressions.
- DominoGame.pass is a client message send, so it is not modelled.
- ClientGames.DominoGame.GetPlayer requires a seat from 0 to 3. Other positions throw in Java.
- ClientGames.DominoGame.CanPlayAny and Lines.DominoLine.CanPlayAny take the first-round flag as a parameter. Java reads a static of the client.
- Server.MakeGame: the first-round flag and the shuffle draws are parameters; `LOGIN` passes `true`, as in Java.
- ServerGames.DominoServerGame.constructor requires one to four players. Java never builds a game with another number.
- Scores and pip sums are unbounded integers. Java's `int` cannot overflow here, since a round adds at most 168 pips and play stops at 100.
- The first turn message of a new game carries `null` as data and later ones `{}`. The model does not distinguish the two.
- The reply after `PLAY_CHIP` and `PASS` has an empty action and no data in Java. The model calls it the blank reply.
- Server.StartGame seats the threads right after building the game and before `startNewGame`, while Java seats them right after `startNewGame`. Seating touches only the threads and dealing touches only the game, so the state that results is the same.
- Server.PlayerThread.Act: a `PLAY_CHIP` or `PASS` from a thread without a game makes Java dereference a null game and throw an exception that nothing catches, so the thread's `run` ends without a reply. The model stops the thread with no reply and no write. It does not model the socket staying open.
- Server.PlayChipAt and Server.PassAt state only that the game stays dealt. The steps are stated by Server.Lay, Server.AfterPlay, Server.PassTurn and Server.EndGame.
- Server.PlayerThread.HandleMessage states the reply, the write and the user list. Server.PlayerThread.Act states what `LOGIN`, `LOGOUT` and an error do to the credentials, the pool and the game; what `PLAY_CHIP` and `PASS` do to the game is stated only through Server.PlayChipAt and Server.PassAt (see the line above).
- `hasDifferentEnds` compares boxed `Integer` values with `!=` in Java. The model compares values, which is the same for pips from -1 to 6, since Java caches those boxes.

=== FILE: chips.dfy ===
/**
 * `DominoChip`: a tile with two pip values and a flag telling on which end of
 * the line it was laid. The pips never change after construction; the flag is
 * rewritten by the CPU placement procedure, so the chip is an object.
 */
module Chips {
  import opened Options
  import opened Json

  class DominoChip {
    const first: int
    const second: int
    var placeFirst: bool

    /** The face-down chip shown for hidden tiles. */
    constructor FaceDown()
      ensures first == -1 && second == -1 && placeFirst
    {
      first := -1;
      second := -1;
      placeFirst := true;
    }

    /** A chip with the given pips; the side flag keeps its default, false. */
    constructor (first: int, second: int)
      ensures this.first == first && this.second == second && !placeFirst
    {
      this.first := first;
      this.second := second;
      placeFirst := false;
    }

    method SetPlaceFirst(b: bool)
      modifies this
      ensures placeFirst == b
    {
      placeFirst := b;
    }

    /** `getCount`: the pips on the chip. */
    function Count(): int
    {
      first + second
    }

    /** `isMule`: a double. */
    predicate IsMule()
    {
      first == second
    }

    function Data(): ChipData
      reads this
    {
      ChipData(first, second, placeFirst)
    }

    /** `asJson`: the three keys in the order first, second, place_first; the text reads back to the chip. */
    function AsJson(): (s: string)
      reads this
      ensures s == "{\"first\":" + IntToString(first) + ",\"second\":" + IntToString(second)
                   + ",\"place_first\":" + BoolToString(placeFirst) + "}"
      ensures ParseChip(s) == Some((Data(), ""))
    {
      ChipRoundTrip(Data(), "");
      assert ChipJson(Data()) + "" == ChipJson(Data());
      FlatChipJson(Data());
      ChipJson(Data())
    }
  }

  /** The wire data of a list of chips, position by position. */
  function DataOf(cs: seq<DominoChip>): (ds: seq<ChipData>)
    reads cs
    ensures |ds| == |cs|
    ensures forall i :: 0 <= i < |cs| ==> ds[i] == cs[i].Data()
  {
    seq(|cs|, i reads cs requires 0 <= i < |cs| => cs[i].Data())
  }

  lemma DataOfSnoc(cs: seq<DominoChip>, c: DominoChip)
    ensures DataOf(cs + [c]) == DataOf(cs) + [c.Data()]
  {
    assert forall i :: 0 <= i < |cs| + 1 ==> DataOf(cs + [c])[i] == (DataOf(cs) + [c.Data()])[i];
  }

  lemma DataOfSlice(cs: seq<DominoChip>, lo: int, hi: int)
    requires 0 <= lo <= hi <= |cs|
    ensures DataOf(cs[lo..hi]) == DataOf(cs)[lo..hi]
  {
    assert forall i :: 0 <= i < hi - lo ==> DataOf(cs[lo..hi])[i] == DataOf(cs)[lo..hi][i];
  }

  /**
   * The list rendering written by `DominoHand.asJson` and `DominoLine.asJson`:
   * an opening bracket, each chip's JSON with a comma before every chip but the
   * first, a closing bracket.
   */
  method ListAsJson(cs: seq<DominoChip>) returns (json: string)
    ensures json == ListJson(DataOf(cs))
    ensures ParseList(json) == Some(DataOf(cs))
  {
    json := "[";
    var isFirst := true;
    for i := 0 to |cs|
      invariant isFirst <==> i == 0
      invariant json == Opened(cs, i)
    {
      var piece := cs[i].AsJson();
      ghost var before := json;
      if isFirst {
        isFirst := false;
      } else {
        json := json + ",";
      }
      json := json + piece;
      OpenedStep(cs, i, before, piece);
    }
    Closed(cs, json);
    json := json + "]";
  }

  /** The text written before the closing bracket once `i` chips are rendered. */
  ghost function Opened(cs: seq<DominoChip>, i: nat): string
    requires i <= |cs|
    reads cs
  {
    "[" + Join(ChipTexts(DataOf(cs[..i])))
  }

  lemma OpenedStep(cs: seq<DominoChip>, i: nat, before: string, piece: string)
    requires i < |cs|
    requires before == Opened(cs, i) && piece == ChipJson(cs[i].Data())
    ensures (if i == 0 then before + piece else before + "," + piece) == Opened(cs, i + 1)
  {
    TextsStep(cs, i);
    var j := Join(ChipTexts(DataOf(cs[..i])));
    if i == 0 {
      assert cs[..i] == [];
      assert j == "";
      assert before == "[";
    } else {
      Assoc("[", j, ",");
      Assoc("[" + j, ",", piece);
      Assoc("[", j + ",", piece);
      Assoc(j, ",", piece);
    }
  }

  lemma Closed(cs: seq<DominoChip>, json: string)
    requires json == Opened(cs, |cs|)
    ensures json + "]" == ListJson(DataOf(cs))
    ensures ParseList(json + "]") == Some(DataOf(cs))
  {
    assert cs[..|cs|] == cs;
    Assoc("[", Join(ChipTexts(DataOf(cs))), "]");
    ListRoundTrip(DataOf(cs));
  }

  /** One more chip adds its text to the joined rendering. */
  lemma TextsStep(cs: seq<DominoChip>, i: nat)
    requires i < |cs|
    ensures Join(ChipTexts(DataOf(cs[..i + 1])))
         == if i == 0 then ChipJson(cs[i].Data())
            else Join(ChipTexts(DataOf(cs[..i]))) + ("," + ChipJson(cs[i].Data()))
  {
    assert cs[..i + 1] == cs[..i] + [cs[i]];
    DataOfSnoc(cs[..i], cs[i]);
    var ds := DataOf(cs[..i]);
    var d := cs[i].Data();
    assert ChipTexts(ds + [d]) == ChipTexts(ds) + [ChipJson(d)];
    JoinSnoc(ChipTexts(ds), ChipJson(d));
  }
}

=== FILE: client_game.dfy ===
/**
 * The client's `DominoGame`: the players the client was told of, the user
 * sitting at this client, and the client's copy of the line. Seats without a
 * listed player are shown with built-in default players, teams are named
 * after their two seats, and the questions about what may be played are
 * answered by the line.
 */
module ClientGames {
  import opened Chips
  import opened Hands
  import opened Lines
  import opened Players

  /** The two teams: seats 0 and 2, and seats 1 and 3. */
  datatype TeamNumber = First | Second

  /** `Player`: the id and name of a user as the client lists it. */
  datatype Player = Player(id: string, name: string)

  /** `defaultPlayers`: who is shown at each seat no listed player holds. */
  const DefaultPlayers: seq<Player> := [
    Player("102946901#$%", "Rockadoodle"),
    Player("102946902#$%", "Monstruon"),
    Player("102946903#$%", "Rulpestinsky"),
    Player("102946904#$%", "Manigoldo")
  ]

  /** The two seats of a team, in the order its name lists them. */
  function TeamSeats(number: TeamNumber): (seats: (int, int))
    ensures seats.1 == seats.0 + 2 && 0 <= seats.0 < 2
    ensures number == First <==> seats.0 == 0
  {
    if number == First then (0, 2) else (1, 3)
  }

  /** Every seat belongs to exactly one team. */
  lemma SeatsSplitIntoTeams(seat: int)
    requires 0 <= seat < 4
    ensures (seat == TeamSeats(First).0 || seat == TeamSeats(First).1)
        != (seat == TeamSeats(Second).0 || seat == TeamSeats(Second).1)
  {
    var f, s := TeamSeats(First), TeamSeats(Second);
    assert f == (0, 2) && s == (1, 3);
  }

  class DominoGame {
    const players: seq<Player>
    const currentPlayer: DominoPlayer
    const line: DominoLine

    /** A game for the listed players, seen by `currentPlayer`, with an empty line. */
    constructor (players: seq<Player>, currentPlayer: DominoPlayer)
      ensures this.players == players && this.currentPlayer == currentPlayer
      ensures fresh(line) && line.ends == [] && line.chips == [] && line.Valid()
    {
      this.players := players;
      this.currentPlayer := currentPlayer;
      line := new DominoLine();
    }

    /**
     * `getPlayer`: the listed player at that seat, or the default player of
     * the seat when the list does not reach it.
     */
    function GetPlayer(position: int): (p: Player)
      requires 0 <= position < 4
      ensures position < |players| ==> p == players[position]
      ensures position >= |players| ==> p == DefaultPlayers[position]
    {
      if position < |players| then players[position] else DefaultPlayers[position]
    }

    /** `getTeamName`: the names of the team's two seats, joined by a dash. */
    function GetTeamName(number: TeamNumber): (name: string)
      ensures var (a, b) := TeamSeats(number);
        name == GetPlayer(a).name + "-" + GetPlayer(b).name
    {
      if number == First then GetPlayer(0).name + "-" + GetPlayer(2).name
      else GetPlayer(1).name + "-" + GetPlayer(3).name
    }

    /**
     * With no listed player at a seat, the team name shows the default
     * player there; a listed player hides that default.
     */
    lemma TeamNameShowsSeat(number: TeamNumber)
      ensures var (a, b) := TeamSeats(number);
        && (|players| <= a ==> GetTeamName(number)[..|DefaultPlayers[a].name|] == DefaultPlayers[a].name)
        && (a < |players| ==> GetTeamName(number)[..|players[a].name|] == players[a].name)
        && (|players| <= b ==> GetTeamName(number)[|GetTeamName(number)| - |DefaultPlayers[b].name|..] == DefaultPlayers[b].name)
        && (b < |players| ==> GetTeamName(number)[|GetTeamName(number)| - |players[b].name|..] == players[b].name)
    {
      var (a, b) := TeamSeats(number);
      var x, y := GetPlayer(a).name, GetPlayer(b).name;
      assert GetTeamName(number) == x + "-" + y;
      assert (x + "-" + y)[..|x|] == x;
      assert (x + "-" + y)[|x + "-" + y| - |y|..] == y;
    }

    /**
     * `updateLine`: the line is cleared and the listed chips are played on it
     * in order, so what it holds afterwards depends on the list alone.
     */
    method UpdateLine(chips: seq<DominoChip>)
      requires line.Valid()
      modifies line
      ensures line.Valid()
      ensures line.chips == chips
      ensures line.ends == Replay([], DataOf(chips))
    {
      line.Clear();
      line.Update(chips);
    }

    /** `canPlay`: the line's answer, which is the opening rule on an empty line and a match at either end otherwise. */
    predicate CanPlay(chip: DominoChip, firstGame: bool)
      reads line
      ensures CanPlay(chip, firstGame) <==> Playable(line.ends, chip, firstGame)
    {
      line.CanPlay(chip, firstGame)
    }

    /** `canPlayFirst`: the line's answer for its first end. */
    predicate CanPlayFirst(chip: DominoChip, firstGame: bool)
      reads line
      ensures line.ends == [] ==> (CanPlayFirst(chip, firstGame) <==> !firstGame || IsDoubleSix(chip))
      ensures line.ends != [] ==> (CanPlayFirst(chip, firstGame) <==> Touches(chip, line.ends[0]))
    {
      line.CanPlayFirst(chip, firstGame)
    }

    /** `canPlayLast`: the line's answer for its last end. */
    predicate CanPlayLast(chip: DominoChip, firstGame: bool)
      reads line
      ensures line.ends == [] ==> (CanPlayLast(chip, firstGame) <==> !firstGame || IsDoubleSix(chip))
      ensures line.ends != [] ==> (CanPlayLast(chip, firstGame) <==> Touches(chip, Last(line.ends)))
    {
      line.CanPlayLast(chip, firstGame)
    }

    /** A chip may be played exactly when it may go on one of the two ends. */
    lemma PlayableOnAnEnd(chip: DominoChip, firstGame: bool)
      ensures CanPlay(chip, firstGame) <==> CanPlayFirst(chip, firstGame) || CanPlayLast(chip, firstGame)
    {
    }

    /** `hasDifferentEnds`: the line is not empty and its two ends differ. */
    predicate HasDifferentEnds()
      reads line
      ensures HasDifferentEnds() <==> line.ends != [] && line.ends[0] != Last(line.ends)
    {
      line.HasDifferentEnds()
    }

    /**
     * `canPlayAny`: whether some chip of the hand of the user at this client
     * can be played. The first-round flag is a static of the client in the
     * source; here it is a parameter.
     */
    method CanPlayAny(firstGame: bool) returns (any: bool)
      requires currentPlayer.hand != null
      ensures any <==> exists i :: 0 <= i < |currentPlayer.hand.chips| && Playable(line.ends, currentPlayer.hand.chips[i], firstGame)
    {
      any := line.CanPlayAny(currentPlayer.hand, firstGame);
    }
  }
}

=== FILE: hands.dfy ===
/**
 * `DominoHand`: the chips a seat holds, in the order they were dealt.
 * Chips are removed by position or by identity (the chip class does not
 * redefine equality, so the list removes the very object it is given).
 */
module Hands {
  import opened Options
  import opened Json
  import opened Chips
  import opened Lists

  /** Total pips of a list of chips, summed from the back as an accumulator loop adds them. */
  function PipSum(cs: seq<DominoChip>): int
  {
    if cs == [] then 0 else PipSum(cs[..|cs| - 1]) + cs[|cs| - 1].Count()
  }

  predicate IsDoubleSix(c: DominoChip)
  {
    c.first == 6 && c.second == 6
  }

  predicate HoldsDoubleSix(cs: seq<DominoChip>)
  {
    exists i :: 0 <= i < |cs| && IsDoubleSix(cs[i])
  }

  lemma {:induction false} PipSumAppend(a: seq<DominoChip>, b: seq<DominoChip>)
    ensures PipSum(a + b) == PipSum(a) + PipSum(b)
    decreases |b|
  {
    if b == [] {
      assert a + b == a;
    } else {
      assert (a + b)[..|a + b| - 1] == a + b[..|b| - 1];
      PipSumAppend(a, b[..|b| - 1]);
    }
  }

  /** A chip between two runs adds its pips to theirs. */
  lemma PipSumSplit(a: seq<DominoChip>, x: DominoChip, b: seq<DominoChip>)
    ensures PipSum(a + [x] + b) == PipSum(a) + x.Count() + PipSum(b)
    ensures PipSum(a + b) == PipSum(a) + PipSum(b)
  {
    PipSumAppend(a + [x], b);
    PipSumAppend(a, b);
    assert (a + [x])[..|a|] == a;
  }

  /** Taking a chip out of a hand lowers its count by that chip's pips. */
  lemma RemoveAtPipSum(cs: seq<DominoChip>, i: nat)
    requires i < |cs|
    ensures PipSum(RemoveAt(cs, i)) == PipSum(cs) - cs[i].Count()
  {
    SplitAt(cs, i);
    PipSumSplit(cs[..i], cs[i], cs[i + 1..]);
  }

  class DominoHand {
    var chips: seq<DominoChip>

    constructor (chips: seq<DominoChip>)
      ensures this.chips == chips
    {
      this.chips := chips;
    }

    /** `getChip`: the chip at that position; the hand is left alone. */
    method GetChip(position: int) returns (c: DominoChip)
      requires 0 <= position < |chips|
      ensures c == chips[position] && c in chips
    {
      c := chips[position];
    }

    /** `playChip(int)`: removes the chip at that position. */
    method PlayChip(position: int)
      requires 0 <= position < |chips|
      modifies this
      ensures chips == RemoveAt(old(chips), position)
    {
      chips := chips[..position] + chips[position + 1..];
    }

    /** `removeChip`: removes the first occurrence of that chip object, if any. */
    method RemoveChip(chip: DominoChip)
      modifies this
      ensures chips == RemoveFirst(old(chips), chip)
    {
      chips := RemoveFirst(chips, chip);
    }

    /** `hasDouble6`: scans the whole hand for the double six. */
    method HasDouble6() returns (found: bool)
      ensures found <==> HoldsDoubleSix(chips)
    {
      found := false;
      for i := 0 to |chips|
        invariant found <==> exists k :: 0 <= k < i && IsDoubleSix(chips[k])
      {
        if chips[i].first == 6 && chips[i].second == 6 {
          found := true;
        }
      }
    }

    /** `asJson`: the chips in hand order as a JSON array that reads back to them. */
    method AsJson() returns (json: string)
      ensures json == ListJson(DataOf(chips))
      ensures ParseList(json) == Some(DataOf(chips))
    {
      json := ListAsJson(chips);
    }

    /** `count`: the pips of every chip in the hand; 0 when empty. */
    method Count() returns (count: int)
      ensures count == PipSum(chips)
      ensures chips == [] ==> count == 0
    {
      count := 0;
      for i := 0 to |chips|
        invariant count == PipSum(chips[..i])
      {
        assert chips[..i + 1][..i] == chips[..i];
        count := count + chips[i].first + chips[i].second;
      }
      assert chips[..|chips|] == chips;
    }
  }
}

=== FILE: json.dfy ===
/**
 * The JSON text the engine produces for chips and chip lists, written the way
 * the Java code concatenates it (Java's decimal rendering of `int` and `boolean`),
 * together with a reader for that text. The reader is the partner of the
 * renderers: every rendered chip or list reads back to the data it came from.
 */
module Json {
  import opened Options

  /** A chip as it travels on the wire: both pips and the side flag. */
  datatype ChipData = ChipData(first: int, second: int, placeFirst: bool)

  predicate IsDigit(c: char) { '0' <= c <= '9' }

  predicate AllDigits(s: string) { forall i :: 0 <= i < |s| ==> IsDigit(s[i]) }

  function DigitChar(d: nat): (c: char)
    requires d < 10
    ensures IsDigit(c)
  {
    (('0' as int) + d) as char
  }

  function DigitValue(c: char): (d: nat)
    requires IsDigit(c)
    ensures d < 10
  {
    (c as int) - ('0' as int)
  }

  /** Decimal digits of a natural number, most significant first, no leading zero. */
  function NatToString(n: nat): (s: string)
    ensures |s| >= 1 && AllDigits(s)
    ensures |s| > 1 ==> s[0] != '0'
    ensures n < 10 <==> |s| == 1
    decreases n
  {
    if n < 10 then [DigitChar(n)] else NatToString(n / 10) + [DigitChar(n % 10)]
  }

  /** Java's `Integer.toString`: a minus sign, then the digits of the magnitude. */
  function IntToString(i: int): string
  {
    if i < 0 then "-" + NatToString(-i) else NatToString(i)
  }

  function BoolToString(b: bool): string
  {
    if b then "true" else "false"
  }

  /** The value of a digit string read left to right. */
  function DigitsValue(s: string): nat
    requires AllDigits(s)
  {
    if s == [] then 0 else DigitsValue(s[..|s| - 1]) * 10 + DigitValue(s[|s| - 1])
  }

  /** Length of the longest prefix of `s` made of digits. */
  function DigitRun(s: string): (k: nat)
    ensures k <= |s| && AllDigits(s[..k])
    ensures k < |s| ==> !IsDigit(s[k])
  {
    if s == [] || !IsDigit(s[0]) then 0
    else
      var k := DigitRun(s[1..]);
      assert s[..k + 1] == [s[0]] + s[1..][..k];
      k + 1
  }

  /** Strips the literal `lit` from the front of `s`. */
  function Expect(lit: string, s: string): (r: Option<string>)
    ensures r.Some? <==> (|lit| <= |s| && s[..|lit|] == lit)
    ensures r.Some? ==> r.value == s[|lit|..]
  {
    if |lit| <= |s| && s[..|lit|] == lit then Some(s[|lit|..]) else None
  }

  /** Reads a maximal run of digits. */
  function ParseNat(s: string): (r: Option<(nat, string)>)
    ensures r.Some? ==> |r.value.1| < |s| && r.value.1 == s[|s| - |r.value.1|..]
  {
    var k := DigitRun(s);
    if k == 0 then None else Some((DigitsValue(s[..k]), s[k..]))
  }

  /** Reads an optionally negative decimal integer. */
  function ParseInt(s: string): (r: Option<(int, string)>)
    ensures r.Some? ==> |r.value.1| < |s|
  {
    if |s| > 0 && s[0] == '-' then
      var p :- ParseNat(s[1..]);
      Some((-(p.0 as int), p.1))
    else
      var p :- ParseNat(s);
      Some((p.0 as int, p.1))
  }

  function ParseBool(s: string): (r: Option<(bool, string)>)
    ensures r.Some? ==> |r.value.1| < |s|
  {
    if |s| >= 4 && s[..4] == "true" then Some((true, s[4..]))
    else if |s| >= 5 && s[..5] == "false" then Some((false, s[5..]))
    else None
  }

  /** `DominoChip.asJson`: the keys `first`, `second`, `place_first`, in that order. */
  function ChipJson(c: ChipData): string
  {
    "{\"first\":" + (IntToString(c.first) + (",\"second\":" + (IntToString(c.second)
    + (",\"place_first\":" + (BoolToString(c.placeFirst) + "}")))))
  }

  /** Texts separated by commas, in list order. */
  function Join(ts: seq<string>): string
  {
    if ts == [] then ""
    else if |ts| == 1 then ts[0]
    else ts[0] + ("," + Join(ts[1..]))
  }

  /** The chip texts of a list of chips, in order. */
  function ChipTexts(ds: seq<ChipData>): (ts: seq<string>)
    ensures |ts| == |ds|
    ensures forall i :: 0 <= i < |ds| ==> ts[i] == ChipJson(ds[i])
  {
    if ds == [] then [] else [ChipJson(ds[0])] + ChipTexts(ds[1..])
  }

  /** The list rendering shared by `DominoHand.asJson` and `DominoLine.asJson`. */
  function ListJson(ds: seq<ChipData>): string
  {
    "[" + (Join(ChipTexts(ds)) + "]")
  }

  /** Reads one chip object from the front of `s`. */
  function ParseChip(s: string): (r: Option<(ChipData, string)>)
    ensures r.Some? ==> |r.value.1| < |s|
  {
    var r1 :- Expect("{\"first\":", s);
    var f :- ParseInt(r1);
    var r2 :- Expect(",\"second\":", f.1);
    var g :- ParseInt(r2);
    var r3 :- Expect(",\"place_first\":", g.1);
    var b :- ParseBool(r3);
    var r4 :- Expect("}", b.1);
    Some((ChipData(f.0, g.0, b.0), r4))
  }

  /** Reads comma-separated chips up to and including the closing bracket. */
  function ParseItems(s: string): Option<seq<ChipData>>
    decreases |s|
  {
    var p :- ParseChip(s);
    if p.1 == "]" then Some([p.0])
    else if |p.1| > 0 && p.1[0] == ',' then
      var rest :- ParseItems(p.1[1..]);
      Some([p.0] + rest)
    else None
  }

  /** Reads a whole chip list. */
  function ParseList(s: string): Option<seq<ChipData>>
  {
    var r :- Expect("[", s);
    if r == "]" then Some([]) else ParseItems(r)
  }

  // ---------------------------------------------------------------------------
  // Decimal round trip

  lemma {:induction false} DigitsValueSnoc(s: string, c: char)
    requires AllDigits(s) && IsDigit(c)
    ensures AllDigits(s + [c]) && DigitsValue(s + [c]) == DigitsValue(s) * 10 + DigitValue(c)
  {
    assert (s + [c])[..|s + [c]| - 1] == s;
  }

  lemma {:induction false} NatToStringValue(n: nat)
    ensures DigitsValue(NatToString(n)) == n
    decreases n
  {
    if n >= 10 {
      NatToStringValue(n / 10);
      DigitsValueSnoc(NatToString(n / 10), DigitChar(n % 10));
    }
  }

  lemma {:induction false} DigitRunAppend(d: string, rest: string)
    requires AllDigits(d)
    ensures DigitRun(d + rest) == |d| + DigitRun(rest)
  {
    if d != [] {
      assert (d + rest)[1..] == d[1..] + rest;
      DigitRunAppend(d[1..], rest);
    } else {
      assert d + rest == rest;
    }
  }

  lemma ParseNatRoundTrip(n: nat, rest: string)
    requires rest == [] || !IsDigit(rest[0])
    ensures ParseNat(NatToString(n) + rest) == Some((n, rest))
  {
    var s := NatToString(n) + rest;
    DigitRunAppend(NatToString(n), rest);
    assert DigitRun(rest) == 0;
    assert s[..|NatToString(n)|] == NatToString(n);
    assert s[|NatToString(n)|..] == rest;
    NatToStringValue(n);
  }

  lemma NegRoundTrip(n: nat, rest: string)
    requires n > 0
    requires rest == [] || !IsDigit(rest[0])
    ensures ParseInt("-" + (NatToString(n) + rest)) == Some((-(n as int), rest))
  {
    var s := "-" + (NatToString(n) + rest);
    assert s[1..] == NatToString(n) + rest;
    ParseNatRoundTrip(n, rest);
  }

  lemma NonNegRoundTrip(n: nat, rest: string)
    requires rest == [] || !IsDigit(rest[0])
    ensures ParseInt(NatToString(n) + rest) == Some((n as int, rest))
  {
    var d := NatToString(n);
    var s := d + rest;
    assert s[0] == d[0];
    ParseNatRoundTrip(n, rest);
  }

  lemma NegText(i: int, rest: string)
    requires i < 0
    ensures IntToString(i) + rest == "-" + (NatToString(-i) + rest)
  {
    Assoc("-", NatToString(-i), rest);
  }

  /** Reading back a rendered integer gives the integer and the untouched rest. */
  lemma IntRoundTrip(i: int, rest: string)
    requires rest == [] || !IsDigit(rest[0])
    ensures ParseInt(IntToString(i) + rest) == Some((i, rest))
  {
    if i < 0 {
      NegText(i, rest);
      NegRoundTrip(-i, rest);
    } else {
      NonNegRoundTrip(i, rest);
    }
  }

  lemma Assoc(a: string, b: string, c: string)
    ensures (a + b) + c == a + (b + c)
  {
  }

  lemma ExpectPrefix(lit: string, rest: string)
    ensures Expect(lit, lit + rest) == Some(rest)
  {
    assert (lit + rest)[..|lit|] == lit;
    assert (lit + rest)[|lit|..] == rest;
  }

  lemma BoolRoundTrip(b: bool, rest: string)
    ensures ParseBool(BoolToString(b) + rest) == Some((b, rest))
  {
    var s := BoolToString(b) + rest;
    if b {
      assert s[..4] == "true";
    } else {
      assert s[..4] == "fals";
      assert s[..5] == "false";
    }
  }

  /** `asJson` of a chip reads back to the same pips and side flag. */
  lemma ChipRoundTrip(c: ChipData, rest: string)
    ensures ParseChip(ChipJson(c) + rest) == Some((c, rest))
  {
    var i1, i2, b := IntToString(c.first), IntToString(c.second), BoolToString(c.placeFirst);
    var l1, l2, l3 := "{\"first\":", ",\"second\":", ",\"place_first\":";
    var t4 := "}" + rest;
    var t3 := b + t4;
    var t2 := l3 + t3;
    var u2 := i2 + t2;
    var t1 := l2 + u2;
    var u1 := i1 + t1;
    Assoc(b, "}", rest);
    Assoc(l3, b + "}", rest);
    Assoc(i2, l3 + (b + "}"), rest);
    Assoc(l2, i2 + (l3 + (b + "}")), rest);
    Assoc(i1, l2 + (i2 + (l3 + (b + "}"))), rest);
    Assoc(l1, i1 + (l2 + (i2 + (l3 + (b + "}")))), rest);
    assert ChipJson(c) + rest == l1 + u1;
    ExpectPrefix(l1, u1);
    assert t1[0] == ',';
    IntRoundTrip(c.first, t1);
    ExpectPrefix(l2, u2);
    assert t2[0] == ',';
    IntRoundTrip(c.second, t2);
    ExpectPrefix(l3, t3);
    BoolRoundTrip(c.placeFirst, t4);
    ExpectPrefix("}", rest);
  }

  /** The chip rendering read left to right, as the Java code concatenates it. */
  lemma FlatChipJson(c: ChipData)
    ensures ChipJson(c) == "{\"first\":" + IntToString(c.first) + ",\"second\":" + IntToString(c.second)
                           + ",\"place_first\":" + BoolToString(c.placeFirst) + "}"
  {
    FlatSeven("{\"first\":", IntToString(c.first), ",\"second\":", IntToString(c.second),
              ",\"place_first\":", BoolToString(c.placeFirst), "}");
  }

  lemma FlatSeven(a: string, b: string, c: string, d: string, e: string, f: string, g: string)
    ensures a + (b + (c + (d + (e + (f + g))))) == a + b + c + d + e + f + g
  {
    Assoc(a, b, c + (d + (e + (f + g))));
    Assoc(a + b, c, d + (e + (f + g)));
    Assoc(a + b + c, d, e + (f + g));
    Assoc(a + b + c + d, e, f + g);
    Assoc(a + b + c + d + e, f, g);
  }

  lemma JoinConsBracket(ts: seq<string>)
    requires |ts| > 1
    ensures Join(ts) + "]" == ts[0] + ("," + (Join(ts[1..]) + "]"))
  {
    Assoc(ts[0], "," + Join(ts[1..]), "]");
    Assoc(",", Join(ts[1..]), "]");
  }

  lemma ParseItemsOne(s: string, d: ChipData)
    requires ParseChip(s) == Some((d, "]"))
    ensures ParseItems(s) == Some([d])
  {
  }

  lemma ParseItemsCons(s: string, d: ChipData, more: string, ds: seq<ChipData>)
    requires ParseChip(s) == Some((d, more))
    requires |more| > 0 && more[0] == ',' && more != "]"
    requires ParseItems(more[1..]) == Some(ds)
    ensures ParseItems(s) == Some([d] + ds)
  {
  }

  lemma ItemsSingle(ds: seq<ChipData>, ts: seq<string>)
    requires |ts| == |ds| == 1 && ts[0] == ChipJson(ds[0])
    ensures ParseItems(Join(ts) + "]") == Some(ds)
  {
    assert Join(ts) == ts[0];
    ChipRoundTrip(ds[0], "]");
    ParseItemsOne(Join(ts) + "]", ds[0]);
    assert [ds[0]] == ds;
  }

  lemma ItemsStep(ds: seq<ChipData>, ts: seq<string>)
    requires |ts| == |ds| > 1 && ts[0] == ChipJson(ds[0])
    requires ParseItems(Join(ts[1..]) + "]") == Some(ds[1..])
    ensures ParseItems(Join(ts) + "]") == Some(ds)
  {
    var tail := Join(ts[1..]) + "]";
    JoinConsBracket(ts);
    ChipRoundTrip(ds[0], "," + tail);
    assert ("," + tail)[1..] == tail;
    ParseItemsCons(Join(ts) + "]", ds[0], "," + tail, ds[1..]);
    assert [ds[0]] + ds[1..] == ds;
  }

  lemma {:induction false} ItemsRoundTrip(ds: seq<ChipData>, ts: seq<string>)
    requires |ts| == |ds| > 0
    requires forall i :: 0 <= i < |ds| ==> ts[i] == ChipJson(ds[i])
    ensures ParseItems(Join(ts) + "]") == Some(ds)
    decreases |ds|
  {
    if |ds| == 1 {
      ItemsSingle(ds, ts);
    } else {
      ItemsRoundTrip(ds[1..], ts[1..]);
      ItemsStep(ds, ts);
    }
  }

  /** The hand and line JSON reads back to the listed chips, in order; `[]` is the empty list. */
  lemma ListRoundTrip(ds: seq<ChipData>)
    ensures ParseList(ListJson(ds)) == Some(ds)
  {
    var body := Join(ChipTexts(ds)) + "]";
    ExpectPrefix("[", body);
    if ds != [] {
      ItemsRoundTrip(ds, ChipTexts(ds));
      assert ChipTexts(ds)[0] == ChipJson(ds[0]);
      assert body[0] == '{';
    }
  }

  /** Appending one text extends the joined text by a comma (when not first) and that text. */
  lemma {:induction false} JoinSnoc(ts: seq<string>, t: string)
    ensures Join(ts + [t]) == if ts == [] then t else Join(ts) + ("," + t)
    decreases |ts|
  {
    if |ts| >= 1 {
      assert (ts + [t])[1..] == ts[1..] + [t];
      JoinSnoc(ts[1..], t);
      if |ts| >= 2 {
        Assoc(",", Join(ts[1..]), "," + t);
        Assoc(ts[0], "," + Join(ts[1..]), "," + t);
      }
    }
  }
}

=== FILE: lines.dfy ===
/**
 * `DominoLine`: the chain of chips on the table. It keeps the open end values
 * as a list whose head is the first end and whose tail is the last end (every
 * placement pushes one value on a side, and the opening chip pushes two), and
 * the chips in the order they were played.
 */
module Lines {
  import opened Options
  import opened Json
  import opened Chips
  import opened Hands
  import opened Lists

  function Last(ends: seq<int>): int
    requires ends != []
  {
    ends[|ends| - 1]
  }

  /** One of the chip's pips equals the end value `e`. */
  predicate Touches(chip: DominoChip, e: int)
  {
    chip.first == e || chip.second == e
  }

  /**
   * Whether a chip may be played on a line with these end values: on an empty
   * line any chip opens, except that the first round must open with the double
   * six; otherwise a pip must match one of the two ends.
   */
  predicate Playable(ends: seq<int>, chip: DominoChip, firstGame: bool)
  {
    if ends == [] then !firstGame || IsDoubleSix(chip)
    else Touches(chip, ends[0]) || Touches(chip, Last(ends))
  }

  /**
   * The end values after laying a chip with pips `f` and `s` on the side
   * `placeFirst` names. The opening chip gives both ends; later chips push the
   * pip that is not the one facing the old end, or `f` when `f` does not face it.
   */
  function Place(ends: seq<int>, f: int, s: int, placeFirst: bool): (r: seq<int>)
    ensures ends == [] ==> r == [f, s]
    ensures ends != [] ==> |r| == |ends| + 1
    ensures ends != [] && placeFirst ==> r[1..] == ends && Last(r) == Last(ends)
    ensures ends != [] && !placeFirst ==> r[..|ends|] == ends && r[0] == ends[0]
  {
    if ends == [] then [f, s]
    else if placeFirst then [if ends[0] == f then s else f] + ends
    else ends + [if Last(ends) == f then s else f]
  }

  /**
   * A chip that fits the end it is laid on joins that end to the new end: the
   * old end and the new end are its two pips. A double keeps the end value.
   */
  lemma PlaceJoins(ends: seq<int>, f: int, s: int, placeFirst: bool)
    requires ends != []
    ensures var r := Place(ends, f, s, placeFirst);
      && (placeFirst && (f == ends[0] || s == ends[0]) ==> multiset{r[0], ends[0]} == multiset{f, s})
      && (!placeFirst && (f == Last(ends) || s == Last(ends)) ==> multiset{Last(r), Last(ends)} == multiset{f, s})
      && (f == s && placeFirst && f == ends[0] ==> r[0] == ends[0])
      && (f == s && !placeFirst && f == Last(ends) ==> Last(r) == Last(ends))
  {
  }

  /** The end values after placing each chip of `ds` in turn, each on the side its flag names. */
  function Replay(ends: seq<int>, ds: seq<ChipData>): seq<int>
  {
    if ds == [] then ends
    else
      var d := ds[|ds| - 1];
      Place(Replay(ends, ds[..|ds| - 1]), d.first, d.second, d.placeFirst)
  }

  lemma ReplayStep(ends: seq<int>, ds: seq<ChipData>, i: nat)
    requires i < |ds|
    ensures Replay(ends, ds[..i + 1]) == Place(Replay(ends, ds[..i]), ds[i].first, ds[i].second, ds[i].placeFirst)
  {
    assert ds[..i + 1][..i] == ds[..i];
  }

  /** The size relation between end values and chips: none of either, or one more end than chips. */
  predicate Shaped(ends: seq<int>, played: nat)
  {
    |ends| == if played == 0 then 0 else played + 1
  }

  /** Replaying chips keeps the end list one longer than the chip list. */
  lemma {:induction false} ReplayShaped(ends: seq<int>, played: nat, ds: seq<ChipData>)
    requires Shaped(ends, played)
    ensures Shaped(Replay(ends, ds), played + |ds|)
    decreases |ds|
  {
    if ds != [] {
      ReplayShaped(ends, played, ds[..|ds| - 1]);
    }
  }

  /** Replaying a list split in two replays the first part, then the second. */
  lemma {:induction false} ReplayAppend(ends: seq<int>, ds: seq<ChipData>, es: seq<ChipData>)
    ensures Replay(ends, ds + es) == Replay(Replay(ends, ds), es)
    decreases |es|
  {
    if es == [] {
      assert ds + es == ds;
    } else {
      assert (ds + es)[..|ds + es| - 1] == ds + es[..|es| - 1];
      ReplayAppend(ends, ds, es[..|es| - 1]);
    }
  }

  class DominoLine {
    var ends: seq<int>
    var chips: seq<DominoChip>

    ghost predicate Valid()
      reads this
    {
      Shaped(ends, |chips|)
    }

    constructor ()
      ensures ends == [] && chips == [] && Valid()
    {
      ends := [];
      chips := [];
    }

    /** `clear`: no chips and no ends. */
    method Clear()
      modifies this
      ensures ends == [] && chips == [] && Valid()
    {
      chips := [];
      ends := [];
    }

    /** `isEmpty`: no end values, which on a well-formed line means no chips. */
    predicate IsEmpty()
      reads this
    {
      ends == []
    }

    lemma EmptyMeansNoChips()
      requires Valid()
      ensures IsEmpty() <==> chips == []
    {
    }

    function GetFirst(): int
      reads this
      requires ends != []
    {
      ends[0]
    }

    function GetLast(): int
      reads this
      requires ends != []
    {
      Last(ends)
    }

    /** `hasDifferentEnds`: false on an empty line, otherwise whether the two ends differ. */
    predicate HasDifferentEnds()
      reads this
      ensures HasDifferentEnds() <==> ends != [] && GetFirst() != GetLast()
    {
      if ends == [] then false else ends[0] != Last(ends)
    }

    /**
     * `canPlayFirst`: on an empty line any chip may open, or only the double six
     * in the first round; otherwise one pip must match the first end.
     */
    predicate CanPlayFirst(chip: DominoChip, firstGame: bool)
      reads this
      ensures ends == [] ==> (CanPlayFirst(chip, firstGame) <==> !firstGame || IsDoubleSix(chip))
      ensures ends != [] ==> (CanPlayFirst(chip, firstGame) <==> Touches(chip, GetFirst()))
    {
      if !firstGame && ends == [] then true
      else if ends == [] then chip.first == 6 && chip.second == 6
      else chip.first == ends[0] || chip.second == ends[0]
    }

    /** `canPlayLast`: as `canPlayFirst`, against the last end. */
    predicate CanPlayLast(chip: DominoChip, firstGame: bool)
      reads this
      ensures ends == [] ==> (CanPlayLast(chip, firstGame) <==> !firstGame || IsDoubleSix(chip))
      ensures ends != [] ==> (CanPlayLast(chip, firstGame) <==> Touches(chip, GetLast()))
    {
      if !firstGame && ends == [] then true
      else if ends == [] then chip.first == 6 && chip.second == 6
      else chip.first == Last(ends) || chip.second == Last(ends)
    }

    /** `canPlay`: the opening rule on an empty line, otherwise playable on either side. */
    predicate CanPlay(chip: DominoChip, firstGame: bool)
      reads this
      ensures CanPlay(chip, firstGame) <==> Playable(ends, chip, firstGame)
      ensures CanPlay(chip, firstGame) <==> CanPlayFirst(chip, firstGame) || CanPlayLast(chip, firstGame)
    {
      if !firstGame && ends == [] then true
      else if ends == [] then chip.first == 6 && chip.second == 6
      else
        chip.first == ends[0] || chip.second == ends[0]
        || chip.first == Last(ends) || chip.second == Last(ends)
    }

    /**
     * `canPlayAny`: whether some chip of the hand can be played. The first-round
     * flag is a static of the Java client; here it is a parameter.
     */
    method CanPlayAny(hand: DominoHand, firstGame: bool) returns (any: bool)
      ensures any <==> exists i :: 0 <= i < |hand.chips| && CanPlay(hand.chips[i], firstGame)
    {
      var i := 0;
      while i < |hand.chips|
        invariant i <= |hand.chips|
        invariant forall k :: 0 <= k < i ==> !CanPlay(hand.chips[k], firstGame)
      {
        if CanPlay(hand.chips[i], firstGame) {
          return true;
        }
        i := i + 1;
      }
      return false;
    }

    /**
     * `playChip`: lays the chip on the side its flag names, without checking
     * that it fits, and records it.
     */
    method PlayChip(chip: DominoChip)
      requires Valid()
      modifies this
      ensures Valid()
      ensures ends == Place(old(ends), chip.first, chip.second, chip.placeFirst)
      ensures chips == old(chips) + [chip]
    {
      if ends == [] {
        ends := [chip.first] + ends;
        ends := ends + [chip.second];
      } else if chip.placeFirst {
        if ends[0] == chip.first {
          ends := [chip.second] + ends;
        } else {
          ends := [chip.first] + ends;
        }
      } else {
        if Last(ends) == chip.first {
          ends := ends + [chip.second];
        } else {
          ends := ends + [chip.first];
        }
      }
      chips := chips + [chip];
    }

    /**
     * `playChipCPU`: picks the side itself (the first end when either pip
     * matches it, else the last end), records that choice on the chip, and
     * lays it there as `playChip` would.
     */
    method PlayChipCPU(chip: DominoChip)
      requires Valid()
      modifies this, chip
      ensures Valid()
      ensures chip.placeFirst <==> old(ends) == [] || Touches(chip, old(ends)[0])
      ensures ends == Place(old(ends), chip.first, chip.second, chip.placeFirst)
      ensures chips == old(chips) + [chip]
      ensures old(ends) != [] && old(CanPlay(chip, true)) ==>
                if chip.placeFirst then old(CanPlayFirst(chip, true)) else old(CanPlayLast(chip, true))
    {
      if ends == [] {
        ends := [chip.first] + ends;
        ends := ends + [chip.second];
        chip.SetPlaceFirst(true);
      } else if ends[0] == chip.first {
        ends := [chip.second] + ends;
        chip.SetPlaceFirst(true);
      } else if ends[0] == chip.second {
        ends := [chip.first] + ends;
        chip.SetPlaceFirst(true);
      } else if Last(ends) == chip.first {
        ends := ends + [chip.second];
        chip.SetPlaceFirst(false);
      } else {
        ends := ends + [chip.first];
        chip.SetPlaceFirst(false);
      }
      chips := chips + [chip];
    }

    /** `update`: plays each listed chip in order through `playChip`. */
    method Update(cs: seq<DominoChip>)
      requires Valid()
      modifies this
      ensures Valid()
      ensures ends == Replay(old(ends), DataOf(cs))
      ensures chips == old(chips) + cs
    {
      ghost var ds := DataOf(cs);
      for i := 0 to |cs|
        invariant Valid()
        invariant ends == Replay(old(ends), ds[..i])
        invariant chips == old(chips) + cs[..i]
      {
        ReplayStep(old(ends), ds, i);
        GrowPrefix(old(chips), cs, i);
        PlayChip(cs[i]);
      }
      WholePrefix(cs);
      WholePrefix(ds);
    }

    /** `asJson`: the played chips, in play order, as a JSON array that reads back to them. */
    method AsJson() returns (json: string)
      ensures json == ListJson(DataOf(chips))
      ensures ParseList(json) == Some(DataOf(chips))
    {
      json := ListAsJson(chips);
    }
  }
}

=== FILE: lists.dfy ===
/**
 * The list-library operations the engine relies on, over any element type.
 * Removal by value uses the element's equality; for the engine's objects,
 * which do not redefine it, that is identity.
 */
module Lists {
  predicate Distinct<T(==)>(xs: seq<T>)
  {
    forall i, j :: 0 <= i < j < |xs| ==> xs[i] != xs[j]
  }

  lemma {:induction false} AtMostOnce<T>(xs: seq<T>, x: T)
    requires Distinct(xs)
    ensures multiset(xs)[x] <= 1
  {
    if xs != [] {
      assert xs == [xs[0]] + xs[1..];
      assert Distinct(xs[1..]);
      AtMostOnce(xs[1..], x);
      if xs[0] == x {
        assert x !in xs[1..];
      }
    }
  }

  /** A reordering of a list of distinct elements is again distinct. */
  lemma DistinctMultiset<T>(xs: seq<T>, ys: seq<T>)
    requires Distinct(xs) && multiset(xs) == multiset(ys)
    ensures Distinct(ys)
  {
    forall i, j | 0 <= i < j < |ys|
      ensures ys[i] != ys[j]
    {
      if ys[i] == ys[j] {
        assert ys == ys[..i] + [ys[i]] + ys[i + 1..j] + [ys[j]] + ys[j + 1..];
        assert multiset(ys)[ys[i]] >= 2;
        AtMostOnce(xs, ys[i]);
      }
    }
  }

  /** `List.remove(int)`: the list without position `i`, the others in their order. */
  function RemoveAt<T>(xs: seq<T>, i: nat): (r: seq<T>)
    requires i < |xs|
    ensures |r| == |xs| - 1
  {
    xs[..i] + xs[i + 1..]
  }

  /** A prefix one longer is the prefix and the next element, after any fixed front. */
  lemma GrowPrefix<T>(a: seq<T>, xs: seq<T>, i: nat)
    requires i < |xs|
    ensures a + xs[..i + 1] == (a + xs[..i]) + [xs[i]]
  {
    assert xs[..i + 1] == xs[..i] + [xs[i]];
  }

  lemma WholePrefix<T>(xs: seq<T>)
    ensures xs[..|xs|] == xs
  {
  }

  /** A list is the run before a position, its element and the run after it. */
  lemma SplitAt<T>(xs: seq<T>, i: nat)
    requires i < |xs|
    ensures xs == xs[..i] + [xs[i]] + xs[i + 1..]
    ensures RemoveAt(xs, i) == xs[..i] + xs[i + 1..]
  {
  }

  /** Removing a position takes exactly that element out of the multiset. */
  lemma RemoveAtMultiset<T>(xs: seq<T>, i: nat)
    requires i < |xs|
    ensures multiset(RemoveAt(xs, i)) == multiset(xs) - multiset{xs[i]}
  {
    assert xs == xs[..i] + [xs[i]] + xs[i + 1..];
  }

  /** Every element of `xs` is one of `pool`'s. */
  predicate Among<T(==)>(xs: seq<T>, pool: seq<T>)
  {
    forall x :: x in xs ==> x in pool
  }

  /** Removing a position keeps the remaining elements among the original ones. */
  lemma RemoveAtAmong<T>(xs: seq<T>, i: nat, pool: seq<T>)
    requires i < |xs| && Among(xs, pool)
    ensures Among(RemoveAt(xs, i), pool)
  {
    forall x | x in RemoveAt(xs, i)
      ensures x in pool
    {
      RemoveAtMultiset(xs, i);
      assert x in multiset(RemoveAt(xs, i));
    }
  }

  /** Position of the first occurrence of `x`. */
  function FirstIndex<T(==)>(xs: seq<T>, x: T): (i: nat)
    requires x in xs
    ensures i < |xs| && xs[i] == x && x !in xs[..i]
  {
    if xs[0] == x then 0
    else
      var k := FirstIndex(xs[1..], x);
      assert xs[..k + 1] == [xs[0]] + xs[1..][..k];
      k + 1
  }

  /** `List.remove(Object)`: drops the first occurrence of `x`, or nothing. */
  function RemoveFirst<T(==)>(xs: seq<T>, x: T): seq<T>
  {
    if xs == [] then []
    else if xs[0] == x then xs[1..]
    else [xs[0]] + RemoveFirst(xs[1..], x)
  }

  /** Removing an absent element changes nothing. */
  lemma {:induction false} RemoveFirstAbsent<T>(xs: seq<T>, x: T)
    requires x !in xs
    ensures RemoveFirst(xs, x) == xs
  {
    if xs != [] {
      RemoveFirstAbsent(xs[1..], x);
      assert [xs[0]] + xs[1..] == xs;
    }
  }

  /** A present element goes from its first position only. */
  lemma {:induction false} RemoveFirstPresent<T>(xs: seq<T>, x: T)
    requires x in xs
    ensures RemoveFirst(xs, x) == RemoveAt(xs, FirstIndex(xs, x))
  {
    if xs[0] != x {
      var t := xs[1..];
      assert x in t;
      RemoveFirstPresent(t, x);
      ConsRemoveAt(xs, FirstIndex(t, x));
    }
  }

  lemma RemoveFirstSpec<T>(xs: seq<T>, x: T)
    ensures x !in xs ==> RemoveFirst(xs, x) == xs
    ensures x in xs ==> RemoveFirst(xs, x) == RemoveAt(xs, FirstIndex(xs, x))
  {
    if x in xs {
      RemoveFirstPresent(xs, x);
    } else {
      RemoveFirstAbsent(xs, x);
    }
  }

  lemma ConsRemoveAt<T>(xs: seq<T>, k: nat)
    requires k + 1 < |xs|
    ensures [xs[0]] + RemoveAt(xs[1..], k) == RemoveAt(xs, k + 1)
  {
    var t := xs[1..];
    assert [xs[0]] + t[..k] == xs[..k + 1];
    assert t[k + 1..] == xs[k + 2..];
  }

  /** Removal by value never adds: the result's elements are a sub-multiset of the list's. */
  lemma RemoveFirstShrinks<T>(xs: seq<T>, x: T)
    ensures multiset(RemoveFirst(xs, x)) <= multiset(xs)
    ensures |RemoveFirst(xs, x)| == if x in xs then |xs| - 1 else |xs|
  {
    RemoveFirstSpec(xs, x);
    if x in xs {
      RemoveAtMultiset(xs, FirstIndex(xs, x));
    }
  }

  /** Four pieces joined left to right are the first joined to the other three. */
  lemma AppendAssoc<T>(a: seq<T>, b: seq<T>, c: seq<T>, d: seq<T>)
    ensures a + b + c + d == a + (b + c + d)
  {
  }

  /** A prefix of a prefix is a prefix. */
  lemma PrefixTrans<T>(a: seq<T>, b: seq<T>, c: seq<T>)
    requires a <= b && b <= c
    ensures a <= c
  {
    assert c[..|a|] == c[..|b|][..|a|];
  }

  /** Dropping the head of a suffix leaves the next suffix. */
  lemma DropHead<T>(xs: seq<T>, i: nat)
    requires i < |xs|
    ensures xs[i..][0] == xs[i] && xs[i..][1..] == xs[i + 1..]
  {
  }
}

=== FILE: options.dfy ===
/** The optional value used wherever the Java code returns `null`. */
module Options {
  datatype Option<+T> = None | Some(value: T) {
    predicate IsFailure() { None? }

    function PropagateFailure<U>(): Option<U>
      requires None?
    {
      None
    }

    function Extract(): T
      requires Some?
    {
      value
    }
  }
}

=== FILE: players.dfy ===
/**
 * `DominoPlayer` and the messages the server writes to it. The socket stream
 * is one shared `Network` object that records every message in the order it
 * is written, addressed to the player it was written to.
 */
module Players {
  import opened Options
  import opened Json
  import opened Hands
  import opened Protocols

  /** What `toJson` publishes about a user: its id and name, each possibly unset. */
  datatype UserData = UserData(id: Option<string>, name: Option<string>)

  /** The messages the server sends, one constructor per kind of response. */
  datatype Message =
    | LoginReply
    | SameUserReply(text: string)
    | ErrorReply(text: string)
    | BlankReply
    | GameReady(hand: seq<ChipData>, start: bool, players: seq<UserData>)
    | PlayerPlayed(chip: ChipData, player: int, line: seq<ChipData>)
    | PlayerTurn
    | Winner(winner: int, firstScore: int, secondScore: int)

  /** The `action` tag each message carries; the reply after a play or a pass carries none. */
  function Action(m: Message): string
  {
    match m
    case LoginReply => LoginAction
    case SameUserReply(_) => SameUserResponse
    case ErrorReply(_) => ErrorAction
    case BlankReply => ""
    case GameReady(_, _, _) => GameReadyResponse
    case PlayerPlayed(_, _, _) => PlayerPlayedResponse
    case PlayerTurn => PlayerTurnResponse
    case Winner(_, _, _) => WinnerResponse
  }

  /** Every message but the blank reply is tagged with a distinct protocol constant. */
  lemma ActionsDistinct(m: Message, n: Message)
    requires Action(m) == Action(n) && m != BlankReply
    ensures m.LoginReply? <==> n.LoginReply?
    ensures m.SameUserReply? <==> n.SameUserReply?
    ensures m.ErrorReply? <==> n.ErrorReply?
    ensures m.GameReady? <==> n.GameReady?
    ensures m.PlayerPlayed? <==> n.PlayerPlayed?
    ensures m.PlayerTurn? <==> n.PlayerTurn?
    ensures m.Winner? <==> n.Winner?
    ensures n != BlankReply
  {
  }

  class DominoPlayer {
    var id: Option<string>
    var name: Option<string>
    var hand: DominoHand?

    /** A connection whose user has not signed in yet. */
    constructor ()
      ensures id == None && name == None && hand == null
    {
      id := None;
      name := None;
      hand := null;
    }

    /** `setCredentials`: records the id and name; nothing else changes. */
    method SetCredentials(userId: string, userName: string)
      modifies this
      ensures id == Some(userId) && name == Some(userName) && hand == old(hand)
    {
      id := Some(userId);
      name := Some(userName);
    }

    /** `setHand`. */
    method SetHand(h: DominoHand?)
      modifies this
      ensures hand == h && id == old(id) && name == old(name)
    {
      hand := h;
    }

    /** `toJson`: the user's id and name. */
    function ToJson(): UserData
      reads this
    {
      UserData(id, name)
    }
  }

  /** One written message and the player whose stream it went to. */
  datatype Sent = Sent(to: DominoPlayer, msg: Message)

  /** The same message written to each player in list order. */
  function Broadcast(ps: seq<DominoPlayer>, m: Message): (r: seq<Sent>)
    ensures |r| == |ps|
    ensures forall i :: 0 <= i < |ps| ==> r[i] == Sent(ps[i], m)
  {
    seq(|ps|, i requires 0 <= i < |ps| => Sent(ps[i], m))
  }

  /** The published data of each player, in list order (`getPlayersAsJson`). */
  function UsersData(ps: seq<DominoPlayer>): (r: seq<UserData>)
    reads ps
    ensures |r| == |ps|
    ensures forall i :: 0 <= i < |ps| ==> r[i] == ps[i].ToJson()
  {
    seq(|ps|, i reads ps requires 0 <= i < |ps| => ps[i].ToJson())
  }

  /** The output side of every connection: the messages written so far, in order. */
  class Network {
    var log: seq<Sent>

    constructor ()
      ensures log == []
    {
      log := [];
    }

    /** `sendMessage`: writes one message to one player; earlier messages stay as they were. */
    method Send(to: DominoPlayer, m: Message)
      modifies this
      ensures log == old(log) + [Sent(to, m)]
    {
      log := log + [Sent(to, m)];
    }
  }
}

=== FILE: protocols.dfy ===
/**
 * `NetworkProtocols`: the action and response tags of the wire protocol, and
 * the check a client applies to a host address before connecting.
 */
module Protocols {
  import opened Json

  const LoginAction: string := "LOGIN"
  const ErrorAction: string := "ERROR"
  const PlayChipAction: string := "PLAY_CHIP"
  const LogoutAction: string := "LOGOUT"
  const SendAction: string := "SEND"
  const PassAction: string := "PASS"
  const SameUserResponse: string := "SAME_USER"
  const GameReadyResponse: string := "GAME_READY"
  const PlayerPlayedResponse: string := "PLAYER_PLAYED"
  const MessageReceivedResponse: string := "MESSAGE_RECEIVED"
  const PlayerTurnResponse: string := "PLAYER_TURN"
  const WinnerResponse: string := "WINNER"
  const ServerName: string := "SERVER"

  // ---------------------------------------------------------------------------
  // The address pattern, read as the regular-expression engine reads it: four
  // repetitions of (an octet alternative, then a dot not at the end or the end
  // of the text), then the end of the text. The alternatives may be tried in
  // any order, so a repetition succeeds when some octet length works.

  /** The first `k` characters match `[0-9]|[1-9][0-9]|1[0-9][0-9]|2[0-4][0-9]|25[0-5]`. */
  predicate OctetAt(s: string, k: nat)
  {
    k <= |s| &&
    (|| (k == 1 && IsDigit(s[0]))
     || (k == 2 && '1' <= s[0] <= '9' && IsDigit(s[1]))
     || (k == 3 && s[0] == '1' && IsDigit(s[1]) && IsDigit(s[2]))
     || (k == 3 && s[0] == '2' && '0' <= s[1] <= '4' && IsDigit(s[2]))
     || (k == 3 && s[0] == '2' && s[1] == '5' && '0' <= s[2] <= '5'))
  }

  /** `n` more repetitions of the group match `s`, and then the text ends. */
  predicate Groups(s: string, n: nat)
    decreases n, 1
  {
    if n == 0 then s == []
    else GroupWith(s, 1, n) || GroupWith(s, 2, n) || GroupWith(s, 3, n)
  }

  /** One repetition whose octet is `k` characters long, then the remaining ones. */
  predicate GroupWith(s: string, k: nat, n: nat)
    requires n >= 1
    decreases n, 0
  {
    && OctetAt(s, k)
    && (|| (k < |s| && s[k] == '.' && k + 1 < |s| && Groups(s[k + 1..], n - 1))
        || (k == |s| && Groups(s[k..], n - 1)))
  }

  /** `isValidIPAddress`: the whole text matches the pattern. */
  predicate IsValidIPAddress(address: string)
  {
    Groups(address, 4)
  }

  // ---------------------------------------------------------------------------
  // The reference: the `IPv4address` rule of section 3.2.2 of RFC 3986, four
  // `dec-octet`s (0 to 255 in decimal, no leading zero) separated by dots.

  /** Index of the first dot, or the length when there is none. */
  function DotIndex(s: string): (j: nat)
    ensures j <= |s| && '.' !in s[..j]
    ensures j < |s| ==> s[j] == '.'
  {
    if s == [] || s[0] == '.' then 0
    else
      var j := DotIndex(s[1..]);
      assert s[..j + 1] == [s[0]] + s[1..][..j];
      j + 1
  }

  /** The text cut at every dot; a text without dots is one field. */
  function Fields(s: string): (fs: seq<string>)
    ensures |fs| >= 1
    decreases |s|
  {
    var j := DotIndex(s);
    if j == |s| then [s] else [s[..j]] + Fields(s[j + 1..])
  }

  predicate IsDecOctet(t: string)
  {
    1 <= |t| <= 3 && AllDigits(t) && (|t| > 1 ==> t[0] != '0') && DigitsValue(t) <= 255
  }

  predicate AllOctets(fs: seq<string>)
  {
    forall i :: 0 <= i < |fs| ==> IsDecOctet(fs[i])
  }

  predicate IsDottedQuad(s: string)
  {
    |Fields(s)| == 4 && AllOctets(Fields(s))
  }

  /** An octet the pattern accepts ends at the first dot or at the end. */
  lemma OctetEndsAtDot(s: string, k: nat)
    requires OctetAt(s, k) && (k == |s| || s[k] == '.')
    ensures k == DotIndex(s)
  {
  }

  lemma DigitsValue3(t: string)
    requires |t| == 3 && AllDigits(t)
    ensures DigitsValue(t) == 100 * DigitValue(t[0]) + 10 * DigitValue(t[1]) + DigitValue(t[2])
  {
    assert DigitsValue(t) == DigitsValue(t[..2]) * 10 + DigitValue(t[2]);
    assert t[..2][..1] == t[..1];
    assert DigitsValue(t[..2]) == DigitsValue(t[..1]) * 10 + DigitValue(t[1]);
    assert t[..1][..0] == [];
    assert DigitsValue(t[..1]) == DigitValue(t[0]);
  }

  /** The octet alternatives accept exactly the decimal octets. */
  lemma OctetIsDecOctet(s: string, k: nat)
    requires k <= |s|
    ensures OctetAt(s, k) <==> IsDecOctet(s[..k])
  {
    var t := s[..k];
    if k == 1 {
      assert t[..0] == [];
      if AllDigits(t) {
        assert DigitsValue(t) == DigitValue(t[0]);
      }
    } else if k == 2 {
      if AllDigits(t) {
        assert DigitsValue(t) == DigitsValue(t[..1]) * 10 + DigitValue(t[1]);
        assert t[..1][..0] == [];
        assert DigitsValue(t[..1]) == DigitValue(t[0]);
      }
    } else if k == 3 {
      if AllDigits(t) {
        DigitsValue3(t);
      }
    }
  }

  /** One step of the pattern: the first field must be an octet, followed by a dot and more, or the end. */
  lemma GroupsStep(s: string, n: nat)
    requires n >= 1
    ensures var j := DotIndex(s);
      Groups(s, n) <==>
        && OctetAt(s, j)
        && (|| (j < |s| && j + 1 < |s| && Groups(s[j + 1..], n - 1))
            || (j == |s| && n == 1))
  {
    var j := DotIndex(s);
    forall k | 1 <= k <= 3 && GroupWith(s, k, n)
      ensures k == j
    {
      OctetEndsAtDot(s, k);
    }
    if j == |s| && n > 1 {
      assert !Groups([], n - 1);
    }
    if j == |s| {
      assert s[j..] == [];
    }
  }

  lemma AllOctetsCons(f: string, fs: seq<string>)
    ensures AllOctets([f] + fs) <==> IsDecOctet(f) && AllOctets(fs)
  {
    if IsDecOctet(f) && AllOctets(fs) {
      forall i | 0 <= i < |[f] + fs|
        ensures IsDecOctet(([f] + fs)[i])
      {
        if i > 0 {
          assert ([f] + fs)[i] == fs[i - 1];
        }
      }
    }
    if AllOctets([f] + fs) {
      assert IsDecOctet(([f] + fs)[0]);
      forall i | 0 <= i < |fs|
        ensures IsDecOctet(fs[i])
      {
        assert fs[i] == ([f] + fs)[i + 1];
      }
    }
  }

  /** Without a dot, the text is one field. */
  lemma LastField(s: string, n: nat)
    requires n >= 1 && DotIndex(s) == |s|
    ensures Groups(s, n) <==> |Fields(s)| == n && AllOctets(Fields(s))
  {
    GroupsStep(s, n);
    OctetIsDecOctet(s, |s|);
    assert s[..|s|] == s;
    assert Fields(s) == [s];
    AllOctetsCons(s, []);
    assert [s] + [] == [s];
  }

  /** A dot splits off the first field. */
  lemma FieldsAtDot(s: string)
    requires DotIndex(s) < |s|
    ensures Fields(s) == [s[..DotIndex(s)]] + Fields(s[DotIndex(s) + 1..])
  {
  }

  /** A text ending in a dot has an empty last field, which is no octet. */
  lemma TrailingDot(s: string, n: nat)
    requires n >= 1 && DotIndex(s) == |s| - 1
    ensures !Groups(s, n) && !AllOctets(Fields(s))
  {
    var j := DotIndex(s);
    GroupsStep(s, n);
    FieldsAtDot(s);
    assert s[j + 1..] == [];
    assert Fields(s[j + 1..]) == [[]];
    assert !IsDecOctet(Fields(s)[1]);
  }

  /**
   * With a dot inside the text, the pattern accepts exactly when the first
   * field is an octet and the rest holds one repetition fewer.
   */
  lemma {:induction false} InnerDot(s: string, n: nat)
    requires n >= 1 && DotIndex(s) < |s| - 1
    ensures Groups(s, n) <==> |Fields(s)| == n && AllOctets(Fields(s))
    decreases n, 0
  {
    var j := DotIndex(s);
    var rest := s[j + 1..];
    GroupsStep(s, n);
    OctetIsDecOctet(s, j);
    FieldsAtDot(s);
    assert Groups(s, n) <==> IsDecOctet(s[..j]) && Groups(rest, n - 1);
    assert Fields(s) == [s[..j]] + Fields(rest);
    if n == 1 {
      assert rest != [];
    } else {
      GroupsAreOctets(rest, n - 1);
      AllOctetsCons(s[..j], Fields(rest));
    }
  }

  /** The pattern accepts exactly `n` dot-separated decimal octets. */
  lemma {:induction false} GroupsAreOctets(s: string, n: nat)
    requires n >= 1
    ensures Groups(s, n) <==> |Fields(s)| == n && AllOctets(Fields(s))
    decreases n, 1
  {
    var j := DotIndex(s);
    if j == |s| {
      LastField(s, n);
    } else if j == |s| - 1 {
      TrailingDot(s, n);
    } else {
      InnerDot(s, n);
    }
  }

  /** `isValidIPAddress` accepts exactly the RFC 3986 dotted-quad addresses. */
  lemma ValidIsDottedQuad(address: string)
    ensures IsValidIPAddress(address) <==> IsDottedQuad(address)
  {
    GroupsAreOctets(address, 4);
  }

  /** Every accepted address has four fields, each a number from 0 to 255. */
  lemma AcceptedOctetsInRange(address: string)
    requires IsValidIPAddress(address)
    ensures |Fields(address)| == 4
    ensures forall i :: 0 <= i < 4 ==> AllDigits(Fields(address)[i]) && DigitsValue(Fields(address)[i]) <= 255
  {
    ValidIsDottedQuad(address);
  }

  lemma TooLargeRejected()
    ensures !IsValidIPAddress("256.0.0.0")
  {
  }

  lemma LeadingZeroRejected()
    ensures !IsValidIPAddress("01.2.3.4")
  {
  }

  lemma ZerosAccepted()
    ensures IsValidIPAddress("0.0.0.0")
  {
  }

  lemma PrivateAccepted()
    ensures IsValidIPAddress("192.168.1.255")
  {
  }

  lemma EmptyRejected()
    ensures !IsValidIPAddress("")
  {
  }

  lemma TrailingDotRejected()
    ensures !IsValidIPAddress("1.2.3.4.")
  {
  }

  lemma ThreeRejected()
    ensures !IsValidIPAddress("1.2.3")
  {
  }

  lemma FiveRejected()
    ensures !IsValidIPAddress("1.2.3.4.5")
  {
  }
}

=== FILE: server.dfy ===
/**
 * The server side of the connections. `DominoServer` keeps the pool of
 * signed-in threads waiting for a game and makes a game as soon as enough of
 * them wait; `PlayerThread` reads one request at a time from its client, acts
 * on the game its client sits in and writes the reply. The static state of the
 * two classes (the waiting pool and the list of signed-in users) lives in one
 * `DominoServer` object that every request is handed.
 */
module Server {
  import opened Options
  import opened Json
  import opened Lists
  import opened Chips
  import opened Hands
  import opened Lines
  import opened Tiles
  import opened Protocols
  import opened Players
  import opened ServerGames

  /** `GAME_SIZE`: how many signed-in players make a game. */
  const GameSize := 2

  /** The fields a request's `data` object may carry; each action reads only its own. */
  datatype RequestData = RequestData(userId: string, userName: string, first: int, second: int, placeFirst: bool)

  /** A received message: its action and data, or text that does not parse as JSON. */
  datatype Request = Parsed(action: string, data: RequestData) | Unparsable

  const UnknownActionText: string := "Error understanding your action."
  const ParseErrorText: string := "Error parsing the json, please try again."
  const SameUserText: string := "Error This user has already signed in."

  /** The reply to a request that is not JSON, or whose action the server does not know. */
  function ErrorFor(req: Request): (m: Option<Message>)
    ensures req.Unparsable? ==> m == Some(ErrorReply(ParseErrorText))
    ensures req.Parsed? && req.action !in {LoginAction, PlayChipAction, PassAction, LogoutAction} ==> m == Some(ErrorReply(UnknownActionText))
    ensures m.None? <==> req.Parsed? && req.action in {LoginAction, PlayChipAction, PassAction, LogoutAction}
  {
    match req
    case Unparsable => Some(ErrorReply(ParseErrorText))
    case Parsed(action, _) =>
      if action == LoginAction || action == PlayChipAction || action == PassAction || action == LogoutAction then None
      else Some(ErrorReply(UnknownActionText))
  }

  /** The users of some threads, in order. */
  function UsersOf(ts: seq<PlayerThread>): (r: seq<DominoPlayer>)
    ensures |r| == |ts|
    ensures forall k :: 0 <= k < |ts| ==> r[k] == ts[k].user
  {
    seq(|ts|, k requires 0 <= k < |ts| => ts[k].user)
  }

  /**
   * The `GAME_READY` messages of a new round, one per signed-in seat in seat
   * order: that seat's dealt hand, whether it opens, and the player list.
   */
  function ReadyMessages(ps: seq<DominoPlayer>, hands: seq<seq<ChipData>>, opener: int, users: seq<UserData>): (r: seq<Sent>)
    requires |ps| <= |hands|
    ensures |r| == |ps|
  {
    seq(|ps|, k requires 0 <= k < |ps| => Sent(ps[k], GameReady(hands[k], k == opener, users)))
  }

  /** Some user of the list carries that id. */
  ghost predicate SignedIn(users: seq<DominoPlayer>, id: string)
    reads users
  {
    exists k :: 0 <= k < |users| && users[k].id == Some(id)
  }

  /** The hand of each seat as it goes on the wire. */
  ghost function Dealt(game: DominoServerGame): seq<seq<ChipData>>
    requires |game.hands| == 4
    reads game, game.hands, game.hands[0].chips, game.hands[1].chips, game.hands[2].chips, game.hands[3].chips
  {
    [DataOf(game.hands[0].chips), DataOf(game.hands[1].chips), DataOf(game.hands[2].chips), DataOf(game.hands[3].chips)]
  }

  /** Each chip's data with the side flag a new chip starts with. */
  function Unplayed(cs: seq<DominoChip>): (ds: seq<ChipData>)
    ensures |ds| == |cs|
    ensures forall i :: 0 <= i < |cs| ==> ds[i] == ChipData(cs[i].first, cs[i].second, false)
  {
    seq(|cs|, i requires 0 <= i < |cs| => ChipData(cs[i].first, cs[i].second, false))
  }

  /** Chips that have never been laid carry the data `Unplayed` gives them. */
  lemma DataOfUnplayed(cs: seq<DominoChip>)
    requires forall i :: 0 <= i < |cs| ==> !cs[i].placeFirst
    ensures DataOf(cs) == Unplayed(cs)
  {
  }

  /** The data of the four hands dealt from a set is the deal of the set's data. */
  lemma DataOfDeal(cs: seq<DominoChip>)
    requires |cs| == 28
    ensures [DataOf(cs[0..7]), DataOf(cs[7..14]), DataOf(cs[14..21]), DataOf(cs[21..28])] == Deal4(DataOf(cs))
  {
    DataOfSlice(cs, 0, 7);
    DataOfSlice(cs, 7, 14);
    DataOfSlice(cs, 14, 21);
    DataOfSlice(cs, 21, 28);
  }

  /**
   * What `makeGame` sends once the first round is dealt: each signed-in seat
   * its hand of new chips, the plays of the opening run, then the turn.
   */
  ghost function FirstRoundTold(chips: seq<DominoChip>, players: seq<DominoPlayer>, opener: int, users: seq<UserData>): seq<Sent>
    requires |chips| >= 28 && 0 <= opener < 4 && 1 <= |players| <= 4
  {
    ReadyMessages(players, Deal4(Unplayed(chips)), opener, users)
    + OpeningTold(DealtRound(chips, (0, 0)), players, opener)
    + [Sent(players[if opener < |players| then opener else 0], PlayerTurn)]
  }

  /** A log that grew by a first round's ready messages, opening run and turn grew by `FirstRoundTold`. */
  lemma FirstRoundLog(log: seq<Sent>, told: seq<Sent>, now: seq<Sent>, cs: seq<DominoChip>, players: seq<DominoPlayer>,
                      opener: int, users: seq<UserData>, r: Round, hands: seq<seq<ChipData>>)
    requires |cs| >= 28 && 0 <= opener < 4 && 1 <= |players| <= 4
    requires r == DealtRound(cs, (0, 0)) && hands == Deal4(Unplayed(cs))
    requires told == log + ReadyMessages(players, hands, opener, users) + OpeningTold(r, players, opener)
    requires now == told + [Sent(players[if opener < |players| then opener else 0], PlayerTurn)]
    ensures now == log + FirstRoundTold(cs, players, opener, users)
  {
    var ready, opening := ReadyMessages(players, hands, opener, users), OpeningTold(r, players, opener);
    AppendAssoc(log, ready, opening, [Sent(players[if opener < |players| then opener else 0], PlayerTurn)]);
  }

  /**
   * The `sendStartGame` loop of `makeGame` and `endGame`: every signed-in seat
   * is sent its hand, whether it opens, and the player list.
   */
  method SendStartGames(game: DominoServerGame, opener: int, ghost dealt: seq<seq<ChipData>>, ghost users: seq<UserData>)
    requires |game.hands| == 4 && |game.players| <= 4
    requires dealt == Dealt(game) && users == UsersData(game.players)
    modifies game.net
    ensures game.net.log == old(game.net.log) + ReadyMessages(game.players, dealt, opener, users)
  {
    var list := UsersData(game.players);
    for k := 0 to |game.players|
      invariant game.net.log == old(game.net.log) + ReadyMessages(game.players[..k], dealt, opener, users)
    {
      var hand := game.hands[k];
      game.net.Send(game.players[k], GameReady(DataOf(hand.chips), k == opener, list));
      assert ReadyMessages(game.players[..k + 1], dealt, opener, users)
          == ReadyMessages(game.players[..k], dealt, opener, users) + [Sent(game.players[k], GameReady(dealt[k], k == opener, users))];
    }
    assert game.players[..|game.players|] == game.players;
  }

  /**
   * What `makeGame` and `endGame` do once a round is dealt: every signed-in
   * seat learns its hand, then play opens as `OpenPlay` says.
   */
  method BeginRound(game: DominoServerGame, opener: int, ghost ready: seq<Sent>) returns (ghost told: seq<Sent>)
    requires game.Valid() && |game.hands| == 4 && 0 <= opener < 4
    requires ready == ReadyMessages(game.players, Dealt(game), opener, UsersData(game.players))
    modifies game, game.line, game.hands, game.net, set c | c in game.tiles.deck
    ensures game.SidesKept(old(game.Sides()))
    ensures game.Valid() && game.hands == old(game.hands) && game.line == old(game.line)
    ensures game.startedThisGame == old(game.startedThisGame) && game.firstGame == old(game.firstGame)
    ensures game.timesPassed == old(game.timesPassed) && game.tiles.chips == old(game.tiles.chips)
    ensures OnTable(game.HandChips(), game.line.chips) == old(OnTable(game.HandChips(), game.line.chips))
    ensures old(game.net.log) + ready <= told
    ensures game.net.log == told + [Sent(game.players[if opener < |game.players| then opener else 0], PlayerTurn)]
    ensures game.Now() == Opening(old(game.Now()), opener, |game.players|)
    ensures told == old(game.net.log) + ready + OpeningTold(old(game.Now()), game.players, opener)
  {
    ghost var dealt, users := Dealt(game), UsersData(game.players);
    SendStartGames(game, opener, dealt, users);
    ghost var sent := game.net.log;
    told := OpenPlay(game, opener);
    PrefixTrans(old(game.net.log), sent, told);
  }

  /**
   * The opening of a round in `makeGame` and `endGame`: when a server seat
   * opens, the seats from it to the last play in turn with the opening flag
   * set and the turn goes to seat 0; then the seat to move is told so.
   */
  method OpenPlay(game: DominoServerGame, opener: int) returns (ghost told: seq<Sent>)
    requires game.Valid() && |game.hands| == 4 && 0 <= opener < 4
    modifies game, game.line, game.hands, game.net, set c | c in game.tiles.deck
    ensures game.SidesKept(old(game.Sides()))
    ensures game.Valid() && game.hands == old(game.hands) && game.line == old(game.line)
    ensures game.startedThisGame == old(game.startedThisGame) && game.firstGame == old(game.firstGame)
    ensures game.timesPassed == old(game.timesPassed) && game.tiles.chips == old(game.tiles.chips)
    ensures OnTable(game.HandChips(), game.line.chips) == old(OnTable(game.HandChips(), game.line.chips))
    ensures old(game.net.log) <= told
    ensures game.net.log == told + [Sent(game.players[if opener < |game.players| then opener else 0], PlayerTurn)]
    ensures game.Now() == Opening(old(game.Now()), opener, |game.players|)
    ensures told == old(game.net.log) + OpeningTold(old(game.Now()), game.players, opener)
  {
    var next := OpeningPlays(game, opener);
    told := game.net.log;
    ghost var now := game.Now();
    game.net.Send(game.players[next], PlayerTurn);
    assert game.Now() == now;
  }

  /** The opening run of `OpenPlay`, and the seat that moves after it. */
  method OpeningPlays(game: DominoServerGame, opener: int) returns (next: int)
    requires game.Valid() && |game.hands| == 4 && 0 <= opener < 4
    modifies game, game.line, game.hands, game.net, set c | c in game.tiles.deck
    ensures game.SidesKept(old(game.Sides()))
    ensures game.Valid() && game.hands == old(game.hands) && game.line == old(game.line)
    ensures game.startedThisGame == old(game.startedThisGame) && game.firstGame == old(game.firstGame)
    ensures game.timesPassed == old(game.timesPassed) && game.tiles.chips == old(game.tiles.chips)
    ensures OnTable(game.HandChips(), game.line.chips) == old(OnTable(game.HandChips(), game.line.chips))
    ensures next == if opener < |game.players| then opener else 0
    ensures game.Now() == Opening(old(game.Now()), opener, |game.players|)
    ensures game.net.log == old(game.net.log) + OpeningTold(old(game.Now()), game.players, opener)
  {
    next := opener;
    if next >= |game.players| {
      game.OpeningRun(next);
      next := 0;
    }
  }

  /** The `setGame` and `setPlayerCounter` loop of `makeGame`: each thread is given the game and the seat it sits at. */
  method SeatAll(seats: seq<PlayerThread>, game: DominoServerGame)
    modifies seats`game, seats`playerCounter
    ensures Seated(seats, game)
    ensures forall k :: 0 <= k < |seats| ==> seats[k].running == old(seats[k].running)
    ensures unchanged(game.Repr())
  {
    for k := 0 to |seats|
      invariant forall j :: 0 <= j < k ==>
        && seats[j].game == game
        && 0 <= seats[j].playerCounter < k
        && seats[seats[j].playerCounter] == seats[j]
      invariant forall j :: 0 <= j < |seats| ==> seats[j].running == old(seats[j].running)
      invariant unchanged(game.Repr())
    {
      seats[k].game := game;
      seats[k].playerCounter := k;
    }
  }

  /** `startNewGame` for the first round of a new game: dealt from the shuffled set, with the double six opening. */
  method FirstRound(game: DominoServerGame, firstGame: bool, draws: seq<nat>) returns (opener: int)
    requires game.Valid() && game.Scores() == (0, 0) && IsDrawList(draws, 28)
    requires forall c :: c in game.tiles.deck ==> !c.placeFirst
    modifies game, game.tiles, game.line
    ensures fresh(game.line) && fresh(game.hands)
    ensures game.Valid() && |game.hands| == 4 && !game.gameEnded
    ensures game.Scores() == (0, 0) && game.firstGame == firstGame && game.timesPassed == 0
    ensures 0 <= opener < 4 && game.startedThisGame == opener
    ensures HoldsDoubleSix(game.tiles.chips[7 * opener..7 * opener + 7])
    ensures OnTable(game.HandChips(), game.line.chips) == multiset(game.tiles.deck)
    ensures game.Now() == DealtRound(game.tiles.chips, (0, 0))
    ensures Dealt(game) == Deal4(Unplayed(game.tiles.chips))
  {
    opener := game.StartNewGame(FirstGame, firstGame, draws);
    var cs := game.tiles.chips;
    forall k | 0 <= k < 28
      ensures !cs[k].placeFirst
    {
      assert cs[k] in multiset(game.tiles.deck);
    }
    DataOfUnplayed(cs);
    DataOfDeal(cs);
    assert Dealt(game) == [DataOf(cs[0..7]), DataOf(cs[7..14]), DataOf(cs[14..21]), DataOf(cs[21..28])];
  }

  /**
   * `endGame`'s new round: dealt with the given seat opening and the opening
   * flag off, then begun as `BeginRound` says. The `GAME_READY` hands carry
   * each chip's side flag as the chip object held it before the deal.
   */
  method NextRound(game: DominoServerGame, opener: int, draws: seq<nat>) returns (ghost told: seq<Sent>, ghost shown: seq<ChipData>)
    requires game.Valid() && 0 <= opener < 4 && IsDrawList(draws, 28)
    modifies game, game.tiles, game.line, game.net, set c | c in game.tiles.deck
    ensures game.Valid() && |game.hands| == 4
    ensures game.startedThisGame == opener && !game.firstGame && game.timesPassed == 0
    ensures OnTable(game.HandChips(), game.line.chips) == multiset(game.tiles.deck)
    ensures old(game.net.log) <= told
    ensures game.net.log == told + [Sent(game.players[if opener < |game.players| then opener else 0], PlayerTurn)]
    ensures multiset(game.tiles.chips) == old(multiset(game.tiles.chips))
    ensures |shown| == 28 && forall k :: 0 <= k < 28 ==> var c := game.tiles.chips[k]; c in game.tiles.deck && shown[k] == ChipData(c.first, c.second, old(c.placeFirst))
    ensures var dealt := DealtRound(game.tiles.chips, old(game.Scores()));
      && game.Now() == Opening(dealt, opener, |game.players|)
      && told == old(game.net.log) + ReadyMessages(game.players, Deal4(shown), opener, old(UsersData(game.players)))
                 + OpeningTold(dealt, game.players, opener)
  {
    shown := Redeal(game, opener, draws);
    ghost var ready := ReadyMessages(game.players, Deal4(shown), opener, old(UsersData(game.players)));
    assert ready == ReadyMessages(game.players, Dealt(game), opener, UsersData(game.players));
    told := BeginRound(game, opener, ready);
    PrefixTrans(old(game.net.log), old(game.net.log) + ready, told);
  }

  /** The deal of `endGame`'s new round: `startNewGame` with the given seat opening and the opening flag off. */
  method Redeal(game: DominoServerGame, opener: int, draws: seq<nat>) returns (ghost shown: seq<ChipData>)
    requires game.Valid() && 0 <= opener < 4 && IsDrawList(draws, 28)
    modifies game, game.tiles, game.line
    ensures game.Valid() && |game.hands| == 4 && fresh(game.line) && fresh(game.hands)
    ensures game.startedThisGame == opener && !game.firstGame && game.timesPassed == 0
    ensures OnTable(game.HandChips(), game.line.chips) == multiset(game.tiles.deck)
    ensures multiset(game.tiles.chips) == old(multiset(game.tiles.chips))
    ensures |shown| == 28 && forall k :: 0 <= k < 28 ==> var c := game.tiles.chips[k]; c in game.tiles.deck && shown[k] == ChipData(c.first, c.second, old(c.placeFirst))
    ensures Dealt(game) == Deal4(shown)
    ensures game.Now() == DealtRound(game.tiles.chips, old(game.Scores()))
  {
    var _ := game.StartNewGame(SeatStarter(opener), false, draws);
    var cs := game.tiles.chips;
    shown := DataOf(cs);
    DataOfDeal(cs);
    assert Dealt(game) == [DataOf(cs[0..7]), DataOf(cs[7..14]), DataOf(cs[14..21]), DataOf(cs[21..28])];
    forall k | 0 <= k < 28
      ensures var c := game.tiles.chips[k]; c in game.tiles.deck && shown[k] == ChipData(c.first, c.second, old(c.placeFirst))
    {
      assert cs[k] in multiset(game.tiles.deck);
      assert shown[k] == cs[k].Data();
    }
  }

  /**
   * A game in the state `makeGame` leaves it: its first round dealt and
   * opened by the seat that was dealt the double six, with the seat to move
   * just told so on the game's network.
   */
  ghost predicate FirstRoundBegun(game: DominoServerGame, net: Network, firstGame: bool)
    reads game, game.Repr()
  {
    && game.net == net && game.Valid() && |game.hands| == 4
    && game.firstGame == firstGame && game.timesPassed == 0
    && HoldsDoubleSix(game.tiles.chips[7 * game.startedThisGame..7 * game.startedThisGame + 7])
    && OnTable(game.HandChips(), game.line.chips) == multiset(game.tiles.deck)
    && net.log != []
    && net.log[|net.log| - 1] == Sent(game.players[if game.startedThisGame < |game.players| then game.startedThisGame else 0], PlayerTurn)
  }

  /**
   * How `makeGame` opens the first round: the round is the `Opening` of the
   * round dealt from the shuffled set, and the messages sent since `before`
   * are the `GAME_READY` hands, with `users` as the player list, the opening
   * plays and the turn.
   */
  ghost predicate FirstRoundOpened(game: DominoServerGame, net: Network, before: seq<Sent>, users: seq<UserData>)
    reads game, game.line, game.line.chips, game.hands, game.tiles, net
  {
    && |game.hands| == 4 && game.tiles.Valid() && 0 <= game.startedThisGame < 4 && 1 <= |game.players| <= 4
    && game.Now() == Opening(DealtRound(game.tiles.chips, (0, 0)), game.startedThisGame, |game.players|)
    && net.log == before + FirstRoundTold(game.tiles.chips, game.players, game.startedThisGame, users)
  }

  /** Each thread sits in the game at a seat that is its own (a thread gathered twice sits at its later seat). */
  ghost predicate Seated(seats: seq<PlayerThread>, game: DominoServerGame)
    reads seats
  {
    forall k :: 0 <= k < |seats| ==>
      && seats[k].game == game
      && 0 <= seats[k].playerCounter < |seats|
      && seats[seats[k].playerCounter] == seats[k]
  }

  /**
   * The game part of `makeGame`: a new game for the users of the seats, each
   * thread seated in it, and its first round dealt and begun.
   */
  method StartGame(seats: seq<PlayerThread>, net: Network, firstGame: bool, draws: seq<nat>) returns (game: DominoServerGame)
    requires 1 <= |seats| <= 4 && IsDrawList(draws, 28)
    modifies seats`game, seats`playerCounter, net
    ensures fresh(game) && game.players == UsersOf(seats)
    ensures FirstRoundBegun(game, net, firstGame) && Seated(seats, game)
    ensures FirstRoundOpened(game, net, old(net.log), old(UsersData(UsersOf(seats))))
  {
    game := SeatedGame(seats, net);
    OpenFirstRound(game, firstGame, draws, old(UsersData(UsersOf(seats))));
  }

  /** The new game of `makeGame`, with each thread given it and its seat. */
  method SeatedGame(seats: seq<PlayerThread>, net: Network) returns (game: DominoServerGame)
    requires 1 <= |seats| <= 4
    modifies seats`game, seats`playerCounter
    ensures fresh(game) && fresh(game.tiles) && fresh(game.line) && forall c :: c in game.tiles.deck ==> fresh(c)
    ensures game.players == UsersOf(seats) && game.net == net
    ensures game.Valid() && game.Scores() == (0, 0) && forall c :: c in game.tiles.deck ==> !c.placeFirst
    ensures Seated(seats, game)
  {
    game := new DominoServerGame(UsersOf(seats), net);
    SeatAll(seats, game);
  }

  /** The first round of a new game, dealt and begun. */
  method OpenFirstRound(game: DominoServerGame, firstGame: bool, draws: seq<nat>, ghost users: seq<UserData>)
    requires game.Valid() && game.Scores() == (0, 0) && IsDrawList(draws, 28)
    requires forall c :: c in game.tiles.deck ==> !c.placeFirst
    requires users == UsersData(game.players)
    modifies game, game.tiles, game.line, game.net, set c | c in game.tiles.deck
    ensures FirstRoundBegun(game, game.net, firstGame)
    ensures FirstRoundOpened(game, game.net, old(game.net.log), users)
  {
    var opener := FirstRound(game, firstGame, draws);
    assert users == UsersData(game.players);
    BeginFirstRound(game, opener, users);
  }

  /** The first round, once dealt, begun: each seat learns its hand and play opens. */
  method BeginFirstRound(game: DominoServerGame, opener: int, ghost users: seq<UserData>)
    requires game.Valid() && |game.hands| == 4 && game.timesPassed == 0
    requires 0 <= opener < 4 && game.startedThisGame == opener
    requires HoldsDoubleSix(game.tiles.chips[7 * opener..7 * opener + 7])
    requires OnTable(game.HandChips(), game.line.chips) == multiset(game.tiles.deck)
    requires game.Now() == DealtRound(game.tiles.chips, (0, 0))
    requires Dealt(game) == Deal4(Unplayed(game.tiles.chips))
    requires users == UsersData(game.players)
    modifies game, game.line, game.hands, game.net, set c | c in game.tiles.deck
    ensures FirstRoundBegun(game, game.net, old(game.firstGame))
    ensures FirstRoundOpened(game, game.net, old(game.net.log), users)
  {
    ghost var r, log, hands := game.Now(), game.net.log, Dealt(game);
    ghost var ready := ReadyMessages(game.players, hands, opener, users);
    ghost var told := BeginRound(game, opener, ready);
    assert FirstRoundBegun(game, game.net, old(game.firstGame));
    FirstRoundLog(log, told, game.net.log, game.tiles.chips, game.players, opener, users, r, hands);
  }

  /** A game whose round has been dealt: what a play or a pass needs. */
  ghost predicate RoundDealt(game: DominoServerGame)
    reads game, game.Repr()
  {
    game.Valid() && |game.hands| == 4
  }

  /*
   * The steps of `handleMessage`'s `PLAY_CHIP` and `PASS` branches and of
   * `endGame`, for the thread whose user sits at `seat` of `game`.
   */

  /** The first steps of `PLAY_CHIP`: the client's chip goes on the line as sent, and every player is told of it. */
  method Lay(game: DominoServerGame, seat: int, first: int, second: int, placeFirst: bool) returns (chip: DominoChip)
    requires RoundDealt(game) && 0 <= seat < |game.players|
    modifies game.line, game.hands, game.net
    ensures fresh(chip) && chip.first == first && chip.second == second && chip.placeFirst == placeFirst
    ensures RoundDealt(game) && 0 <= seat < |game.players|
    ensures game.line.ends == Place(old(game.line.ends), first, second, placeFirst)
    ensures game.line.chips == old(game.line.chips) + [chip]
    ensures var before := old(game.hands[seat].chips);
      game.HandChips() == old(game.HandChips())[seat := Without(before, FirstSamePips(before, first, second))]
    ensures game.net.log == old(game.net.log) + Broadcast(game.players, PlayerPlayed(chip.Data(), seat, DataOf(game.line.chips)))
  {
    chip := new DominoChip(first, second);
    chip.SetPlaceFirst(placeFirst);
    game.PlayChip(chip, seat);
    game.SendMessages(PlayerPlayed(chip.Data(), seat, DataOf(game.line.chips)));
  }

  /**
   * The hand-off after a signed-in seat's move: the next signed-in seat is
   * told to move, or, after the last one, the server's seats play; then,
   * when `checkClosed` is set and four turns in a row were passes, the
   * round is closed, and otherwise seat 0 is told to move.
   */
  method MoveOn(game: DominoServerGame, seat: int, checkClosed: bool) returns (ghost cpu: seq<bool>)
    requires RoundDealt(game) && 0 <= seat < |game.players|
    modifies game, game.line, game.hands, game.net, set c | c in game.tiles.deck
    ensures game.SidesKept(old(game.Sides()))
    ensures RoundDealt(game) && 0 <= seat < |game.players| && game.hands == old(game.hands) && game.line == old(game.line)
    ensures game.startedThisGame == old(game.startedThisGame) && game.firstGame == old(game.firstGame)
    ensures OnTable(game.HandChips(), game.line.chips) == old(OnTable(game.HandChips(), game.line.chips))
    ensures seat + 1 < |game.players| ==>
      && cpu == [] && game.Result() == old(game.Result()) && game.timesPassed == old(game.timesPassed)
      && game.Now() == old(game.Now())
      && game.net.log == old(game.net.log) + [Sent(game.players[seat + 1], PlayerTurn)]
    ensures seat + 1 >= |game.players| ==>
      && |cpu| == CpuTurns(seat, |game.players|)
      && game.timesPassed == PassesAfter(old(game.timesPassed), cpu)
      && (checkClosed && game.timesPassed >= 4 ==> game.gameEnded && game.gameWinner == ClosedWinner(game.Counts(), game.startedThisGame))
      && (!checkClosed || game.timesPassed < 4 ==>
            game.net.log != [] && game.net.log[|game.net.log| - 1] == Sent(game.players[0], PlayerTurn))
    ensures seat + 1 >= |game.players| ==>
      && cpu == CpuMoves(old(game.Now()), seat, |game.players|, game.firstGame)
      && var r := CpuRun(old(game.Now()), seat, |game.players|, game.firstGame);
         var told := old(game.net.log) + CpuTold(old(game.Now()), game.players, seat, game.firstGame);
         && (checkClosed && game.timesPassed >= 4 ==> game.Now() == ClosedRound(r, game.startedThisGame) && game.net.log == told)
         && (!checkClosed || game.timesPassed < 4 ==> game.Now() == r && game.net.log == told + [Sent(game.players[0], PlayerTurn)])
  {
    cpu := [];
    if seat + 1 >= |game.players| {
      cpu := ServerSeats(game, seat, checkClosed);
    } else {
      ghost var now := game.Now();
      game.net.Send(game.players[seat + 1], PlayerTurn);
      assert game.Now() == now;
    }
  }

  /** `MoveOn` after the last signed-in seat: the server's seats play, then the round is closed or seat 0 is told to move. */
  method ServerSeats(game: DominoServerGame, seat: int, checkClosed: bool) returns (ghost cpu: seq<bool>)
    requires RoundDealt(game) && 0 <= seat < |game.players| && seat + 1 >= |game.players|
    modifies game, game.line, game.hands, game.net, set c | c in game.tiles.deck
    ensures game.SidesKept(old(game.Sides()))
    ensures RoundDealt(game) && game.hands == old(game.hands) && game.line == old(game.line)
    ensures game.startedThisGame == old(game.startedThisGame) && game.firstGame == old(game.firstGame)
    ensures OnTable(game.HandChips(), game.line.chips) == old(OnTable(game.HandChips(), game.line.chips))
    ensures |cpu| == CpuTurns(seat, |game.players|)
    ensures game.timesPassed == PassesAfter(old(game.timesPassed), cpu)
    ensures checkClosed && game.timesPassed >= 4 ==> game.gameEnded && game.gameWinner == ClosedWinner(game.Counts(), game.startedThisGame)
    ensures !checkClosed || game.timesPassed < 4 ==>
      game.net.log != [] && game.net.log[|game.net.log| - 1] == Sent(game.players[0], PlayerTurn)
    ensures cpu == CpuMoves(old(game.Now()), seat, |game.players|, game.firstGame)
    ensures var r := CpuRun(old(game.Now()), seat, |game.players|, game.firstGame);
      var told := old(game.net.log) + CpuTold(old(game.Now()), game.players, seat, game.firstGame);
      && (checkClosed && game.timesPassed >= 4 ==> game.Now() == ClosedRound(r, game.startedThisGame) && game.net.log == told)
      && (!checkClosed || game.timesPassed < 4 ==> game.Now() == r && game.net.log == told + [Sent(game.players[0], PlayerTurn)])
  {
    cpu := game.PlayCPU(seat);
    CloseOrResume(game, checkClosed);
  }

  /** The end of `MoveOn` once the server's seats have played: four passes close the round, when checked; otherwise seat 0 moves. */
  method CloseOrResume(game: DominoServerGame, checkClosed: bool)
    requires RoundDealt(game)
    modifies game, game.net
    ensures RoundDealt(game) && game.Table() == old(game.Table())
    ensures OnTable(game.HandChips(), game.line.chips) == old(OnTable(game.HandChips(), game.line.chips))
    ensures checkClosed && game.timesPassed >= 4 ==>
      && game.gameEnded && game.gameWinner == ClosedWinner(game.Counts(), game.startedThisGame)
      && game.Now() == ClosedRound(old(game.Now()), game.startedThisGame) && game.net.log == old(game.net.log)
    ensures !checkClosed || game.timesPassed < 4 ==>
      game.Now() == old(game.Now()) && game.net.log == old(game.net.log) + [Sent(game.players[0], PlayerTurn)]
  {
    if checkClosed && game.timesPassed >= 4 {
      game.IsClosed();
    } else {
      ghost var now := game.Now();
      game.net.Send(game.players[0], PlayerTurn);
      assert game.Now() == now;
    }
  }

  /**
   * What `PLAY_CHIP` does once the chip is down: an emptied hand wins the
   * round; otherwise the turn moves on, and the round is closed when the
   * server's seats leave four passes in a row.
   */
  method AfterPlay(game: DominoServerGame, seat: int) returns (ghost cpu: seq<bool>)
    requires RoundDealt(game) && 0 <= seat < |game.players|
    modifies game, game.line, game.hands, game.net, set c | c in game.tiles.deck
    ensures game.SidesKept(old(game.Sides()))
    ensures RoundDealt(game) && 0 <= seat < |game.players| && game.hands == old(game.hands) && game.line == old(game.line)
    ensures OnTable(game.HandChips(), game.line.chips) == old(OnTable(game.HandChips(), game.line.chips))
    ensures game.startedThisGame == old(game.startedThisGame) && game.firstGame == old(game.firstGame)
    ensures old(game.hands[seat].chips) == [] ==>
      && cpu == [] && game.gameEnded && game.gameWinner == seat && game.timesPassed == old(game.timesPassed)
      && game.Scores() == Scored(old(game.Scores()), seat, game.Counts())
      && game.net.log == old(game.net.log)
    ensures old(game.hands[seat].chips) != [] && seat + 1 < |game.players| ==>
      && cpu == [] && game.Result() == old(game.Result()) && game.timesPassed == old(game.timesPassed)
      && game.net.log == old(game.net.log) + [Sent(game.players[seat + 1], PlayerTurn)]
    ensures old(game.hands[seat].chips) != [] && seat + 1 >= |game.players| ==>
      && |cpu| == CpuTurns(seat, |game.players|)
      && game.timesPassed == PassesAfter(old(game.timesPassed), cpu)
      && (game.timesPassed >= 4 ==> game.gameEnded && game.gameWinner == ClosedWinner(game.Counts(), game.startedThisGame))
      && (game.timesPassed < 4 ==> game.net.log != [] && game.net.log[|game.net.log| - 1] == Sent(game.players[0], PlayerTurn))
    ensures old(game.hands[seat].chips) == [] ==> game.Now() == old(game.Now()).(result := game.Result())
    ensures old(game.hands[seat].chips) != [] && seat + 1 < |game.players| ==> game.Now() == old(game.Now())
    ensures old(game.hands[seat].chips) != [] && seat + 1 >= |game.players| ==>
      && cpu == CpuMoves(old(game.Now()), seat, |game.players|, game.firstGame)
      && var r := CpuRun(old(game.Now()), seat, |game.players|, game.firstGame);
         var told := old(game.net.log) + CpuTold(old(game.Now()), game.players, seat, game.firstGame);
         && (game.timesPassed >= 4 ==> game.Now() == ClosedRound(r, game.startedThisGame) && game.net.log == told)
         && (game.timesPassed < 4 ==> game.Now() == r && game.net.log == told + [Sent(game.players[0], PlayerTurn)])
  {
    cpu := [];
    if |game.hands[seat].chips| <= 0 {
      game.Victory(seat);
    } else {
      cpu := MoveOn(game, seat, true);
    }
  }

  /**
   * The `PASS` branch before its end-of-round check: the pass count goes up;
   * at four the round is closed; otherwise the turn moves on, and after the
   * server's seats seat 0 is told to move whatever the pass count has become.
   */
  method PassTurn(game: DominoServerGame, seat: int) returns (ghost cpu: seq<bool>)
    requires RoundDealt(game) && 0 <= seat < |game.players|
    modifies game, game.line, game.hands, game.net, set c | c in game.tiles.deck
    ensures game.SidesKept(old(game.Sides()))
    ensures RoundDealt(game) && 0 <= seat < |game.players| && game.hands == old(game.hands) && game.line == old(game.line)
    ensures game.startedThisGame == old(game.startedThisGame) && game.firstGame == old(game.firstGame)
    ensures OnTable(game.HandChips(), game.line.chips) == old(OnTable(game.HandChips(), game.line.chips))
    ensures old(game.timesPassed) + 1 >= 4 ==>
      && cpu == [] && game.timesPassed == old(game.timesPassed) + 1
      && game.gameEnded && game.gameWinner == ClosedWinner(game.Counts(), game.startedThisGame)
      && game.Scores() == Scored(old(game.Scores()), game.gameWinner, game.Counts())
      && game.net.log == old(game.net.log)
    ensures old(game.timesPassed) + 1 < 4 && seat + 1 < |game.players| ==>
      && cpu == [] && game.timesPassed == old(game.timesPassed) + 1 && game.Result() == old(game.Result())
      && game.net.log == old(game.net.log) + [Sent(game.players[seat + 1], PlayerTurn)]
    ensures old(game.timesPassed) + 1 < 4 && seat + 1 >= |game.players| ==>
      && |cpu| == CpuTurns(seat, |game.players|)
      && game.timesPassed == PassesAfter(old(game.timesPassed) + 1, cpu)
      && game.net.log != [] && game.net.log[|game.net.log| - 1] == Sent(game.players[0], PlayerTurn)
    ensures old(game.timesPassed) + 1 >= 4 ==> game.Now() == ClosedRound(old(game.Now()), game.startedThisGame)
    ensures old(game.timesPassed) + 1 < 4 && seat + 1 < |game.players| ==> game.Now() == old(game.Now())
    ensures old(game.timesPassed) + 1 < 4 && seat + 1 >= |game.players| ==>
      && cpu == CpuMoves(old(game.Now()), seat, |game.players|, game.firstGame)
      && game.Now() == CpuRun(old(game.Now()), seat, |game.players|, game.firstGame)
      && game.net.log == old(game.net.log) + CpuTold(old(game.Now()), game.players, seat, game.firstGame)
                         + [Sent(game.players[0], PlayerTurn)]
  {
    cpu := [];
    ghost var now := game.Now();
    game.timesPassed := game.timesPassed + 1;
    assert game.Now() == now;
    if game.timesPassed >= 4 {
      game.IsClosed();
    } else {
      cpu := MoveOn(game, seat, false);
    }
  }

  /**
   * `endGame`: every player is told the winner and the scores; while both
   * teams are under 100 a new round follows, opened by the winner's seat as
   * `NextRound` says.
   */
  method EndGame(game: DominoServerGame, draws: seq<nat>) returns (ghost told: seq<Sent>, ghost shown: seq<ChipData>)
    requires RoundDealt(game) && game.gameEnded && IsDrawList(draws, 28)
    modifies game, game.tiles, game.line, game.net, set c | c in game.tiles.deck
    ensures RoundDealt(game)
    ensures old(game.net.log + Broadcast(game.players, Winner(game.gameWinner, game.firstTeamScore, game.secondTeamScore))) <= game.net.log
    ensures old(game.firstTeamScore >= 100 || game.secondTeamScore >= 100) ==>
      && game.Result() == old(game.Result()) && game.Table() == old(game.Table()) && game.Now() == old(game.Now())
      && (forall c :: c in game.tiles.deck ==> c.placeFirst == old(c.placeFirst))
      && game.net.log == old(game.net.log + Broadcast(game.players, Winner(game.gameWinner, game.firstTeamScore, game.secondTeamScore)))
    ensures old(game.firstTeamScore < 100 && game.secondTeamScore < 100) ==>
      && game.startedThisGame == old(game.gameWinner) && !game.firstGame && game.timesPassed == 0
      && OnTable(game.HandChips(), game.line.chips) == multiset(game.tiles.deck)
      && game.net.log == told + [Sent(game.players[if old(game.gameWinner) < |game.players| then old(game.gameWinner) else 0], PlayerTurn)]
      && |shown| == 28 && (forall k :: 0 <= k < 28 ==> var c := game.tiles.chips[k]; c in game.tiles.deck && shown[k] == ChipData(c.first, c.second, old(c.placeFirst)))
      && var dealt := DealtRound(game.tiles.chips, old(game.Scores()));
         && game.Now() == Opening(dealt, old(game.gameWinner), |game.players|)
         && told == old(game.net.log + Broadcast(game.players, Winner(game.gameWinner, game.firstTeamScore, game.secondTeamScore)))
                    + ReadyMessages(game.players, Deal4(shown), old(game.gameWinner), old(UsersData(game.players)))
                    + OpeningTold(dealt, game.players, old(game.gameWinner))
  {
    var opener := game.gameWinner;
    game.SendMessages(Winner(game.gameWinner, game.firstTeamScore, game.secondTeamScore));
    told := game.net.log;
    shown := [];
    if game.firstTeamScore < 100 && game.secondTeamScore < 100 {
      ghost var announced := told;
      told, shown := NextRound(game, opener, draws);
      PrefixTrans(announced, told, game.net.log);
    }
  }

  /** The `PLAY_CHIP` branch: the chip goes down, the turn moves on, and an ended round is wound up by `endGame`. */
  method PlayChipAt(game: DominoServerGame, seat: int, first: int, second: int, placeFirst: bool, draws: seq<nat>)
    requires RoundDealt(game) && 0 <= seat < |game.players| && IsDrawList(draws, 28)
    modifies game, game.tiles, game.line, game.hands, game.net, set c | c in game.tiles.deck
    ensures RoundDealt(game)
  {
    var chip := Lay(game, seat, first, second, placeFirst);
    ghost var cpu := AfterPlay(game, seat);
    if game.gameEnded {
      ghost var told, shown := EndGame(game, draws);
    }
  }

  /** The `PASS` branch: the pass is counted, the turn moves on, and an ended round is wound up by `endGame`. */
  method PassAt(game: DominoServerGame, seat: int, draws: seq<nat>)
    requires RoundDealt(game) && 0 <= seat < |game.players| && IsDrawList(draws, 28)
    modifies game, game.tiles, game.line, game.hands, game.net, set c | c in game.tiles.deck
    ensures RoundDealt(game)
  {
    ghost var cpu := PassTurn(game, seat);
    if game.gameEnded {
      ghost var told, shown := EndGame(game, draws);
    }
  }

  class DominoServer {
    /** `playerPool`: signed-in threads waiting for a game, oldest first. */
    var playerPool: seq<PlayerThread>
    /** `PlayerThread.users`: the users counted as signed in. */
    var users: seq<DominoPlayer>
    /** Where every connection's messages go. */
    const net: Network

    /** A server that has just started: nobody waits and nobody is signed in. */
    constructor (net: Network)
      ensures playerPool == [] && users == [] && this.net == net
    {
      playerPool := [];
      users := [];
      this.net := net;
    }

    /** `hasUser`: whether some listed user carries that id. */
    method HasUser(id: string) returns (has: bool)
      ensures has <==> SignedIn(users, id)
    {
      has := false;
      for k := 0 to |users|
        invariant has <==> exists j :: 0 <= j < k && users[j].id == Some(id)
      {
        if users[k].id.Some? && users[k].id.value == id {
          has := true;
        }
      }
    }

    /** `remove`: the first occurrence of the thread leaves the pool; without one the pool stays as it is. */
    method Remove(thread: PlayerThread)
      modifies this`playerPool
      ensures playerPool == RemoveFirst(old(playerPool), thread)
      ensures thread !in old(playerPool) ==> playerPool == old(playerPool)
      ensures |playerPool| == if thread in old(playerPool) then |old(playerPool)| - 1 else |old(playerPool)|
    {
      RemoveFirstSpec(playerPool, thread);
      RemoveFirstShrinks(playerPool, thread);
      playerPool := RemoveFirst(playerPool, thread);
    }

    /** The user list's `remove`: the first occurrence of the user leaves the list. */
    method RemoveUser(user: DominoPlayer)
      modifies this`users
      ensures users == RemoveFirst(old(users), user)
      ensures old(users) == [] ==> users == []
    {
      users := RemoveFirst(users, user);
    }

    /** The seat-filling loop of `makeGame`: the thread first, then the oldest waiting threads, which leave the pool. */
    method Gather(thread: PlayerThread) returns (seats: seq<PlayerThread>)
      requires |playerPool| >= GameSize - 1
      modifies this`playerPool
      ensures seats == [thread] + old(playerPool)[..GameSize - 1]
      ensures playerPool == old(playerPool)[GameSize - 1..]
    {
      ghost var waiting := playerPool;
      seats := [thread];
      for counter := 1 to GameSize
        invariant seats == [thread] + waiting[..counter - 1]
        invariant playerPool == waiting[counter - 1..]
      {
        DropHead(waiting, counter - 1);
        GrowPrefix([thread], waiting, counter - 1);
        seats := seats + [playerPool[0]];
        playerPool := playerPool[1..];
      }
    }

    /**
     * `makeGame`: with at least `GameSize - 1` threads waiting, the thread and
     * the oldest waiting ones, in that seat order, leave the pool and form a
     * new game, whose first round opens with the double six and is begun as
     * `BeginRound` says. With fewer waiting, the thread joins the pool and
     * there is no game.
     */
    method MakeGame(thread: PlayerThread, firstGame: bool, draws: seq<nat>) returns (game: DominoServerGame?)
      requires IsDrawList(draws, 28)
      modifies this`playerPool, thread, playerPool, net
      ensures thread.running == old(thread.running) && unchanged(thread.user)
      ensures |old(playerPool)| < GameSize - 1 ==>
        && game == null && playerPool == old(playerPool) + [thread]
        && thread.game == old(thread.game) && net.log == old(net.log)
      ensures |old(playerPool)| >= GameSize - 1 ==>
        var seats := [thread] + old(playerPool)[..GameSize - 1];
        && playerPool == old(playerPool)[GameSize - 1..]
        && game != null && fresh(game) && game.players == UsersOf(seats)
        && FirstRoundOpened(game, net, old(net.log), old(UsersData(UsersOf(seats))))
        && FirstRoundBegun(game, net, firstGame) && Seated(seats, game)
    {
      if |playerPool| >= GameSize - 1 {
        ghost var users := UsersData(UsersOf([thread] + playerPool[..GameSize - 1]));
        var seats := Gather(thread);
        assert UsersData(UsersOf(seats)) == users;
        game := StartGame(seats, net, firstGame, draws);
      } else {
        playerPool := playerPool + [thread];
        game := null;
      }
    }
  }

  class PlayerThread {
    const threadNumber: int
    /** The connection's user; its id and name are set at sign-in. */
    const user: DominoPlayer
    /** Set by `run` before the first request; a logout clears it. */
    var running: bool
    var game: DominoServerGame?
    /** The seat of this thread's user in `game`. */
    var playerCounter: int

    constructor (number: int)
      ensures threadNumber == number && fresh(user) && user.id == None && user.name == None
      ensures !running && game == null
    {
      threadNumber := number;
      user := new DominoPlayer();
      running := false;
      game := null;
      playerCounter := 0;
    }

    /** The objects of the thread's game, if it has one. */
    ghost function GameParts(): set<object>
      reads this, game
    {
      if game == null then {} else game.Repr()
    }

    /** The thread sits at a seat of a game whose round has been dealt: what a play or a pass needs. */
    ghost predicate InGame()
      reads this, game, GameParts()
    {
      game != null && RoundDealt(game) && 0 <= playerCounter < |game.players|
    }

    /**
     * The `LOGIN` branch of `handleMessage`: an id already signed in is
     * refused; otherwise the user takes the id and name and `makeGame` either
     * seats the thread in a new game, with no reply, or puts it in the pool,
     * and the reply is the `LOGIN` acknowledgement.
     */
    method Login(server: DominoServer, id: string, name: string, draws: seq<nat>) returns (reply: Option<Message>)
      requires IsDrawList(draws, 28)
      modifies this, user, server`playerPool, server.playerPool, server.net
      ensures running == old(running)
      ensures old(SignedIn(server.users, id)) ==>
        && reply == Some(SameUserReply(SameUserText)) && game == old(game)
        && user.id == old(user.id) && user.name == old(user.name)
        && server.playerPool == old(server.playerPool) && server.net.log == old(server.net.log)
      ensures !old(SignedIn(server.users, id)) ==>
        && user.id == Some(id) && user.name == Some(name)
        && (reply.None? <==> game != null)
        && (reply.Some? ==> reply == Some(LoginReply) && server.playerPool == old(server.playerPool) + [this])
        && (game != null ==> fresh(game) && InGame() && game.players[playerCounter] == user)
    {
      var has := server.HasUser(id);
      if has {
        reply := Some(SameUserReply(SameUserText));
      } else {
        reply := SignIn(server, id, name, draws);
      }
    }

    /** The rest of `LOGIN` for an id nobody has signed in with. */
    method SignIn(server: DominoServer, id: string, name: string, draws: seq<nat>) returns (reply: Option<Message>)
      requires IsDrawList(draws, 28)
      modifies this, user, server`playerPool, server.playerPool, server.net
      ensures running == old(running)
      ensures user.id == Some(id) && user.name == Some(name)
      ensures reply.None? <==> game != null
      ensures reply.Some? ==> reply == Some(LoginReply) && server.playerPool == old(server.playerPool) + [this]
      ensures game != null ==> fresh(game) && InGame() && game.players[playerCounter] == user
    {
      user.SetCredentials(id, name);
      reply := Enter(server, draws);
    }

    /** `makeGame` for a signed-in thread, which keeps the game it gets; only a thread left waiting is answered. */
    method Enter(server: DominoServer, draws: seq<nat>) returns (reply: Option<Message>)
      requires IsDrawList(draws, 28)
      modifies this, server`playerPool, server.playerPool, server.net
      ensures running == old(running)
      ensures reply.None? <==> game != null
      ensures reply.Some? ==> reply == Some(LoginReply) && server.playerPool == old(server.playerPool) + [this]
      ensures game != null ==> fresh(game) && InGame() && game.players[playerCounter] == user
    {
      ghost var waiting := server.playerPool;
      var made := server.MakeGame(this, true, draws);
      game := made;
      if made != null {
        ghost var seats := [this] + waiting[..GameSize - 1];
        assert seats[0] == this;
        reply := None;
      } else {
        reply := Some(LoginReply);
      }
    }

    /**
     * `handleMessage` up to its reply: acts on one request and gives the reply
     * it calls for, if any. `PLAY_CHIP` and `PASS` move the game on and, once
     * its round has ended, `endGame` follows; both get a reply that carries no
     * action. `LOGOUT` stops the thread and takes it off the pool and its user
     * off the user list, with no reply. A `PLAY_CHIP` or `PASS` from a thread
     * with no game fails on the missing game, which no handler catches: the
     * thread stops there, with no reply.
     */
    method Act(server: DominoServer, req: Request, draws: seq<nat>) returns (reply: Option<Message>)
      requires IsDrawList(draws, 28)
      requires req.Parsed? && (req.action == PlayChipAction || req.action == PassAction) && game != null ==> InGame()
      modifies this, user, server, server.playerPool, server.net, GameParts()
      ensures server.users == if req.Parsed? && req.action == LogoutAction then RemoveFirst(old(server.users), user) else old(server.users)
      ensures ErrorFor(req).Some? ==>
        && reply == ErrorFor(req) && running == old(running) && game == old(game)
        && server.net.log == old(server.net.log) && server.playerPool == old(server.playerPool)
      ensures req.Parsed? && req.action == LogoutAction ==>
        && reply.None? && !running && server.playerPool == RemoveFirst(old(server.playerPool), this)
        && game == old(game) && server.net.log == old(server.net.log)
      ensures req.Parsed? && (req.action == PlayChipAction || req.action == PassAction) && old(game) != null ==>
        reply == Some(BlankReply) && running == old(running) && InGame()
      ensures req.Parsed? && (req.action == PlayChipAction || req.action == PassAction) && old(game) == null ==>
        reply.None? && !running && game == null && server.net.log == old(server.net.log)
      ensures req.Parsed? && req.action == LoginAction ==> running == old(running)
      ensures req.Parsed? && req.action == LoginAction && old(SignedIn(server.users, req.data.userId)) ==>
        && reply == Some(SameUserReply(SameUserText)) && game == old(game)
        && user.id == old(user.id) && user.name == old(user.name)
        && server.playerPool == old(server.playerPool) && server.net.log == old(server.net.log)
      ensures req.Parsed? && req.action == LoginAction && !old(SignedIn(server.users, req.data.userId)) ==>
        && user.id == Some(req.data.userId) && user.name == Some(req.data.userName)
        && (reply.None? <==> game != null)
        && (reply.Some? ==> reply == Some(LoginReply) && server.playerPool == old(server.playerPool) + [this])
        && (game != null ==> fresh(game) && InGame() && game.players[playerCounter] == user)
    {
      reply := ErrorFor(req);
      if req.Parsed? {
        var data := req.data;
        if req.action == LoginAction {
          reply := Login(server, data.userId, data.userName, draws);
        } else if req.action == PlayChipAction || req.action == PassAction {
          if game == null {
            reply := None;
            running := false;
          } else if req.action == PlayChipAction {
            PlayChipAt(game, playerCounter, data.first, data.second, data.placeFirst, draws);
            reply := Some(BlankReply);
          } else {
            PassAt(game, playerCounter, draws);
            reply := Some(BlankReply);
          }
        } else if req.action == LogoutAction {
          server.RemoveUser(user);
          running := false;
          server.Remove(this);
        }
      }
    }

    /**
     * `handleMessage`: acts on one request, then, while the thread runs and
     * the action calls for a reply, writes the reply to its own user.
     */
    method HandleMessage(server: DominoServer, req: Request, draws: seq<nat>) returns (reply: Option<Message>)
      requires IsDrawList(draws, 28)
      requires req.Parsed? && (req.action == PlayChipAction || req.action == PassAction) && game != null ==> InGame()
      modifies this, user, server, server.playerPool, server.net, GameParts()
      ensures old(server.users) == [] ==> server.users == []
      ensures server.users == if req.Parsed? && req.action == LogoutAction then RemoveFirst(old(server.users), user) else old(server.users)
      ensures ErrorFor(req).Some? ==> reply == ErrorFor(req)
      ensures req.Parsed? && req.action == LogoutAction ==> reply.None? && !running
      ensures req.Parsed? && (req.action == PlayChipAction || req.action == PassAction) ==>
        (old(game) != null ==> reply == Some(BlankReply)) && (old(game) == null ==> reply.None? && !running)
      ensures req.Parsed? && req.action == LoginAction && old(SignedIn(server.users, req.data.userId)) ==>
        reply == Some(SameUserReply(SameUserText))
      ensures running && reply.Some? ==> server.net.log != [] && server.net.log[|server.net.log| - 1] == Sent(user, reply.value)
      ensures !running ==> reply.None? || !old(running)
    {
      reply := Act(server, req, draws);
      if running && reply.Some? {
        server.net.Send(user, reply.value);
      }
    }
  }
}

=== FILE: server_game.dfy ===
/**
 * `DominoServerGame`: the server's copy of one match. Four seats take turns;
 * seats 0 and 2 form the first team and seats 1 and 3 the second. The first
 * seats belong to the signed-in players and the rest are played by the
 * server. The game owns the tile set, the line, the four hands, the count of
 * consecutive passes and the two team scores.
 */
module ServerGames {
  import opened Options
  import opened Json
  import opened Lists
  import opened Chips
  import opened Hands
  import opened Lines
  import opened Tiles
  import opened Players

  /** Who opens a round: one of the seats, or whoever holds the double six. */
  datatype StartingPlayer = Player1 | Player2 | Player3 | Player4 | FirstGame

  function Ordinal(s: StartingPlayer): nat
  {
    match s
    case Player1 => 0
    case Player2 => 1
    case Player3 => 2
    case Player4 => 3
    case FirstGame => 4
  }

  /** `StartingPlayer.values()[seat]`: the value whose ordinal is the seat. */
  function SeatStarter(seat: nat): (s: StartingPlayer)
    requires seat <= 4
    ensures Ordinal(s) == seat
  {
    if seat == 0 then Player1
    else if seat == 1 then Player2
    else if seat == 2 then Player3
    else if seat == 3 then Player4
    else FirstGame
  }

  /** The team of a seat: 0 for seats 0 and 2, 1 for seats 1 and 3. */
  function Team(seat: int): nat
    requires 0 <= seat < 4
  {
    seat % 2
  }

  /** The pips left in a team's two hands, given the four hands' counts. */
  function TeamPips(counts: seq<int>, team: nat): int
    requires |counts| == 4 && team < 2
  {
    counts[team] + counts[team + 2]
  }

  function TeamScore(scores: (int, int), team: nat): int
    requires team < 2
  {
    if team == 0 then scores.0 else scores.1
  }

  /**
   * `victory`'s score update: when seat 0 or 2 wins, the first team gains the
   * pips of hands 1 and 3; otherwise the second team gains those of hands 2 and 0.
   */
  function Scored(scores: (int, int), winner: int, counts: seq<int>): (r: (int, int))
    requires |counts| == 4
    ensures 0 <= winner < 4 ==>
      && TeamScore(r, Team(winner)) == TeamScore(scores, Team(winner)) + TeamPips(counts, 1 - Team(winner))
      && TeamScore(r, 1 - Team(winner)) == TeamScore(scores, 1 - Team(winner))
  {
    if winner == 0 || winner == 2 then (scores.0 + counts[1] + counts[3], scores.1)
    else (scores.0, scores.1 + counts[2] + counts[0])
  }

  /**
   * `isClosed`'s choice of winner when nobody can move: seat 0 when hands 1 and
   * 3 hold more pips, seat 1 when hands 2 and 0 hold more, otherwise the seat
   * that opened the round.
   */
  function ClosedWinner(counts: seq<int>, opener: int): (w: int)
    requires |counts| == 4 && 0 <= opener < 4
    ensures 0 <= w < 4
    ensures TeamPips(counts, Team(w)) <= TeamPips(counts, 1 - Team(w))
    ensures TeamPips(counts, Team(w)) == TeamPips(counts, 1 - Team(w)) ==> w == opener
    ensures TeamPips(counts, 0) != TeamPips(counts, 1) ==> w == Team(w)
  {
    var firstTeamCount := counts[1] + counts[3];
    var secondTeamCount := counts[2] + counts[0];
    if firstTeamCount > secondTeamCount then 0
    else if secondTeamCount > firstTeamCount then 1
    else opener
  }

  /** The position of the first chip of `cs` that may be played on `ends`, if any. */
  function FirstPlayable(ends: seq<int>, cs: seq<DominoChip>, firstGame: bool): (r: Option<nat>)
    ensures r.None? ==> forall k :: 0 <= k < |cs| ==> !Playable(ends, cs[k], firstGame)
    ensures r.Some? ==> && r.value < |cs| && Playable(ends, cs[r.value], firstGame)
                        && forall k :: 0 <= k < r.value ==> !Playable(ends, cs[k], firstGame)
  {
    if cs == [] then None
    else if Playable(ends, cs[0], firstGame) then Some(0)
    else
      match FirstPlayable(ends, cs[1..], firstGame)
      case None => None
      case Some(i) => Some(i + 1)
  }

  /** The position of the first chip of `cs` with pips (`f`, `s`) in that order, if any. */
  function FirstSamePips(cs: seq<DominoChip>, f: int, s: int): (r: Option<nat>)
    ensures r.None? ==> forall k :: 0 <= k < |cs| ==> !(cs[k].first == f && cs[k].second == s)
    ensures r.Some? ==> && r.value < |cs| && cs[r.value].first == f && cs[r.value].second == s
                        && forall k :: 0 <= k < r.value ==> !(cs[k].first == f && cs[k].second == s)
  {
    if cs == [] then None
    else if cs[0].first == f && cs[0].second == s then Some(0)
    else
      match FirstSamePips(cs[1..], f, s)
      case None => None
      case Some(i) => Some(i + 1)
  }

  /** A hand after dropping the chip at `pick`, when there is one. */
  function Without(cs: seq<DominoChip>, pick: Option<nat>): seq<DominoChip>
  {
    if pick.Some? && pick.value < |cs| then RemoveAt(cs, pick.value) else cs
  }

  /** The seat after `seat`, going round the table. */
  function NextSeat(seat: int): (r: int)
    requires 0 <= seat < 4
    ensures r == if seat == 3 then 0 else seat + 1
  {
    (seat + 1) % 4
  }

  /** The seats `playCPU` visits after `lastPlayer`: from the next seat up to the first signed-in one. */
  function CpuTurns(lastPlayer: int, humans: nat): (r: nat)
    requires 0 <= lastPlayer < 4
    ensures var s := NextSeat(lastPlayer);
      && s + r <= 4
      && (r > 0 ==> s >= humans)
      && (humans >= 1 ==> (if s + r == 4 then 0 else s + r) < humans && r <= 3)
  {
    var s := NextSeat(lastPlayer);
    if s >= humans then 4 - s else 0
  }

  /** `timesPassed` after a run of turns: a play resets it, a pass adds one. */
  function PassesAfter(passed: int, played: seq<bool>): int
  {
    if played == [] then passed
    else if played[|played| - 1] then 0
    else PassesAfter(passed, played[..|played| - 1]) + 1
  }

  /** One more turn: a play resets the count, a pass adds one. */
  lemma PassesAfterSnoc(passed: int, played: seq<bool>, b: bool)
    ensures PassesAfter(passed, played + [b]) == if b then 0 else PassesAfter(passed, played) + 1
  {
    assert (played + [b])[..|played|] == played;
  }

  /**
   * The pass count after a run of turns is the number of passes since the last
   * play of the run, or the old count plus the run's length when nobody played.
   */
  lemma {:induction false} PassesSinceLastPlay(passed: int, played: seq<bool>, j: int)
    requires -1 <= j < |played|
    requires j >= 0 ==> played[j]
    requires forall k :: j < k < |played| ==> !played[k]
    ensures PassesAfter(passed, played) == if j >= 0 then |played| - 1 - j else passed + |played|
    decreases |played|
  {
    if played != [] && |played| - 1 != j {
      PassesSinceLastPlay(passed, played[..|played| - 1], j);
    }
  }

  /** The chip, if any, that leaves a hand when `pick` is played from it. */
  function Moved(cs: seq<DominoChip>, pick: Option<nat>): (r: seq<DominoChip>)
    ensures |r| <= 1
  {
    if pick.Some? && pick.value < |cs| then [cs[pick.value]] else []
  }

  /** The chips of four hands, seat by seat. */
  ghost function ChipsOf(hs: seq<DominoHand>): (r: seq<seq<DominoChip>>)
    reads hs
    requires |hs| == 4
    ensures |r| == 4
  {
    [hs[0].chips, hs[1].chips, hs[2].chips, hs[3].chips]
  }

  /** Every hand holds only chips of `pool`. */
  ghost predicate AllAmong(hs: seq<seq<DominoChip>>, pool: seq<DominoChip>)
  {
    forall k :: 0 <= k < |hs| ==> Among(hs[k], pool)
  }

  /** Dropping a chip from one hand keeps every hand within the pool. */
  lemma WithoutAmong(hs: seq<seq<DominoChip>>, i: nat, pick: Option<nat>, pool: seq<DominoChip>)
    requires AllAmong(hs, pool) && i < |hs|
    ensures AllAmong(hs[i := Without(hs[i], pick)], pool)
  {
    if pick.Some? && pick.value < |hs[i]| {
      RemoveAtAmong(hs[i], pick.value, pool);
    }
  }

  /** Every chip in four hands and on a line, counted with multiplicity. */
  ghost function OnTable<T>(hs: seq<seq<T>>, l: seq<T>): multiset<T>
    requires |hs| == 4
  {
    multiset(hs[0]) + multiset(hs[1]) + multiset(hs[2]) + multiset(hs[3]) + multiset(l)
  }

  /** Moving `x` out of the first of four collections and into a fifth keeps the total. */
  lemma MoveFromFirst<T>(a: multiset<T>, b: multiset<T>, c: multiset<T>, d: multiset<T>, r: multiset<T>, x: T, l: multiset<T>)
    requires a == r + multiset{x}
    ensures r + b + c + d + (l + multiset{x}) == a + b + c + d + l
  {
  }

  /** Moving one element from hand `i` to the end of the line keeps the total. */
  lemma MoveOne<T>(hs: seq<seq<T>>, i: nat, r: seq<T>, x: T, l: seq<T>)
    requires |hs| == 4 && i < 4 && multiset(hs[i]) == multiset(r) + multiset{x}
    ensures OnTable(hs[i := r], l + [x]) == OnTable(hs, l)
  {
    assert multiset(l + [x]) == multiset(l) + multiset{x};
    var a, b, c, d := multiset(hs[0]), multiset(hs[1]), multiset(hs[2]), multiset(hs[3]);
    var moved := hs[i := r];
    assert forall k :: 0 <= k < 4 && k != i ==> moved[k] == hs[k];
    if i == 0 {
      MoveFromFirst(a, b, c, d, multiset(r), x, multiset(l));
    } else if i == 1 {
      MoveFromFirst(b, a, c, d, multiset(r), x, multiset(l));
    } else if i == 2 {
      MoveFromFirst(c, a, b, d, multiset(r), x, multiset(l));
    } else {
      MoveFromFirst(d, a, b, c, multiset(r), x, multiset(l));
    }
  }

  /**
   * Moving the picked chip of seat `i` onto the line, as `makePlay` does,
   * neither creates nor loses a chip; with no pick nothing moves.
   */
  lemma MoveConserves(hs: seq<seq<DominoChip>>, l: seq<DominoChip>, i: nat, pick: Option<nat>)
    requires |hs| == 4 && i < 4
    ensures OnTable(hs[i := Without(hs[i], pick)], l + Moved(hs[i], pick)) == OnTable(hs, l)
  {
    if pick.Some? && pick.value < |hs[i]| {
      var p := pick.value;
      RemoveAtMultiset(hs[i], p);
      assert multiset(hs[i]) == multiset(RemoveAt(hs[i], p)) + multiset{hs[i][p]} by {
        assert hs[i][p] in multiset(hs[i]);
      }
      MoveOne(hs, i, RemoveAt(hs[i], p), hs[i][p], l);
    } else {
      assert l + Moved(hs[i], pick) == l;
      assert hs[i := Without(hs[i], pick)] == hs;
    }
  }

  /**
   * What a run of server turns reads and changes: the two open ends of the
   * line, the chips each seat holds, the chips on the line with the data each
   * of them now shows (`getLineAsJson`), and how the round stands: ended, the
   * winner and the two team scores.
   */
  datatype Round = Round(ends: seq<int>, hands: seq<seq<DominoChip>>, line: seq<DominoChip>,
                         shown: seq<ChipData>, result: (bool, int, int, int))

  /** The pips left in each of four hands. */
  function PipCounts(hs: seq<seq<DominoChip>>): seq<int>
    requires |hs| == 4
  {
    [PipSum(hs[0]), PipSum(hs[1]), PipSum(hs[2]), PipSum(hs[3])]
  }

  /**
   * The line's data once `c` has had its side set: `setPlaceFirst` changes the
   * chip object itself, so every place the line holds `c` shows the new side.
   */
  function Relabel(ds: seq<ChipData>, cs: seq<DominoChip>, c: DominoChip, side: bool): (r: seq<ChipData>)
    ensures |r| == |ds|
    ensures forall i :: 0 <= i < |ds| && (i >= |cs| || cs[i] != c) ==> r[i] == ds[i]
    ensures forall i :: 0 <= i < |ds| && i < |cs| && cs[i] == c ==> r[i] == ChipData(c.first, c.second, side)
  {
    seq(|ds|, i requires 0 <= i < |ds| => if i < |cs| && cs[i] == c then ChipData(c.first, c.second, side) else ds[i])
  }

  /**
   * `makePlay(seat, flag)` on a round: the seat's first chip that fits leaves
   * its hand and goes on the line on the side `playChipCPU` picks, the first
   * end when the line is empty or the chip touches that end and the last end
   * otherwise; a hand that this empties wins the round, scored as `victory`
   * scores it. A seat with no chip that fits leaves the round as it was.
   */
  function Turn(r: Round, seat: int, flag: bool): (t: Round)
    requires |r.hands| == 4 && 0 <= seat < 4
    ensures |t.hands| == 4
  {
    var pick := FirstPlayable(r.ends, r.hands[seat], flag);
    if pick.None? then r
    else
      var c := r.hands[seat][pick.value];
      var side := r.ends == [] || Touches(c, r.ends[0]);
      var hs := r.hands[seat := Without(r.hands[seat], pick)];
      var scored := Scored((r.result.2, r.result.3), seat, PipCounts(hs));
      Round(Place(r.ends, c.first, c.second, side), hs, r.line + [c],
            Relabel(r.shown, r.line, c, side) + [ChipData(c.first, c.second, side)],
            if hs[seat] == [] then (true, seat, scored.0, scored.1) else r.result)
  }

  /** A turn in which the seat has a chip that fits, component by component. */
  lemma TurnFound(r: Round, seat: int, flag: bool)
    requires |r.hands| == 4 && 0 <= seat < 4
    requires FirstPlayable(r.ends, r.hands[seat], flag).Some?
    ensures var i := FirstPlayable(r.ends, r.hands[seat], flag).value;
      var c := r.hands[seat][i];
      var side := r.ends == [] || Touches(c, r.ends[0]);
      var hs := r.hands[seat := RemoveAt(r.hands[seat], i)];
      var scored := Scored((r.result.2, r.result.3), seat, PipCounts(hs));
      var t := Turn(r, seat, flag);
      && t.ends == Place(r.ends, c.first, c.second, side)
      && t.hands == hs
      && t.line == r.line + [c]
      && t.shown == Relabel(r.shown, r.line, c, side) + [ChipData(c.first, c.second, side)]
      && t.result == if hs[seat] == [] then (true, seat, scored.0, scored.1) else r.result
  {
  }

  /** The messages of that turn: after a play, `PLAYER_PLAYED` with the chip, the seat and the line, to every player; after a pass, none. */
  function Told(r: Round, players: seq<DominoPlayer>, seat: int, flag: bool): seq<Sent>
    requires |r.hands| == 4 && 0 <= seat < 4
  {
    var t := Turn(r, seat, flag);
    if FirstPlayable(r.ends, r.hands[seat], flag).None? then []
    else Broadcast(players, PlayerPlayed(t.shown[|t.shown| - 1], seat, t.shown))
  }

  /** Seats `lo` up to `hi - 1` each take a `Turn` with the same flag, in seat order. */
  function Run(r: Round, lo: int, hi: int, flag: bool): (t: Round)
    requires |r.hands| == 4 && 0 <= lo <= hi <= 4
    ensures |t.hands| == 4
    decreases hi - lo
  {
    if hi == lo then r else Turn(Run(r, lo, hi - 1, flag), hi - 1, flag)
  }

  /** Whether each seat of that run played, seat by seat. */
  function RunMoves(r: Round, lo: int, hi: int, flag: bool): (m: seq<bool>)
    requires |r.hands| == 4 && 0 <= lo <= hi <= 4
    ensures |m| == hi - lo
    decreases hi - lo
  {
    if hi == lo then []
    else
      var t := Run(r, lo, hi - 1, flag);
      RunMoves(r, lo, hi - 1, flag) + [FirstPlayable(t.ends, t.hands[hi - 1], flag).Some?]
  }

  /** The messages of that run, seat by seat. */
  function RunTold(r: Round, players: seq<DominoPlayer>, lo: int, hi: int, flag: bool): seq<Sent>
    requires |r.hands| == 4 && 0 <= lo <= hi <= 4
    decreases hi - lo
  {
    if hi == lo then [] else RunTold(r, players, lo, hi - 1, flag) + Told(Run(r, lo, hi - 1, flag), players, hi - 1, flag)
  }

  /** The turns `playCPU` takes after `lastPlayer`: from the next seat up to the first signed-in one. */
  function CpuRun(r: Round, lastPlayer: int, humans: nat, flag: bool): Round
    requires |r.hands| == 4 && 0 <= lastPlayer < 4
  {
    Run(r, NextSeat(lastPlayer), NextSeat(lastPlayer) + CpuTurns(lastPlayer, humans), flag)
  }

  function CpuMoves(r: Round, lastPlayer: int, humans: nat, flag: bool): seq<bool>
    requires |r.hands| == 4 && 0 <= lastPlayer < 4
  {
    RunMoves(r, NextSeat(lastPlayer), NextSeat(lastPlayer) + CpuTurns(lastPlayer, humans), flag)
  }

  function CpuTold(r: Round, players: seq<DominoPlayer>, lastPlayer: int, flag: bool): seq<Sent>
    requires |r.hands| == 4 && 0 <= lastPlayer < 4
  {
    RunTold(r, players, NextSeat(lastPlayer), NextSeat(lastPlayer) + CpuTurns(lastPlayer, |players|), flag)
  }

  /**
   * The opening of a round by `makeGame` and `endGame`: when a server seat
   * opens, it and every seat after it take a turn with the opening flag set.
   */
  function Opening(r: Round, opener: int, humans: nat): Round
    requires |r.hands| == 4 && 0 <= opener < 4
  {
    if opener >= humans then Run(r, opener, 4, true) else r
  }

  function OpeningTold(r: Round, players: seq<DominoPlayer>, opener: int): seq<Sent>
    requires |r.hands| == 4 && 0 <= opener < 4
  {
    if opener >= |players| then RunTold(r, players, opener, 4, true) else []
  }

  /** The messages of a run one seat longer, after those of the shorter run. */
  lemma RunToldNext(log: seq<Sent>, base: seq<Sent>, r: Round, players: seq<DominoPlayer>, lo: int, seat: int, flag: bool)
    requires |r.hands| == 4 && 0 <= lo <= seat < 4
    requires log == base + RunTold(r, players, lo, seat, flag)
    ensures log + Told(Run(r, lo, seat, flag), players, seat, flag) == base + RunTold(r, players, lo, seat + 1, flag)
  {
  }

  /** Seven chips to each seat from the front of `cs`, in seat order, as `startNewGame` deals them. */
  function Deal4<T>(cs: seq<T>): (hs: seq<seq<T>>)
    requires |cs| >= 28
    ensures |hs| == 4
  {
    [cs[0..7], cs[7..14], cs[14..21], cs[21..28]]
  }

  /** A round as `startNewGame` leaves it: an empty line, the shuffled set dealt seat by seat, no winner yet, the scores kept. */
  function DealtRound(cs: seq<DominoChip>, scores: (int, int)): (r: Round)
    requires |cs| >= 28
    ensures |r.hands| == 4
  {
    Round([], Deal4(cs), [], [], (false, -1, scores.0, scores.1))
  }

  /**
   * The round as `isClosed` leaves it: ended, won by the seat `ClosedWinner`
   * names from the pips left, and scored as `victory` would score that seat.
   */
  function ClosedRound(r: Round, starter: int): (t: Round)
    requires |r.hands| == 4 && 0 <= starter < 4
    ensures |t.hands| == 4
  {
    var w := ClosedWinner(PipCounts(r.hands), starter);
    var scored := Scored((r.result.2, r.result.3), w, PipCounts(r.hands));
    r.(result := (true, w, scored.0, scored.1))
  }

  /** The number of plays in a run. */
  function Plays(m: seq<bool>): nat
  {
    if m == [] then 0 else Plays(m[..|m| - 1]) + (if m[|m| - 1] then 1 else 0)
  }

  /**
   * A turn plays exactly when the seat holds a chip that fits, and then the
   * line gains that one chip; otherwise the round is left as it was.
   */
  lemma TurnPlays(r: Round, seat: int, flag: bool)
    requires |r.hands| == 4 && 0 <= seat < 4
    ensures var t := Turn(r, seat, flag);
      && ((exists k :: 0 <= k < |r.hands[seat]| && Playable(r.ends, r.hands[seat][k], flag)) <==> t != r)
      && (t != r ==> |t.line| == |r.line| + 1 && t.line[|r.line|] in r.hands[seat] && |t.hands[seat]| == |r.hands[seat]| - 1)
  {
    var pick := FirstPlayable(r.ends, r.hands[seat], flag);
    if pick.Some? {
      assert |Turn(r, seat, flag).line| == |r.line| + 1;
    }
  }

  /** A turn neither creates nor loses a chip: the chip played moves from the hand to the line. */
  lemma TurnConserves(r: Round, seat: int, flag: bool)
    requires |r.hands| == 4 && 0 <= seat < 4
    ensures var t := Turn(r, seat, flag); OnTable(t.hands, t.line) == OnTable(r.hands, r.line)
  {
    var pick := FirstPlayable(r.ends, r.hands[seat], flag);
    MoveConserves(r.hands, r.line, seat, pick);
  }

  /** No turn of a run creates or loses a chip. */
  lemma {:induction false} RunConserves(r: Round, lo: int, hi: int, flag: bool)
    requires |r.hands| == 4 && 0 <= lo <= hi <= 4
    decreases hi - lo
    ensures var t := Run(r, lo, hi, flag); OnTable(t.hands, t.line) == OnTable(r.hands, r.line)
  {
    if hi > lo {
      RunConserves(r, lo, hi - 1, flag);
      TurnConserves(Run(r, lo, hi - 1, flag), hi - 1, flag);
    }
  }

  /** A run only adds to the line, one chip per play. */
  lemma {:induction false} RunGrows(r: Round, lo: int, hi: int, flag: bool)
    requires |r.hands| == 4 && 0 <= lo <= hi <= 4
    decreases hi - lo
    ensures var t := Run(r, lo, hi, flag);
      r.line <= t.line && |t.line| == |r.line| + Plays(RunMoves(r, lo, hi, flag))
  {
    if hi > lo {
      RunGrows(r, lo, hi - 1, flag);
      var s := Run(r, lo, hi - 1, flag);
      var pick := FirstPlayable(s.ends, s.hands[hi - 1], flag);
      var m := RunMoves(r, lo, hi, flag);
      assert m[..|m| - 1] == RunMoves(r, lo, hi - 1, flag);
      assert m[|m| - 1] == pick.Some?;
      if pick.Some? {
        assert Run(r, lo, hi, flag).line == s.line + [s.hands[hi - 1][pick.value]];
      }
    }
  }

  /** A play is sent to each player once, and a pass to nobody. */
  lemma ToldCount(r: Round, players: seq<DominoPlayer>, seat: int, flag: bool)
    requires |r.hands| == 4 && 0 <= seat < 4
    ensures |Told(r, players, seat, flag)| == if FirstPlayable(r.ends, r.hands[seat], flag).Some? then |players| else 0
  {
  }

  /** One more turn adds one play when it is a play and none when it is a pass. */
  lemma PlaysSnoc(m: seq<bool>, b: bool)
    ensures Plays(m + [b]) == Plays(m) + if b then 1 else 0
  {
    assert (m + [b])[..|m|] == m;
  }

  /** The count after one more turn: `n` more messages exactly when the turn is a play. */
  lemma CountStep(total: int, prev: int, n: nat, p: nat, b: bool)
    requires prev == n * p && total == prev + if b then n else 0
    ensures total == n * (p + if b then 1 else 0)
  {
    if b {
      MulSucc(n, p);
    }
  }

  lemma MulSucc(a: nat, b: nat)
    ensures a * (b + 1) == a * b + a
  {
  }

  /** Every play of a run is sent to each player once, and a pass to nobody. */
  lemma {:induction false} RunToldCount(r: Round, players: seq<DominoPlayer>, lo: int, hi: int, flag: bool)
    requires |r.hands| == 4 && 0 <= lo <= hi <= 4
    decreases hi - lo
    ensures |RunTold(r, players, lo, hi, flag)| == |players| * Plays(RunMoves(r, lo, hi, flag))
  {
    if hi > lo {
      RunToldCount(r, players, lo, hi - 1, flag);
      RunToldCountStep(r, players, lo, hi, flag);
    } else {
      assert RunTold(r, players, lo, hi, flag) == [] && Plays(RunMoves(r, lo, hi, flag)) == 0;
    }
  }

  /** The step of `RunToldCount`: the count for one more seat from the count so far. */
  lemma RunToldCountStep(r: Round, players: seq<DominoPlayer>, lo: int, hi: int, flag: bool)
    requires |r.hands| == 4 && 0 <= lo < hi <= 4
    requires |RunTold(r, players, lo, hi - 1, flag)| == |players| * Plays(RunMoves(r, lo, hi - 1, flag))
    ensures |RunTold(r, players, lo, hi, flag)| == |players| * Plays(RunMoves(r, lo, hi, flag))
  {
    var s := Run(r, lo, hi - 1, flag);
    var prev := RunMoves(r, lo, hi - 1, flag);
    var b := FirstPlayable(s.ends, s.hands[hi - 1], flag).Some?;
    ToldCount(s, players, hi - 1, flag);
    RunSnoc(r, players, lo, hi, flag);
    CountSnoc(RunTold(r, players, lo, hi, flag), RunTold(r, players, lo, hi - 1, flag), Told(s, players, hi - 1, flag),
              RunMoves(r, lo, hi, flag), prev, b, |players|);
  }

  /** The counting step on its own: `n` messages more exactly when the new move is a play. */
  lemma CountSnoc(told: seq<Sent>, before: seq<Sent>, extra: seq<Sent>, moves: seq<bool>, prev: seq<bool>, b: bool, n: nat)
    requires |before| == n * Plays(prev) && told == before + extra && moves == prev + [b]
    requires |extra| == if b then n else 0
    ensures |told| == n * Plays(moves)
  {
    PlaysSnoc(prev, b);
    CountStep(|told|, |before|, n, Plays(prev), b);
  }

  /** A run one seat longer: its moves and its messages gain that seat's. */
  lemma RunSnoc(r: Round, players: seq<DominoPlayer>, lo: int, hi: int, flag: bool)
    requires |r.hands| == 4 && 0 <= lo < hi <= 4
    ensures var s := Run(r, lo, hi - 1, flag);
      && RunMoves(r, lo, hi, flag) == RunMoves(r, lo, hi - 1, flag) + [FirstPlayable(s.ends, s.hands[hi - 1], flag).Some?]
      && RunTold(r, players, lo, hi, flag) == RunTold(r, players, lo, hi - 1, flag) + Told(s, players, hi - 1, flag)
  {
  }

  /** The four seven-chip slices of a reordered set hold exactly the set's chips. */
  lemma DealCovers(cs: seq<DominoChip>, deck: seq<DominoChip>)
    requires |cs| == 28 && multiset(cs) == multiset(deck)
    ensures AllAmong([cs[0..7], cs[7..14], cs[14..21], cs[21..28]], deck)
    ensures OnTable([cs[0..7], cs[7..14], cs[14..21], cs[21..28]], []) == multiset(deck)
  {
    var hs := [cs[0..7], cs[7..14], cs[14..21], cs[21..28]];
    assert cs == hs[0] + hs[1] + hs[2] + hs[3];
    forall k | 0 <= k < 4
      ensures Among(hs[k], deck)
    {
      forall c | c in hs[k]
        ensures c in deck
      {
        assert c in multiset(cs);
      }
    }
  }

  /** The seven-chip slice `k` holds the double six exactly when `k` is the slice of its one position `p`. */
  lemma DealtDoubleSix(cs: seq<DominoChip>, p: nat, k: nat)
    requires |cs| == 28 && p < 28 && k < 4 && IsDoubleSix(cs[p])
    requires forall i :: 0 <= i < 28 && IsDoubleSix(cs[i]) ==> i == p
    ensures HoldsDoubleSix(cs[7 * k..7 * k + 7]) <==> p / 7 == k
  {
    var h := cs[7 * k..7 * k + 7];
    if p / 7 == k {
      assert h[p - 7 * k] == cs[p];
    }
    if HoldsDoubleSix(h) {
      var j :| 0 <= j < 7 && IsDoubleSix(h[j]);
      assert cs[7 * k + j] == h[j];
    }
  }

  /**
   * The dealing loop of `startNewGame`: four hands, each made of the next seven
   * chips of a freshly shuffled set, so that together they hold the whole set.
   */
  method DealHands(tiles: DominoTiles) returns (hands: seq<DominoHand>)
    requires tiles.Valid() && tiles.next == 0
    modifies tiles
    ensures tiles.Valid() && tiles.chips == old(tiles.chips) && tiles.next == 28
    ensures |hands| == 4 && Distinct(hands)
    ensures forall k :: 0 <= k < 4 ==> fresh(hands[k]) && hands[k].chips == tiles.chips[7 * k..7 * k + 7]
    ensures AllAmong(ChipsOf(hands), tiles.deck)
    ensures OnTable(ChipsOf(hands), []) == multiset(tiles.deck)
  {
    hands := [];
    for hand := 0 to 4
      invariant tiles.Valid() && tiles.chips == old(tiles.chips) && tiles.next == 7 * hand
      invariant |hands| == hand && Distinct(hands)
      invariant forall k :: 0 <= k < hand ==> fresh(hands[k]) && hands[k].chips == tiles.chips[7 * k..7 * k + 7]
    {
      var chips := tiles.GetHand();
      var dealt := new DominoHand(chips);
      hands := hands + [dealt];
    }
    ghost var cs := tiles.chips;
    assert ChipsOf(hands) == [cs[0..7], cs[7..14], cs[14..21], cs[21..28]];
    DealCovers(cs, tiles.deck);
  }

  /** The `FIRST_GAME` search of `startNewGame`: the last seat whose hand holds the double six, or seat 0. */
  method DoubleSixSeat(hands: seq<DominoHand>) returns (seat: int)
    requires |hands| == 4
    ensures 0 <= seat < 4
    ensures (exists k :: 0 <= k < 4 && HoldsDoubleSix(hands[k].chips)) ==> HoldsDoubleSix(hands[seat].chips)
    ensures forall k :: seat < k < 4 ==> !HoldsDoubleSix(hands[k].chips)
    ensures (forall k :: 0 <= k < 4 ==> !HoldsDoubleSix(hands[k].chips)) ==> seat == 0
  {
    seat := 0;
    for handCounter := 0 to 4
      invariant 0 <= seat < 4 && seat <= handCounter
      invariant (exists k :: 0 <= k < handCounter && HoldsDoubleSix(hands[k].chips)) ==> HoldsDoubleSix(hands[seat].chips)
      invariant forall k :: seat < k < handCounter ==> !HoldsDoubleSix(hands[k].chips)
      invariant seat == 0 || HoldsDoubleSix(hands[seat].chips)
    {
      var found := hands[handCounter].HasDouble6();
      if found {
        seat := handCounter;
      }
    }
  }

  /** The search loop of `makePlay`: the position of the first chip of the hand that the line accepts, or the hand's size. */
  method FirstFit(hand: DominoHand, line: DominoLine, firstGame: bool) returns (i: nat)
    ensures i <= |hand.chips|
    ensures FirstPlayable(line.ends, hand.chips, firstGame) == if i < |hand.chips| then Some(i) else None
  {
    i := 0;
    while i < |hand.chips| && !line.CanPlay(hand.chips[i], firstGame)
      invariant i <= |hand.chips|
      invariant forall k :: 0 <= k < i ==> !Playable(line.ends, hand.chips[k], firstGame)
    {
      i := i + 1;
    }
  }

  /** The search loop of `playChip`: the position of the first chip with pips (`f`, `s`), or the hand's size. */
  method FirstSame(hand: DominoHand, f: int, s: int) returns (i: nat)
    ensures i <= |hand.chips|
    ensures FirstSamePips(hand.chips, f, s) == if i < |hand.chips| then Some(i) else None
  {
    i := 0;
    while i < |hand.chips| && !(f == hand.chips[i].first && s == hand.chips[i].second)
      invariant i <= |hand.chips|
      invariant forall k :: 0 <= k < i ==> !(hand.chips[k].first == f && hand.chips[k].second == s)
    {
      i := i + 1;
    }
  }

  class DominoServerGame {
    /** The signed-in players, in seat order. */
    const players: seq<DominoPlayer>
    const net: Network
    const tiles: DominoTiles
    var line: DominoLine
    var hands: seq<DominoHand>
    var gameEnded: bool
    var gameWinner: int
    var firstTeamScore: int
    var secondTeamScore: int
    var startedThisGame: int
    var firstGame: bool
    var timesPassed: int

    /** Every object the game owns or may change. */
    ghost function Repr(): set<object>
      reads this
    {
      {this, line, tiles, net} + (set h | h in hands) + (set c | c in tiles.deck)
    }

    ghost predicate Valid()
      reads this`line, this`hands, this`gameEnded, this`gameWinner, this`startedThisGame, tiles, line, hands
    {
      && tiles.Valid() && line.Valid()
      && 1 <= |players| <= 4
      && (|hands| == 0 || |hands| == 4) && Distinct(hands)
      && (|hands| == 4 ==> AllAmong(HandChips(), tiles.deck))
      && (gameEnded ==> 0 <= gameWinner < 4)
      && 0 <= startedThisGame < 4
    }

    /** The chips each seat holds, seat by seat. */
    ghost function HandChips(): (r: seq<seq<DominoChip>>)
      reads this`hands, hands
      requires |hands| == 4
      ensures |r| == 4
    {
      ChipsOf(hands)
    }

    /** The pips left in each hand, seat by seat. */
    ghost function Counts(): seq<int>
      reads this`hands, hands
      requires |hands| == 4
    {
      PipCounts(HandChips())
    }

    ghost function Scores(): (int, int)
      reads this
    {
      (firstTeamScore, secondTeamScore)
    }

    /** How the round stands: ended or not, the winner and the scores. */
    ghost function Result(): (bool, int, int, int)
      reads this
    {
      (gameEnded, gameWinner, firstTeamScore, secondTeamScore)
    }

    /** The round as a value: what a server seat's `Turn` reads and changes. */
    ghost function Now(): Round
      reads this, line, hands, line.chips
      requires |hands| == 4
    {
      Round(line.ends, HandChips(), line.chips, DataOf(line.chips), Result())
    }

    /** The side flag of each chip of the set, in the set's order. */
    ghost function Sides(): (sides: seq<bool>)
      reads tiles.deck
      ensures |sides| == |tiles.deck|
      ensures forall i :: 0 <= i < |tiles.deck| ==> sides[i] == tiles.deck[i].placeFirst
    {
      seq(|tiles.deck|, i reads tiles.deck requires 0 <= i < |tiles.deck| => tiles.deck[i].placeFirst)
    }

    /** Every chip of the set that is not on the line still has the side `sides` recorded for it. */
    ghost predicate SidesKept(sides: seq<bool>)
      reads this, line, tiles.deck
    {
      && |sides| == |tiles.deck|
      && forall i :: 0 <= i < |tiles.deck| && tiles.deck[i] !in line.chips ==> tiles.deck[i].placeFirst == sides[i]
    }

    /** What a scoring step leaves alone: the table, the opener and the pass count. */
    ghost function Table(): (DominoLine, seq<DominoHand>, int, bool, int)
      reads this
    {
      (line, hands, startedThisGame, firstGame, timesPassed)
    }

    /** A new match: no scores yet, the first round to come, no hands dealt. */
    constructor (players: seq<DominoPlayer>, net: Network)
      requires 1 <= |players| <= 4
      ensures Valid() && this.players == players && this.net == net
      ensures fresh(tiles) && fresh(line) && hands == []
      ensures forall c :: c in tiles.deck ==> fresh(c) && !c.placeFirst
      ensures firstTeamScore == 0 && secondTeamScore == 0 && firstGame
      ensures !gameEnded && gameWinner == 0 && startedThisGame == 0 && timesPassed == 0
    {
      this.players := players;
      this.net := net;
      tiles := new DominoTiles();
      line := new DominoLine();
      hands := [];
      gameEnded := false;
      gameWinner := 0;
      firstTeamScore := 0;
      secondTeamScore := 0;
      startedThisGame := 0;
      firstGame := true;
      timesPassed := 0;
    }

    /**
     * `startNewGame`: a fresh line, a shuffled set dealt seven chips to each
     * seat in order, and the opener: the seat named, or with `FirstGame` the
     * seat holding the double six.
     */
    method StartNewGame(starting: StartingPlayer, firstGame: bool, draws: seq<nat>) returns (nextPlayer: int)
      requires Valid() && IsDrawList(draws, 28)
      modifies this, tiles, line
      ensures Valid() && |hands| == 4
      ensures !gameEnded && gameWinner == -1 && this.firstGame == firstGame && timesPassed == 0
      ensures Scores() == old(Scores())
      ensures fresh(line) && line.ends == [] && line.chips == []
      ensures multiset(tiles.chips) == old(multiset(tiles.chips)) && tiles.next == 28
      ensures forall k :: 0 <= k < 4 ==> fresh(hands[k]) && hands[k].chips == tiles.chips[7 * k..7 * k + 7]
      ensures OnTable(HandChips(), line.chips) == multiset(tiles.deck)
      ensures starting != FirstGame ==> nextPlayer == Ordinal(starting)
      ensures starting == FirstGame ==> 0 <= nextPlayer < 4 && HoldsDoubleSix(hands[nextPlayer].chips)
      ensures starting == FirstGame ==> forall k :: 0 <= k < 4 && k != nextPlayer ==> !HoldsDoubleSix(hands[k].chips)
      ensures startedThisGame == nextPlayer
      ensures Now() == DealtRound(tiles.chips, old(Scores()))
    {
      ClearRound(firstGame);
      Deal(draws);
      nextPlayer := OpeningSeat(starting);
      startedThisGame := nextPlayer;
    }

    /** The resets at the top of `startNewGame`: the round flags, the pass count, a fresh line and no hands. */
    method ClearRound(firstGame: bool)
      requires Valid()
      modifies this, line
      ensures Valid() && hands == [] && fresh(line) && line.ends == [] && line.chips == []
      ensures !gameEnded && gameWinner == -1 && this.firstGame == firstGame && timesPassed == 0
      ensures Scores() == old(Scores()) && startedThisGame == old(startedThisGame)
    {
      gameEnded := false;
      gameWinner := -1;
      this.firstGame := firstGame;
      timesPassed := 0;
      line.Clear();
      line := new DominoLine();
      hands := [];
    }

    /** The shuffle and the deal of `startNewGame`: seven chips to each seat, in seat order. */
    method Deal(draws: seq<nat>)
      requires Valid() && hands == [] && IsDrawList(draws, 28)
      modifies this`hands, tiles
      ensures Valid() && |hands| == 4
      ensures multiset(tiles.chips) == old(multiset(tiles.chips)) && tiles.next == 28
      ensures forall k :: 0 <= k < 4 ==> fresh(hands[k]) && hands[k].chips == tiles.chips[7 * k..7 * k + 7]
      ensures OnTable(HandChips(), []) == multiset(tiles.deck)
    {
      tiles.Shuffle(draws);
      hands := DealHands(tiles);
    }

    /**
     * The choice of opener in `startNewGame`: the seat named, or with
     * `FirstGame` the one seat whose dealt hand holds the double six.
     */
    method OpeningSeat(starting: StartingPlayer) returns (nextPlayer: int)
      requires Valid() && |hands| == 4
      requires forall k :: 0 <= k < 4 ==> hands[k].chips == tiles.chips[7 * k..7 * k + 7]
      ensures 0 <= nextPlayer < 4
      ensures starting != FirstGame ==> nextPlayer == Ordinal(starting)
      ensures starting == FirstGame ==> HoldsDoubleSix(hands[nextPlayer].chips)
      ensures starting == FirstGame ==> forall k :: 0 <= k < 4 && k != nextPlayer ==> !HoldsDoubleSix(hands[k].chips)
    {
      if starting == FirstGame {
        ghost var p := tiles.UniqueDoubleSix();
        forall k | 0 <= k < 4
          ensures HoldsDoubleSix(hands[k].chips) <==> k == p / 7
        {
          DealtDoubleSix(tiles.chips, p, k);
        }
        nextPlayer := DoubleSixSeat(hands);
      } else {
        nextPlayer := Ordinal(starting);
      }
    }

    /** `sendMessages`: the message goes to every player, in seat order. */
    method SendMessages(m: Message)
      modifies net
      ensures net.log == old(net.log) + Broadcast(players, m)
      ensures unchanged(this, line) && unchanged(hands) && UsersData(players) == old(UsersData(players))
    {
      for k := 0 to |players|
        invariant net.log == old(net.log) + Broadcast(players[..k], m)
        invariant UsersData(players) == old(UsersData(players))
      {
        net.Send(players[k], m);
        assert Broadcast(players[..k + 1], m) == Broadcast(players[..k], m) + [Sent(players[k], m)];
      }
      assert players[..|players|] == players;
    }

    /**
     * `victory`: the round ends with `player` as winner, and the winner's team
     * scores the pips left in the other team's hands.
     */
    method Victory(player: int)
      requires Valid() && |hands| == 4 && 0 <= player < 4
      modifies this
      ensures Valid() && Table() == old(Table())
      ensures HandChips() == old(HandChips()) && line.chips == old(line.chips)
      ensures DataOf(line.chips) == old(DataOf(line.chips))
      ensures gameEnded && gameWinner == player
      ensures Scores() == Scored(old(Scores()), player, Counts())
    {
      gameEnded := true;
      gameWinner := player;
      if player == 0 || player == 2 {
        var a := PipSum(hands[1].chips);
        var b := PipSum(hands[3].chips);
        firstTeamScore := firstTeamScore + a + b;
      } else {
        var a := PipSum(hands[2].chips);
        var b := PipSum(hands[0].chips);
        secondTeamScore := secondTeamScore + a + b;
      }
    }

    /**
     * `isClosed`: a blocked round goes to the team holding fewer pips, and a
     * tie to the seat that opened it.
     */
    method IsClosed()
      requires Valid() && |hands| == 4
      modifies this
      ensures Valid() && Table() == old(Table())
      ensures HandChips() == old(HandChips()) && line.chips == old(line.chips)
      ensures gameEnded && gameWinner == ClosedWinner(Counts(), startedThisGame)
      ensures Scores() == Scored(old(Scores()), gameWinner, Counts())
      ensures Now() == ClosedRound(old(Now()), startedThisGame)
    {
      var c1 := PipSum(hands[1].chips);
      var c3 := PipSum(hands[3].chips);
      var c2 := PipSum(hands[2].chips);
      var c0 := PipSum(hands[0].chips);
      var firstTeamCount := c1 + c3;
      var secondTeamCount := c2 + c0;
      if firstTeamCount > secondTeamCount {
        Victory(0);
      } else if secondTeamCount > firstTeamCount {
        Victory(1);
      } else {
        Victory(startedThisGame);
      }
    }

    /**
     * `makePlay`: the seat plays the first chip of its hand that fits the line,
     * on the side `playChipCPU` picks, and wins the round if that empties the
     * hand; with no chip that fits, nothing changes.
     */
    method MakePlay(player: int, firstGame: bool) returns (played: Option<DominoChip>)
      requires Valid() && |hands| == 4 && 0 <= player < 4
      modifies this, line, hands[player], hands[player].chips
      ensures Valid() && hands == old(hands) && line == old(line)
      ensures startedThisGame == old(startedThisGame) && this.firstGame == old(this.firstGame)
      ensures timesPassed == old(timesPassed)
      ensures var pick := FirstPlayable(old(line.ends), old(hands[player].chips), firstGame);
        played == if pick.Some? then Some(old(hands[player].chips)[pick.value]) else None
      ensures played.Some? ==> (played.value.placeFirst <==> old(line.ends) == [] || Touches(played.value, old(line.ends)[0]))
      ensures line.chips == old(line.chips) + if played.Some? then [played.value] else []
      ensures forall c :: c in old(hands[player].chips) && (played.None? || c != played.value) ==> c.placeFirst == old(c.placeFirst)
      ensures Now() == Turn(old(Now()), player, firstGame)
    {
      var hand := hands[player];
      var chipCounter := FirstFit(hand, line, firstGame);
      played := None;
      if chipCounter < |hand.chips| {
        var chip := PlayFound(player, chipCounter, firstGame);
        played := Some(chip);
      }
    }

    /**
     * The rest of `makePlay` once its search has found the chip at `position`:
     * the chip is taken and laid, and a hand this empties wins the round.
     */
    method PlayFound(player: int, position: int, ghost flag: bool) returns (chip: DominoChip)
      requires Valid() && |hands| == 4 && 0 <= player < 4
      requires FirstPlayable(line.ends, hands[player].chips, flag) == Some(position)
      modifies this, line, hands[player], hands[player].chips[position]
      ensures Valid() && hands == old(hands) && line == old(line)
      ensures startedThisGame == old(startedThisGame) && firstGame == old(firstGame) && timesPassed == old(timesPassed)
      ensures chip == old(hands[player].chips)[position] && line.chips == old(line.chips) + [chip]
      ensures chip.placeFirst <==> old(line.ends) == [] || Touches(chip, old(line.ends)[0])
      ensures Now() == Turn(old(Now()), player, flag)
    {
      ghost var r := Now();
      var hand := hands[player];
      chip := Take(player, position);
      ghost var mid := Now();
      TurnFound(r, player, flag);
      ghost var t := Turn(r, player, flag);
      assert mid == t.(result := r.result);
      if |hand.chips| <= 0 {
        Victory(player);
      }
      assert Now() == mid.(result := Result());
    }

    /**
     * The removal and placement step of `makePlay`: the chip at `position` leaves
     * the seat's hand and goes on the line where `playChipCPU` puts it.
     */
    method Take(player: int, position: int) returns (chip: DominoChip)
      requires Valid() && |hands| == 4 && 0 <= player < 4 && 0 <= position < |hands[player].chips|
      modifies line, hands[player], hands[player].chips[position]
      ensures Valid()
      ensures chip == old(hands[player].chips[position])
      ensures HandChips() == old(HandChips())[player := RemoveAt(old(hands[player].chips), position)]
      ensures line.chips == old(line.chips) + [chip]
      ensures chip.placeFirst <==> old(line.ends) == [] || Touches(chip, old(line.ends)[0])
      ensures line.ends == Place(old(line.ends), chip.first, chip.second, chip.placeFirst)
      ensures DataOf(line.chips) == Relabel(old(DataOf(line.chips)), old(line.chips), chip, chip.placeFirst) + [chip.Data()]
    {
      var hand := hands[player];
      chip := hand.chips[position];
      hand.PlayChip(position);
      line.PlayChipCPU(chip);
      WithoutAmong(old(HandChips()), player, Some(position), tiles.deck);
      assert HandChips() == old(HandChips())[player := Without(old(hands[player].chips), Some(position))];
    }

    /**
     * `playChip`: lays a player's chip as given, without checking that it
     * fits, and drops the first chip of that seat's hand with the same pips.
     */
    method PlayChip(chip: DominoChip, player: int)
      requires Valid() && |hands| == 4 && 0 <= player < 4
      modifies line, hands[player]
      ensures Valid()
      ensures line.ends == Place(old(line.ends), chip.first, chip.second, chip.placeFirst)
      ensures line.chips == old(line.chips) + [chip]
      ensures HandChips() == old(HandChips())[player :=
                Without(old(hands[player].chips), FirstSamePips(old(hands[player].chips), chip.first, chip.second))]
    {
      line.PlayChip(chip);
      DropSamePips(player, chip.first, chip.second);
    }

    /** The removal step of `playChip`: the first chip of the seat's hand with pips (`f`, `s`), if any, leaves it. */
    method DropSamePips(player: int, f: int, s: int)
      requires Valid() && |hands| == 4 && 0 <= player < 4
      modifies hands[player]
      ensures Valid()
      ensures HandChips() == old(HandChips())[player := Without(old(hands[player].chips), FirstSamePips(old(hands[player].chips), f, s))]
    {
      var hand := hands[player];
      ghost var before := hand.chips;
      var i := FirstSame(hand, f, s);
      if i < |hand.chips| {
        var found := hand.chips[i];
        assert found !in before[..i];
        RemoveFirstPresent(before, found);
        hand.RemoveChip(found);
      }
      WithoutAmong(old(HandChips()), player, FirstSamePips(before, f, s), tiles.deck);
      assert HandChips() == old(HandChips())[player := Without(before, FirstSamePips(before, f, s))];
    }

    /**
     * One turn of the `playCPU` loop: the seat plays as `makePlay` decides; a
     * play is sent to every player and resets the pass count, a pass adds one.
     */
    method CpuTurn(seat: int) returns (played: Option<DominoChip>)
      requires Valid() && |hands| == 4 && 0 <= seat < 4
      modifies this, line, hands[seat], hands[seat].chips, net
      ensures Valid() && hands == old(hands) && line == old(line)
      ensures startedThisGame == old(startedThisGame) && firstGame == old(firstGame)
      ensures played.Some? <==> FirstPlayable(old(line.ends), old(hands[seat].chips), old(firstGame)).Some?
      ensures line.chips == old(line.chips) + if played.Some? then [played.value] else []
      ensures forall c :: c in old(hands[seat].chips) && (played.None? || c != played.value) ==> c.placeFirst == old(c.placeFirst)
      ensures Now() == Turn(old(Now()), seat, old(firstGame))
      ensures timesPassed == if played.Some? then 0 else old(timesPassed) + 1
      ensures net.log == old(net.log) + Told(old(Now()), players, seat, old(firstGame))
    {
      ghost var r := Now();
      assert r.hands[seat] == hands[seat].chips;
      played := MakePlay(seat, firstGame);
      ghost var t := Now();
      Announce(seat, played);
      assert Now() == t;
      if played.Some? {
        assert DataOf(line.chips)[|line.chips| - 1] == played.value.Data();
      }
    }

    /** The tail of a `playCPU` turn: a play is sent to every player and resets the pass count, a pass adds one. */
    method Announce(seat: int, played: Option<DominoChip>)
      modifies this`timesPassed, net
      ensures timesPassed == if played.Some? then 0 else old(timesPassed) + 1
      ensures played.Some? ==> net.log == old(net.log) + Broadcast(players, PlayerPlayed(played.value.Data(), seat, DataOf(line.chips)))
      ensures played.None? ==> net.log == old(net.log)
    {
      Report(seat, played);
      timesPassed := if played.Some? then 0 else timesPassed + 1;
    }

    /** The `PLAYER_PLAYED` message after a server seat's turn: sent to every player when a chip was played, nothing otherwise. */
    method Report(seat: int, played: Option<DominoChip>)
      modifies net
      ensures played.Some? ==> net.log == old(net.log) + Broadcast(players, PlayerPlayed(played.value.Data(), seat, DataOf(line.chips)))
      ensures played.None? ==> net.log == old(net.log)
    {
      if played.Some? {
        SendMessages(PlayerPlayed(played.value.Data(), seat, DataOf(line.chips)));
      }
    }

    /** One visited seat of `playCPU`: the next `Turn` of the run that started at seat `lo` from round `r`. */
    /**
     * The state of the `playCPU` loop after seats `lo` to `k - 1` of the run
     * from round `r`: the round, the moves, the messages after `base` and the
     * pass count after `passed` are that run's, and every chip off the line
     * keeps the side `sides` records.
     */
    ghost predicate RunSoFar(r: Round, lo: int, k: int, played: seq<bool>, passed: int, sides: seq<bool>, base: seq<Sent>)
      reads this, tiles, line, hands, net, tiles.deck, line.chips
    {
      && Valid() && |hands| == 4 && |r.hands| == 4 && 0 <= lo <= k <= 4
      && Now() == Run(r, lo, k, firstGame) && played == RunMoves(r, lo, k, firstGame)
      && net.log == base + RunTold(r, players, lo, k, firstGame)
      && timesPassed == PassesAfter(passed, played)
      && SidesKept(sides)
    }

    method CpuStep(seat: int, ghost r: Round, ghost lo: int, ghost passed: int, ghost played: seq<bool>, ghost sides: seq<bool>,
                   ghost base: seq<Sent>) returns (b: bool)
      requires seat < 4 && RunSoFar(r, lo, seat, played, passed, sides, base)
      modifies this, line, hands[seat], hands[seat].chips, net
      ensures Valid() && hands == old(hands) && line == old(line)
      ensures startedThisGame == old(startedThisGame) && firstGame == old(firstGame)
      ensures Now() == Run(r, lo, seat + 1, firstGame)
      ensures SidesKept(sides)
      ensures played + [b] == RunMoves(r, lo, seat + 1, firstGame)
      ensures timesPassed == PassesAfter(passed, played + [b])
      ensures net.log == old(net.log) + Told(Run(r, lo, seat, firstGame), players, seat, firstGame)
      ensures RunSoFar(r, lo, seat + 1, played + [b], passed, sides, base)
    {
      RunToldNext(net.log, base, r, players, lo, seat, firstGame);
      var chip := CpuTurn(seat);
      PassesAfterSnoc(passed, played, chip.Some?);
      b := chip.Some?;
    }

    /** A run that went from the seat after `lastPlayer` up to the first signed-in seat is the `CpuRun`. */
    lemma CpuRunReached(r: Round, lastPlayer: int, played: seq<bool>, passed: int, sides: seq<bool>, base: seq<Sent>)
      requires 0 <= lastPlayer < 4
      requires RunSoFar(r, NextSeat(lastPlayer), NextSeat(lastPlayer) + CpuTurns(lastPlayer, |players|), played, passed, sides, base)
      ensures Valid() && |hands| == 4 && Now() == CpuRun(r, lastPlayer, |players|, firstGame) && SidesKept(sides)
      ensures played == CpuMoves(r, lastPlayer, |players|, firstGame) && |played| == CpuTurns(lastPlayer, |players|)
      ensures net.log == base + CpuTold(r, players, lastPlayer, firstGame)
      ensures OnTable(HandChips(), line.chips) == OnTable(r.hands, r.line)
      ensures timesPassed == PassesAfter(passed, played)
    {
      var n := NextSeat(lastPlayer);
      RunConserves(r, n, n + CpuTurns(lastPlayer, |players|), firstGame);
    }

    /**
     * `playCPU`: the server's seats after `lastPlayer` play in turn until a
     * signed-in seat comes up. `played` records, seat by seat, whether each
     * visited seat played; the round after it is the `CpuRun` from the round
     * before, and the messages sent are that run's.
     */
    method PlayCPU(lastPlayer: int) returns (ghost played: seq<bool>)
      requires Valid() && |hands| == 4 && 0 <= lastPlayer < 4
      modifies this, line, hands, net, set c | c in tiles.deck
      ensures Valid() && hands == old(hands) && line == old(line)
      ensures startedThisGame == old(startedThisGame) && firstGame == old(firstGame)
      ensures Now() == CpuRun(old(Now()), lastPlayer, |players|, firstGame)
      ensures SidesKept(old(Sides()))
      ensures played == CpuMoves(old(Now()), lastPlayer, |players|, firstGame)
      ensures net.log == old(net.log) + CpuTold(old(Now()), players, lastPlayer, firstGame)
      ensures OnTable(HandChips(), line.chips) == old(OnTable(HandChips(), line.chips))
      ensures |played| == CpuTurns(lastPlayer, |players|)
      ensures timesPassed == PassesAfter(old(timesPassed), played)
    {
      var n := NextSeat(lastPlayer);
      ghost var r := Now();
      ghost var total := OnTable(HandChips(), line.chips);
      assert total == OnTable(r.hands, r.line);
      ghost var m := CpuTurns(lastPlayer, |players|);
      assert m == if n >= |players| then 4 - n else 0;
      played := PlayFrom(n);
      CpuRunReached(r, lastPlayer, played, old(timesPassed), old(Sides()), old(net.log));
    }

    /** The loop of `playCPU`, from seat `nextPlayer` on while the seat is a server seat. */
    method PlayFrom(nextPlayer: int) returns (ghost played: seq<bool>)
      requires Valid() && |hands| == 4 && 0 <= nextPlayer < 4
      modifies this, line, hands, net, set c | c in tiles.deck
      ensures Valid() && hands == old(hands) && line == old(line)
      ensures startedThisGame == old(startedThisGame) && firstGame == old(firstGame)
      ensures |played| == if nextPlayer >= |players| then 4 - nextPlayer else 0
      ensures RunSoFar(old(Now()), nextPlayer, nextPlayer + |played|, played, old(timesPassed), old(Sides()), old(net.log))
    {
      var seat := nextPlayer;
      ghost var r := Now();
      ghost var sides := Sides();
      ghost var k := nextPlayer;
      played := [];
      while seat >= |players|
        invariant k == nextPlayer + |played| <= 4
        invariant seat == if k == 4 then 0 else k
        invariant played != [] ==> nextPlayer >= |players|
        invariant hands == old(hands) && line == old(line)
        invariant startedThisGame == old(startedThisGame) && firstGame == old(firstGame)
        invariant RunSoFar(r, nextPlayer, k, played, old(timesPassed), sides, old(net.log))
        decreases 4 - k
      {
        assert Among(hands[seat].chips, tiles.deck) by {
          assert HandChips()[seat] == hands[seat].chips;
        }
        var b := CpuStep(seat, r, nextPlayer, old(timesPassed), played, sides, old(net.log));
        played := played + [b];
        k := k + 1;
        seat := NextSeat(seat);
      }
    }

    /**
     * One seat of the opening run that `makeGame` and `endGame` make when a
     * server seat opens: `makePlay` with the opening flag set, whatever the
     * round, and the play, if any, sent to every player. The pass count is
     * left alone.
     */
    method OpeningTurn(seat: int) returns (played: Option<DominoChip>)
      requires Valid() && |hands| == 4 && 0 <= seat < 4
      modifies this, line, hands[seat], hands[seat].chips, net
      ensures Valid() && hands == old(hands) && line == old(line)
      ensures startedThisGame == old(startedThisGame) && firstGame == old(firstGame) && timesPassed == old(timesPassed)
      ensures played.Some? <==> FirstPlayable(old(line.ends), old(hands[seat].chips), true).Some?
      ensures line.chips == old(line.chips) + if played.Some? then [played.value] else []
      ensures forall c :: c in old(hands[seat].chips) && (played.None? || c != played.value) ==> c.placeFirst == old(c.placeFirst)
      ensures Now() == Turn(old(Now()), seat, true)
      ensures net.log == old(net.log) + Told(old(Now()), players, seat, true)
    {
      ghost var r := Now();
      assert r.hands[seat] == hands[seat].chips;
      played := MakePlay(seat, true);
      Report(seat, played);
      if played.Some? {
        assert DataOf(line.chips)[|line.chips| - 1] == played.value.Data();
      }
    }

    /** One seat of the opening run: the next `Turn` of the run that started at seat `lo` from round `r`. */
    method OpeningStep(seat: int, ghost r: Round, ghost lo: int, ghost sides: seq<bool>, ghost base: seq<Sent>)
      requires seat < 4 && OpeningSoFar(r, lo, seat, sides, base)
      modifies this, line, hands[seat], hands[seat].chips, net
      ensures Valid() && hands == old(hands) && line == old(line)
      ensures startedThisGame == old(startedThisGame) && firstGame == old(firstGame) && timesPassed == old(timesPassed)
      ensures Now() == Run(r, lo, seat + 1, true)
      ensures SidesKept(sides)
      ensures net.log == old(net.log) + Told(Run(r, lo, seat, true), players, seat, true)
      ensures OpeningSoFar(r, lo, seat + 1, sides, base)
    {
      RunToldNext(net.log, base, r, players, lo, seat, true);
      var chip := OpeningTurn(seat);
    }

    /**
     * The state of the opening run after seats `lo` to `k - 1` from round `r`:
     * the round and the messages after `base` are that run's, and every chip
     * off the line keeps the side `sides` records.
     */
    ghost predicate OpeningSoFar(r: Round, lo: int, k: int, sides: seq<bool>, base: seq<Sent>)
      reads this, tiles, line, hands, net, tiles.deck, line.chips
    {
      && Valid() && |hands| == 4 && |r.hands| == 4 && 0 <= lo <= k <= 4
      && Now() == Run(r, lo, k, true)
      && net.log == base + RunTold(r, players, lo, k, true)
      && SidesKept(sides)
    }

    /** The loop of the opening run: seats `from` to 3, in order, each take one `OpeningStep`. */
    method OpeningFrom(from: int)
      requires Valid() && |hands| == 4 && 0 <= from <= 4
      modifies this, line, hands, net, set c | c in tiles.deck
      ensures hands == old(hands) && line == old(line)
      ensures startedThisGame == old(startedThisGame) && firstGame == old(firstGame) && timesPassed == old(timesPassed)
      ensures OpeningSoFar(old(Now()), from, 4, old(Sides()), old(net.log))
    {
      ghost var r := Now();
      ghost var sides := Sides();
      for seat := from to 4
        invariant hands == old(hands) && line == old(line)
        invariant startedThisGame == old(startedThisGame) && firstGame == old(firstGame) && timesPassed == old(timesPassed)
        invariant OpeningSoFar(r, from, seat, sides, old(net.log))
      {
        assert Among(hands[seat].chips, tiles.deck) by {
          assert HandChips()[seat] == hands[seat].chips;
        }
        OpeningStep(seat, r, from, sides, old(net.log));
      }
    }

    /**
     * The opening run: seats `from` to 3 each take one `OpeningTurn`, in order,
     * so the round becomes the `Run` from seat `from` with the opening flag, and
     * the messages sent are that run's.
     */
    method OpeningRun(from: int)
      requires Valid() && |hands| == 4 && 0 <= from <= 4
      modifies this, line, hands, net, set c | c in tiles.deck
      ensures Valid() && hands == old(hands) && line == old(line)
      ensures startedThisGame == old(startedThisGame) && firstGame == old(firstGame) && timesPassed == old(timesPassed)
      ensures Now() == Run(old(Now()), from, 4, true)
      ensures SidesKept(old(Sides()))
      ensures net.log == old(net.log) + RunTold(old(Now()), players, from, 4, true)
      ensures OnTable(HandChips(), line.chips) == old(OnTable(HandChips(), line.chips))
    {
      ghost var r := Now();
      ghost var before := OnTable(HandChips(), line.chips);
      OpeningFrom(from);
      assert Now() == Run(r, from, 4, true);
      assert net.log == old(net.log) + RunTold(r, players, from, 4, true);
      RunConserves(r, from, 4, true);
      assert OnTable(HandChips(), line.chips) == before;
    }
  }
}

=== FILE: tiles.dfy ===
/**
 * `DominoTiles`: the 28 chips of a double-six set and a dealing cursor. The
 * constructor enumerates every pair once; `shuffle` reorders the chips and
 * rewinds the cursor; `getHand` hands out the next seven chips.
 */
module Tiles {
  import opened Chips
  import opened Hands
  import opened Lists

  /** The pips of each chip, in list order. */
  function Pips(cs: seq<DominoChip>): (ps: seq<(int, int)>)
    ensures |ps| == |cs|
    ensures forall i :: 0 <= i < |cs| ==> ps[i] == (cs[i].first, cs[i].second)
  {
    seq(|cs|, i requires 0 <= i < |cs| => (cs[i].first, cs[i].second))
  }

  /** Row `f` of the enumeration cut after `k` entries: (f, 0), ..., (f, k - 1). */
  function Row(f: int, k: nat): seq<(int, int)>
  {
    seq(k, j => (f, j))
  }

  /** The pairs the constructor's nested loops produce for first values below `n`. */
  function Rows(n: nat): seq<(int, int)>
  {
    if n == 0 then [] else Rows(n - 1) + Row(n - 1, n)
  }

  /** Every pair (first, second) with 0 <= second <= first <= 6, first ascending, then second. */
  function Enumeration(): seq<(int, int)>
  {
    Rows(7)
  }

  lemma {:induction false} RowsLength(n: nat)
    ensures |Rows(n)| == n * (n + 1) / 2
  {
    if n > 0 {
      RowsLength(n - 1);
    }
  }

  /** A pair is enumerated exactly when 0 <= second <= first < n. */
  lemma {:induction false} RowsMember(n: nat, p: (int, int))
    ensures p in Rows(n) <==> 0 <= p.1 <= p.0 < n
  {
    if n > 0 {
      RowsMember(n - 1, p);
      if p.0 == n - 1 && 0 <= p.1 < n {
        assert Row(n - 1, n)[p.1] == p;
      }
    }
  }

  /** No pair is enumerated twice. */
  lemma {:induction false} RowsDistinct(n: nat)
    ensures Distinct(Rows(n))
  {
    if n > 0 {
      RowsDistinct(n - 1);
      var a, b := Rows(n - 1), Row(n - 1, n);
      forall i, j | 0 <= i < j < |a + b|
        ensures (a + b)[i] != (a + b)[j]
      {
        if j >= |a| && i < |a| {
          RowsMember(n - 1, a[i]);
        }
      }
    }
  }

  /** The set has 28 distinct chips, they are exactly the double-six pairs, and the last is the double six. */
  lemma EnumerationFacts()
    ensures |Enumeration()| == 28 && Distinct(Enumeration())
    ensures forall p :: p in Enumeration() <==> 0 <= p.1 <= p.0 <= 6
    ensures Enumeration()[27] == (6, 6)
  {
    RowsLength(7);
    RowsLength(6);
    RowsDistinct(7);
    forall p
      ensures p in Enumeration() <==> 0 <= p.1 <= p.0 <= 6
    {
      RowsMember(7, p);
    }
  }

  /**
   * What the game relies on about the set: 28 chips with pairwise different
   * pips, each pair with 0 <= second <= first <= 6, and the last one the double six.
   */
  ghost predicate DoubleSixSet(cs: seq<DominoChip>)
  {
    && |cs| == 28 && Distinct(Pips(cs))
    && (forall i :: 0 <= i < |cs| ==> 0 <= cs[i].second <= cs[i].first <= 6)
    && IsDoubleSix(cs[27])
  }

  /** The enumerated chips form such a set. */
  lemma EnumeratedSet(cs: seq<DominoChip>)
    requires Pips(cs) == Enumeration()
    ensures DoubleSixSet(cs)
  {
    EnumerationFacts();
    forall i | 0 <= i < |cs|
      ensures 0 <= cs[i].second <= cs[i].first <= 6
    {
      assert Pips(cs)[i] in Enumeration();
    }
    assert Pips(cs)[27] == (6, 6);
  }

  function Swap(cs: seq<DominoChip>, i: nat, j: nat): (r: seq<DominoChip>)
    requires i < |cs| && j < |cs|
    ensures multiset(r) == multiset(cs) && |r| == |cs|
  {
    cs[i := cs[j]][j := cs[i]]
  }

  /**
   * The draws of a shuffle: position `i` is swapped with a position chosen at
   * random among 0..i, going from the last position down to the second.
   */
  predicate IsDrawList(draws: seq<nat>, size: nat)
  {
    |draws| == size && forall i :: 0 <= i < size ==> draws[i] <= i
  }

  /** A cursor at a multiple of seven below 28 has seven chips ahead of it. */
  lemma CursorRoom(next: int)
    requires 0 <= next < 28 && next % 7 == 0
    ensures next + 7 <= 28
  {
    var q := next / 7;
    assert next == 7 * q;
  }

  class DominoTiles {
    var chips: seq<DominoChip>
    var next: int
    /** The chips in the order the constructor made them. */
    ghost const deck: seq<DominoChip>

    ghost predicate Valid()
      reads this
    {
      && DoubleSixSet(deck)
      && |chips| == 28 && multiset(chips) == multiset(deck)
      && 0 <= next <= 28 && next % 7 == 0
    }

    /** One chip per pair (first, second), first from 0 to 6 and second from 0 to first, in that order. */
    constructor ()
      ensures Valid() && next == 0
      ensures chips == deck && Pips(chips) == Enumeration()
      ensures forall c :: c in deck ==> fresh(c) && !c.placeFirst
    {
      var cs: seq<DominoChip> := [];
      var first := 0;
      while first < 7
        invariant 0 <= first <= 7
        invariant Pips(cs) == Rows(first)
        invariant Distinct(cs) && forall c :: c in cs ==> fresh(c) && !c.placeFirst
      {
        var second := 0;
        while second <= first
          invariant 0 <= second <= first + 1
          invariant Pips(cs) == Rows(first) + Row(first, second)
          invariant Distinct(cs) && forall c :: c in cs ==> fresh(c) && !c.placeFirst
        {
          var c := new DominoChip(first, second);
          assert Row(first, second + 1) == Row(first, second) + [(first, second)];
          cs := cs + [c];
          second := second + 1;
        }
        first := first + 1;
      }
      EnumeratedSet(cs);
      next := 0;
      chips := cs;
      deck := cs;
    }

    /** Every chip is distinct, whatever the order. */
    lemma ChipsDistinct()
      requires Valid()
      ensures Distinct(chips)
    {
      assert Distinct(deck) by {
        forall i, j | 0 <= i < j < |deck|
          ensures deck[i] != deck[j]
        {
          assert Pips(deck)[i] != Pips(deck)[j];
        }
      }
      DistinctMultiset(deck, chips);
    }

    /** Exactly one chip of the set is the double six, whatever the order. */
    lemma UniqueDoubleSix() returns (p: nat)
      requires Valid()
      ensures p < |chips| && IsDoubleSix(chips[p])
      ensures forall i :: 0 <= i < |chips| && IsDoubleSix(chips[i]) ==> i == p
    {
      ChipsDistinct();
      var d := deck[27];
      assert d in multiset(chips);
      p :| 0 <= p < |chips| && chips[p] == d;
      forall i | 0 <= i < |chips| && IsDoubleSix(chips[i])
        ensures i == p
      {
        assert chips[i] in multiset(deck);
        var m :| 0 <= m < |deck| && deck[m] == chips[i];
        assert Pips(deck)[m] == Pips(deck)[27];
      }
    }

    /**
     * `shuffle`: the list library's shuffle, which walks from the last
     * position to the second and swaps each with a randomly drawn position at
     * or before it; the draws are a parameter. The cursor goes back to 0.
     */
    method Shuffle(draws: seq<nat>)
      requires Valid() && IsDrawList(draws, |chips|)
      modifies this
      ensures Valid() && next == 0
      ensures multiset(chips) == multiset(old(chips))
    {
      var i := |chips|;
      while i > 1
        invariant 0 <= i <= |chips| && |chips| == 28
        invariant multiset(chips) == multiset(old(chips))
      {
        chips := Swap(chips, i - 1, draws[i - 1]);
        i := i - 1;
      }
      next := 0;
    }

    /**
     * `getHand`: while chips remain, the seven at the cursor, in order, and the
     * cursor moves past them; once the chips are used up, nothing, and the
     * cursor stays put.
     */
    method GetHand() returns (hand: seq<DominoChip>)
      requires Valid()
      modifies this
      ensures Valid() && chips == old(chips)
      ensures old(next) < |chips| ==> hand == chips[old(next)..old(next) + 7] && next == old(next) + 7
      ensures old(next) >= |chips| ==> hand == [] && next == old(next)
    {
      hand := [];
      if next < |chips| {
        CursorRoom(next);
        var tile := next;
        while tile < next + 7
          invariant next <= tile <= next + 7
          invariant hand == chips[next..tile]
        {
          hand := hand + [chips[tile]];
          tile := tile + 1;
        }
        next := tile;
      }
    }
  }
}
